=== FILE: README.md ===
# LugonTestbed core, modelled in Dafny

LugonTestbed is a WPF desktop front end for a Python simulation. The user
prepares a run folder and queues replicate runs under
`grid_<N>/rep_<NNN>` sub-folders. A batch pass then launches each queued run.
Afterwards, the app scrapes every replicate's `run.log` for a metric and its
argument files for a seed, and writes one text report per grid plus a TSV
and a JSONL summary. Alongside these it keeps a small `key=value` settings
file and a profile index.

This project models that logic as pure functions over sequences, and
proves what the code promises about them. The modules follow the source
files:

- `Wrappers`: `Option` and `Result`.
- `Text`: the .NET text helpers the code leans on: `char.IsWhiteSpace`,
  `Trim`, ordinal-ignore-case matching, `IndexOf`, `Split`/`Join`,
  `Path.Combine`, and the line splitting a `WriteAllLines`/`ReadAllLines`
  cycle performs.
- `Numbers`: `int.TryParse` with invariant culture, `int.ToString()`,
  zero padding, 32-bit wrap-around, four-digit hex.
- `NumberFormat`: `NumberFormat.cs`: `FFull`, `FExp`, `FTimestamp`,
  `CsvEscape`.
- `Stats`: `Stats.cs`: the Welford accumulator, its merge, `StatsResult`,
  `Compute`.
- `LogParsing`: `LogParsing.cs`: `TryExtractMetric`, `TryExtractSeed`,
  `TryExtractGrid`.
- `RunIo`: `RunIO.cs`: `RowEntry`, `SummaryRow`, the per-grid text report,
  the TSV and JSONL summaries, `JsonEscape` (section 7 of RFC 8259), and
  readers that parse the written lines back.
- `Command`: argument defaulting, `args.txt`, `ResolveTemplate`,
  `SplitCommand`, and the command a launch builds.
- `Defaults`: `Defaults.cs`: the default command template, and
  `ReadSetting`/`WriteSetting`.
- `ProfileDialog`: `NewTestProfileDialog.xaml.cs`: `Slugify` and the
  index-line update of `Save_Click`.
- `Queue`: `RunRequest`, `GetNextRepIndex`, adding replicates, removing
  selected items.
- `Batch`: one pass of `RunQueueButton_Click`, a fold over the snapshot of
  queued items. An oracle gives each process outcome.
- `Sorting`: `OrderBy(p => p, StringComparer.OrdinalIgnoreCase)` as a
  stable insertion sort.
- `Aggregate`: `AggregateButton_Click`, covering the folder walk, the rows
  per grid, the reports and both summaries.

Things the program gets from the platform are parameters:

- `DoubleParser` stands for `double.TryParse`.
- `Renderer` stands for the "R" and "E" formats.
- `Sqrt` stands for `Math.Sqrt`.
- Files are given as their lines (`TextFile`, `LogFile`).
- Folders are given as listings.
- Process outcomes come from an oracle.

Every operation has a partner it is checked against. These partners are:

- readers for the writers (TSV, JSONL, JSON strings, CSV fields, settings
  lines, `rep_NNN` names, `int` texts);
- a reference result for the batch pass (`Settled`);
- segment-wise substitution for `ResolveTemplate`;
- sequential adding for `Merge`;
- the textbook sum, mean and sum of squared deviations for the
  accumulator.

## Model

| member | source | states |
|---|---|---|
| Queue.RepNumber | app/MainWindow.xaml.cs:1102-1113 | A folder name gives a replicate number only if it starts with `rep_` (in any case) and the rest parses as a 32-bit integer. Any other name gives none. |
| Queue.NextRepIndex | app/MainWindow.xaml.cs:1090-1123 | A missing or unreadable grid folder gives 1. Otherwise the result is one more than the largest replicate number found (0 if none). So below `int.MaxValue` it is at least 1 and greater than every existing number. At `int.MaxValue` it wraps to `int.MinValue`, as unchecked C# does. |
| Queue.NextAfterOne | app/MainWindow.xaml.cs:1090-1123 | Once the folder for the next number exists, the next number moves up by exactly one. |
| Queue.RepNameRoundTrip | app/MainWindow.xaml.cs:232 | The `rep_NNN` name written for any non-negative 32-bit number reads back as that number. |
| Queue.ReplicateCount | app/MainWindow.xaml.cs:201-202 | The replicate box gives its parsed value when that is at least 1. A box that does not parse, or is below 1, gives 1. |
| Queue.AddToQueue | app/MainWindow.xaml.cs:184-260 | Without a prepared run folder, the queue is unchanged and the "Prepare a run first" text is shown. Otherwise the queue gains replicates 0, 1, … in order. It stops before the first replicate whose folder cannot be created. |
| Queue.AddKeepsQueue | app/MainWindow.xaml.cs:225-251 | The items already queued stay in place and unchanged. The queue grows by exactly the number of replicates added. |
| Queue.AddedReplicates | app/MainWindow.xaml.cs:224-247 | Added item k is Queued, with number next+k (at least 1) and total = the replicate count. Its seed is the typed seed + k, or none when no seed parses. Its folder ends with its own `rep_NNN` name. |
| Queue.AddedIndicesFresh | app/MainWindow.xaml.cs:223-227 | The numbers of the added replicates strictly increase, and each is above every number already in the grid folder. |
| Queue.AddMessageFailed | app/MainWindow.xaml.cs:253-258 | The "Failed to add" text is shown exactly when fewer replicates were added than asked for. |
| Queue.RemoveSelected | app/MainWindow.xaml.cs:262-293 | An empty selection changes nothing and says so. Otherwise exactly the selected positions are removed, and the remaining items keep their relative order. |
| Queue.RemoveAtKept | app/MainWindow.xaml.cs:279-280 | The queue after removal is, item for item, the queue at the unselected positions. |
| Queue.KeptIncreasing | app/MainWindow.xaml.cs:279-280 | The positions that survive a removal are in increasing order, so the order of the queue is kept. |
| Batch.History | app/MainWindow.xaml.cs:357-471 | An item is first marked Running, unless its folder is blank or setup threw, and then ends Done or Failed. It ends Done exactly when its folder is set, its process exited with code 0 and nothing threw afterwards. A throw after the item was counted (the log line, or closing `process` and `host.log` at the end of the `try`) gives it a third status, Failed, from the catch. |
| Batch.Marks | app/MainWindow.xaml.cs:357-471 | An item adds one success exactly when its process exited with code 0. Otherwise it adds one failure, and a throw after the count adds one failure more. |
| Batch.PassFinishes | app/MainWindow.xaml.cs:354-472 | After a pass over increasing positions, each of those items carries its final status. Every other item is unchanged. |
| Batch.PassSettles | app/MainWindow.xaml.cs:313-314 | A pass over the snapshot of Queued items equals the reference result: items Queued at the start are settled and all others are untouched. |
| Batch.PassCounts | app/MainWindow.xaml.cs:351-471 | The success count is the number of run items whose process exited with code 0. The failure count is the rest of the items, plus one for each item counted twice. |
| Batch.RunWhileRunning | app/MainWindow.xaml.cs:297-302 | A request while a pass is running changes nothing and reports "already running". |
| Batch.RunClearsFlag | app/MainWindow.xaml.cs:304-349 | Every exit path leaves the running flag cleared. The queue changes only on the finishing path, which is taken exactly when the run folder exists, something is queued and a script was found. |
| Batch.RunSettles | app/MainWindow.xaml.cs:313-472 | After a finished pass, each item Queued at its start is Done or Failed and otherwise unchanged. It is Done exactly when it had a folder, exit code 0 and no throw after the count. Every other item is unchanged. |
| Batch.RunCounts | app/MainWindow.xaml.cs:351-476 | A finished pass reports as successes the items whose process exited with code 0. Successes plus failures equal the snapshot size plus the number of items counted twice. |
| Batch.CloseThrowCountsTwice | app/MainWindow.xaml.cs:399-469 | One queued item whose process exits with code 0, and whose `host.log` then fails to close, ends Failed with the counts one success and one failure. |
| Batch.RunTwice | app/MainWindow.xaml.cs:314-320 | A second pass after a finished one finds nothing queued and changes nothing, whatever the processes would do. |
| Batch.RunQueue | app/MainWindow.xaml.cs:295-487 | A request while a pass runs changes nothing. Otherwise the running flag ends cleared and the queue keeps its length. The queue changes only when the pass finishes, and then the counts cover at least the non-empty snapshot. |
| Batch.ItemArgsSeed | app/MainWindow.xaml.cs:375-383 | The `args.txt` a queued run writes gives the item's seed back to the seed scraper, or none when the item has none. |
| Batch.ItemCommandAsLaunch | app/MainWindow.xaml.cs:385-394 | A queued run starts the interpreter with the same argument line a template-less launch of the same settings splits out. |
| Command.DefaultArg | app/MainWindow.xaml.cs:371-372 | A blank box gives the fallback. Otherwise the result is the trimmed box: non-empty, with no white space at either end. |
| Command.DefaultArgStable | app/MainWindow.xaml.cs:371-372 | Defaulting an already defaulted value changes nothing, so the batch pass re-defaulting a queued item's grid and steps is harmless. |
| Command.SeedArg | app/MainWindow.xaml.cs:373 | The seed segment is empty exactly when there is no seed. Otherwise it is ` --seed n`. |
| Command.ArgsTxtLines | app/MainWindow.xaml.cs:376-383 | `args.txt` holds `--grid`, `--steps`, then `--seed` only when a seed is set, then the quoted `--out` line. |
| Command.ArgsTxtSeed | app/MainWindow.xaml.cs:376-383 | Scraping `args.txt` for `--seed` gives back exactly the seed written, or none when none was written. |
| Command.ArgsTxtGrid | app/MainWindow.xaml.cs:376-383 | Scraping `args.txt` for `--grid` gives back the grid written. |
| Command.ResolveTemplate | app/MainWindow.xaml.cs:1167-1183 | An empty template gives "". An empty map gives the template unchanged. The result is missing exactly when a non-empty template meets a map with two keys equal up to case, where the case-insensitive dictionary copy throws. |
| Command.ResolvesDistinct | app/MainWindow.xaml.cs:1173 | A map whose keys differ ignoring case always resolves. |
| Command.FindOwn | app/MainWindow.xaml.cs:1173-1181 | In a map with distinct keys, looking a key up in any case finds its own value. |
| Command.ResolveRendered | app/MainWindow.xaml.cs:1175-1182 | For any template built from literal text without `{` and placeholders `{key}`, one left-to-right pass equals substituting piece by piece. Known keys take their value and unknown ones stay verbatim. |
| Command.ResolveNoBraces | app/MainWindow.xaml.cs:1167-1183 | A template without `{` comes back unchanged. |
| Command.SplitCommand | app/MainWindow.xaml.cs:1229 | A blank command splits into two empty parts. |
| Command.SplitQuoted | app/MainWindow.xaml.cs:1230-1234 | A command starting with a double-quoted path gives that path as the executable (trimmed) and the trimmed remainder as the arguments. |
| Command.SplitBare | app/MainWindow.xaml.cs:1230-1234 | A command starting with an unquoted word gives that word as the executable and the trimmed remainder as the arguments. |
| Command.SplitQuotedArgs | app/MainWindow.xaml.cs:1230-1234 | An unquoted interpreter followed by a quoted argument line splits back into exactly those two. |
| Command.LaunchParams | app/MainWindow.xaml.cs:892-901 | The launch map has the seven keys `python`, `script`, `projectRoot`, `grid`, `steps`, `outDir`, `seedOpt` with their values, and no two keys are equal up to case. |
| Command.LaunchCommand | app/MainWindow.xaml.cs:849-916 | A launch fails exactly when there is neither a script nor a template. Without a template, the command is the interpreter followed by the quoted argument line, split. |
| Command.LaunchFallback | app/MainWindow.xaml.cs:908-916 | Without a template, the launch starts the interpreter with the quoted script, grid, steps, optional seed and quoted output folder as its arguments. |
| Command.LaunchTemplate | app/MainWindow.xaml.cs:904-916 | With a template, the launch runs the template with each placeholder replaced from the launch map, split into executable and arguments. |
| LogParsing.TryExtractMetric | app/WpfApp/Helpers/LogParsing.cs:86-90 | A missing log gives no value, with note "no run.log". |
| LogParsing.Judge | app/WpfApp/Helpers/LogParsing.cs:96-142 | A line is a METRIC hit exactly when its trimmed text yields a METRIC value. A line judged an `elapsed_s` line carries the value its trimmed text gives after `elapsed_s=`. |
| LogParsing.MetricWins | app/WpfApp/Helpers/LogParsing.cs:94-142 | The first line that yields a METRIC value decides the result, whatever `elapsed_s=` lines come before or after it, and whether or not the read fails later. |
| LogParsing.ElapsedFallback | app/WpfApp/Helpers/LogParsing.cs:99-155 | With no METRIC hit, the result is the last parseable `elapsed_s=` value with note "elapsed_s". Without one, the note is "no metric". A read failure gives no value and "read error". |
| LogParsing.Fallback | app/WpfApp/Helpers/LogParsing.cs:145-155 | The end-of-file result has a value exactly when the read did not fail and an `elapsed_s` value was seen. Its note is chosen in the source's order. |
| LogParsing.MetricNamedLine | app/WpfApp/Helpers/LogParsing.cs:112-132 | A line `METRIC name=value` whose value parses gives that value with note "METRIC name". |
| LogParsing.MetricLineNote | app/WpfApp/Helpers/LogParsing.cs:111-141 | Every METRIC hit carries a value, and its note is "METRIC" or "METRIC " followed by a non-blank name. |
| LogParsing.NamedMetricNote | app/WpfApp/Helpers/LogParsing.cs:119-131 | A named hit's note is "METRIC " plus the trimmed, non-blank text before the first `=`. |
| LogParsing.FlagValue | app/WpfApp/Helpers/LogParsing.cs:56-66 | A line gives a value only when it contains the flag (ignoring case), and the value is a 32-bit integer. |
| LogParsing.TryExtractFlag | app/WpfApp/Helpers/LogParsing.cs:49-75 | A missing or unreadable file gives no value. |
| LogParsing.FlagFromFirstLine | app/WpfApp/Helpers/LogParsing.cs:54-67 | The first line that yields a value decides the result. Earlier lines that mention the flag with an unparseable token are skipped. |
| LogParsing.FlagAbsent | app/WpfApp/Helpers/LogParsing.cs:49-75 | The scraper finds nothing exactly when no line yields a value. |
| LogParsing.FlagValueOf | app/WpfApp/Helpers/LogParsing.cs:56-66 | `flag n` and `flag=n` both give n, for every 32-bit n. |
| LogParsing.SeedFlagForms | app/WpfApp/Helpers/LogParsing.cs:49-75 | A file holding `--seed 12` or `--seed=12` gives 12, for every 32-bit value. |
| Stats.Add | app/WpfApp/Helpers/Stats.cs:64-76 | A non-finite value leaves the accumulator unchanged. A finite value x raises the count by one and the sum by x, and keeps mean × count equal to the running total. |
| Stats.AddFields | app/WpfApp/Helpers/Stats.cs:71-75 | A finite value moves the mean and `m2` by the Welford updates. |
| Stats.AddAllRepresents | app/WpfApp/Helpers/Stats.cs:64-82 | After adding any values from empty, the count, sum, mean and `m2` are exactly those of the finite values taken over the reals: n, Σx, Σx/n and Σ(x−mean)². |
| Stats.AddAll | app/WpfApp/Helpers/Stats.cs:79-82 | Adding a sequence raises the count by the number of finite values and the sum by their total. The mean and `m2` are stated by AddAllRepresents. |
| Stats.M2IsSqDev | app/WpfApp/Helpers/Stats.cs:71-75 | An exact accumulator's `m2` is the sum of squared deviations from its mean, and so is never negative. |
| Stats.Merge | app/WpfApp/Helpers/Stats.cs:85-110 | Merging an empty accumulator changes nothing, and merging into an empty one copies the other. Otherwise counts and sums add. |
| Stats.MergeRepresents | app/WpfApp/Helpers/Stats.cs:85-110 | Merging exact accumulators for xs and ys gives the exact accumulator for xs followed by ys. |
| Stats.MergeIsSequentialAdd | app/WpfApp/Helpers/Stats.cs:84-110 | Merging the accumulator of some values equals adding those values one by one. |
| Stats.MakeResult | app/WpfApp/Helpers/Stats.cs:25-34 | Variance, stdev and stderr are 0 below two samples. The variance is the one given from two samples on. The CI half-width is 1.96 stderr, and none of these is negative when the variance is not. |
| Stats.ToResultExact | app/WpfApp/Helpers/Stats.cs:53-55 | The summary of an exact accumulator has the samples' count, sum and mean, and the unbiased variance Σ(x−mean)²/(n−1). |
| Stats.ToResult | app/WpfApp/Helpers/Stats.cs:113 | The result carries the count and the sum. Its mean is the accumulator's (0 when empty). Its variance is `m2/(n−1)` from two samples on, and 0 with stderr 0 below that. |
| Stats.Compute | app/WpfApp/Helpers/Stats.cs:125-131 | The loop equals a fresh accumulator fed the values in order, then finalised. Its summary is the count, sum, mean and unbiased variance of exactly the finite values, never negative. |
| RunIo.NewRowEntry | app/WpfApp/Helpers/RunIO.cs:29-35 | A null replicate id or note becomes "". The seed and metric are kept. |
| RunIo.NewSummaryRow | app/WpfApp/Helpers/RunIO.cs:48-56 | A null stat becomes "value", and the other null texts become "". Grid and count are kept. |
| RunIo.EscapeChar | app/WpfApp/Helpers/RunIO.cs:233-252 | Backslash, double quote and control characters get a backslash escape. Everything else is copied. The output holds no control character. |
| RunIo.HexEscape | app/WpfApp/Helpers/RunIO.cs:243-247 | Other control characters become `\u` and four upper-case hex digits. |
| RunIo.JsonEscape | app/WpfApp/Helpers/RunIO.cs:225-256 | The output holds no control character. It equals the input when nothing needs escaping, and is strictly longer otherwise. |
| RunIo.JsonStringRoundTrip | app/WpfApp/Helpers/RunIO.cs:225-256 | Reading a JSON string back from the escaped text and a closing quote recovers the original text and the rest of the line. |
| RunIo.SeedText | app/WpfApp/Helpers/RunIO.cs:99-101 | The seed column is empty exactly when there is no seed. Otherwise it parses back to the seed. It never holds a tab. |
| RunIo.AggregateTxt | app/WpfApp/Helpers/RunIO.cs:69-114 | A blank run folder, or a missing or empty row list, is rejected with the source's messages. Otherwise the report has 12 lines more than there are rows. |
| RunIo.AggregateTxtLayout | app/WpfApp/Helpers/RunIO.cs:88-111 | The report is six header lines, then one line per row in input order, then the statistics footer. |
| RunIo.AggregateFooter | app/WpfApp/Helpers/RunIO.cs:105-107 | The footer's `n =` and `mean =` lines give the count and mean of the rows' finite metrics. |
| RunIo.RowLineColumns | app/WpfApp/Helpers/RunIO.cs:97-103 | A row line splits at tabs into the replicate id, the seed text, the metric and the note. An absent seed gives an empty column, and a present one parses back. |
| RunIo.SummarizeExact | app/WpfApp/Helpers/RunIO.cs:80-83 | The report's statistics are the count, sum and mean of the rows' finite metrics. |
| RunIo.TsvLineRoundTrip | app/WpfApp/Helpers/RunIO.cs:140-147 | A summary row's TSV line parses back to the row. |
| RunIo.SummaryTsv | app/WpfApp/Helpers/RunIO.cs:122-152 | A blank run folder or a missing row list is rejected. Otherwise the file has the header and one line per row. |
| RunIo.SummaryTsvRoundTrip | app/WpfApp/Helpers/RunIO.cs:122-152 | Reading the written TSV file back line by line gives exactly the rows, in order. This needs texts free of tabs and line breaks. |
| RunIo.JsonlLineRoundTrip | app/WpfApp/Helpers/RunIO.cs:176-181 | A row's JSONL object parses back to the row: bare integers for grid and n, escaped strings for the rest. |
| RunIo.SummaryJsonl | app/WpfApp/Helpers/RunIO.cs:160-186 | A blank run folder or a missing row list is rejected. Otherwise there is one line per row. |
| RunIo.SummaryJsonlRoundTrip | app/WpfApp/Helpers/RunIO.cs:160-186 | Reading the written JSONL file back line by line gives exactly the rows, in order, whatever characters their texts hold. |
| NumberFormat.FFullOrEmpty | app/WpfApp/Helpers/NumberFormat.cs:27-28 | A null value gives "". A value gives its round-trip rendering. |
| NumberFormat.ClampDigits | app/WpfApp/Helpers/NumberFormat.cs:38-40 | The digit count is clamped into 1..17: kept inside, 1 below, 17 above. |
| NumberFormat.ExpSpecShape | app/WpfApp/Helpers/NumberFormat.cs:36-45 | The format string `FExp` renders with has two or three characters: `E` followed by digits that read back as the digit count clamped into 1..17. |
| NumberFormat.FExpClamps | app/WpfApp/Helpers/NumberFormat.cs:36-45 | Formatting with any digit count equals formatting with its clamp. |
| NumberFormat.TimestampShape | app/WpfApp/Helpers/NumberFormat.cs:62-63 | A timestamp with a four-digit year is 19 characters with `-`, `-`, space, `:`, `:` at the fixed places, and each field parses back to its value. |
| NumberFormat.FTimestamp | app/WpfApp/Helpers/NumberFormat.cs:62-63 | A timestamp of a valid date is always 19 characters. Its layout is stated by TimestampShape. |
| NumberFormat.CsvEscape | app/WpfApp/Helpers/NumberFormat.cs:74-80 | Null gives "". A field without comma, quote, CR or LF is unchanged. Any other field is wrapped in quotes. |
| NumberFormat.CsvRoundTrip | app/WpfApp/Helpers/NumberFormat.cs:74-80 | Removing the outer quotes and un-doubling the inner ones recovers every field (section 2 of RFC 4180). |
| Numbers.Wrap32 | app/MainWindow.xaml.cs:1116 | Unchecked `int` arithmetic always gives a 32-bit value, and one that already fits is unchanged. |
| Numbers.Wrap32Congruent | app/MainWindow.xaml.cs:1116 | The wrapped value differs from the exact one by a multiple of 2³². |
| Numbers.ParseFInt | app/WpfApp/Helpers/NumberFormat.cs:50-51 | `int.TryParse` reads back every 32-bit integer `FInt` prints. |
| Numbers.ParseFPadded | app/MainWindow.xaml.cs:232 | A zero-padded non-negative 32-bit number parses back to itself. |
| Text.PathCombine | app/MainWindow.xaml.cs:219 | Combining ends with the second part. An empty second part gives the first, and a rooted second part or an empty first part gives the second. Otherwise the first part is followed by one separator. |
| Text.StoredOneLines | app/WpfApp/Helpers/Defaults.cs:107 | Writing lines without line breaks and reading them back gives the same lines. |
| Text.StoredSplits | app/WpfApp/Helpers/Defaults.cs:107 | A written line holding a line break comes back as more lines than were written. |
| Defaults.DefaultTemplateResolves | app/WpfApp/Helpers/Defaults.cs:15-16 | Resolving the default template with the launch map fills every placeholder. The result is the same command as the built-in fallback for `run_poisson.py`. |
| Defaults.CommandSegmentsWellFormed | app/WpfApp/Helpers/Defaults.cs:15-16 | The default template is literal text plus the placeholders `python`, `projectRoot`, `grid`, `steps`, `seedOpt`, `outDir`. |
| Defaults.ReadFrom | app/WpfApp/Helpers/Defaults.cs:78-82 | A setting that is found comes back trimmed. |
| Defaults.ReadSetting | app/WpfApp/Helpers/Defaults.cs:73-87 | A missing or unreadable file gives nothing. |
| Defaults.ReadFromFirst | app/WpfApp/Helpers/Defaults.cs:78-82 | The first line that, trimmed, starts with `key=` (ignoring case) decides: the setting is its trimmed text after `key=`. A later line with the same key is never read, so a file edited by hand with a duplicate key reads as its first entry. |
| Defaults.ReadFromAbsent | app/WpfApp/Helpers/Defaults.cs:78-86 | A lookup finds nothing exactly when no line, trimmed, starts with `key=` (ignoring case). |
| Defaults.Entry | app/WpfApp/Helpers/Defaults.cs:99-103 | A parsed entry has a non-empty trimmed key not starting with `#`, and a trimmed value. |
| Defaults.EntryOfLine | app/WpfApp/Helpers/Defaults.cs:99-103 | A line `key=value` gives the key and the trimmed value. |
| Defaults.Set | app/WpfApp/Helpers/Defaults.cs:103-106 | After setting, the key (in any case) finds the new value. The entry count grows by at most one. |
| Defaults.SetOthers | app/WpfApp/Helpers/Defaults.cs:103-106 | Setting one key leaves what every other key finds unchanged. |
| Defaults.ParseSettingsLast | app/WpfApp/Helpers/Defaults.cs:97-104 | The dictionary built from the file holds, for each key, the value of its last entry in the file. |
| Defaults.WriteSetting | app/WpfApp/Helpers/Defaults.cs:89-110 | An unreadable file is left alone. Otherwise the file is rewritten with at least one line. |
| Defaults.WrittenLineFree | app/WpfApp/Helpers/Defaults.cs:97-107 | For a key and value without line breaks, the file read back is one `key=value` line per dictionary entry. |
| Defaults.WriteThenRead | app/WpfApp/Helpers/Defaults.cs:81-107 | After writing a key and a value without line breaks, reading the key gives the trimmed value. |
| Defaults.WriteKeepsOthers | app/WpfApp/Helpers/Defaults.cs:97-107 | Writing one key leaves what every other key reads as: the value of its last entry before the write. |
| Defaults.WrittenParses | app/WpfApp/Helpers/Defaults.cs:97-107 | Parsing the written file gives back the dictionary that was written, with trimmed values. Comment and blank lines are gone. |
| ProfileDialog.Slugify | app/WpfApp/NewTestProfileDialog.xaml.cs:17-26 | The slug is non-empty and starts with a letter. It uses only `a-z`, `0-9` and `-`, with no `--` and no trailing `-`. |
| ProfileDialog.SlugifyAlnums | app/WpfApp/NewTestProfileDialog.xaml.cs:20-24 | The slug keeps every lower-cased letter and digit of the input, in order. "profile" replaces an input without any, and "p" leads when the first is a digit. |
| ProfileDialog.SlugFixed | app/WpfApp/NewTestProfileDialog.xaml.cs:17-26 | A text that is already a slug is its own slug. |
| ProfileDialog.SlugifyIdempotent | app/WpfApp/NewTestProfileDialog.xaml.cs:17-26 | Slugifying a slug changes nothing. |
| ProfileDialog.UpdateIndex | app/WpfApp/NewTestProfileDialog.xaml.cs:52-59 | An unreadable index fails the save. Otherwise the existing lines (or `equations:` for a new file) are kept in order, and `  - id` is appended exactly when no line trims to `- id`. |
| ProfileDialog.UpdateLists | app/WpfApp/NewTestProfileDialog.xaml.cs:56-57 | After the update, the index lists the id. |
| ProfileDialog.UpdateStored | app/WpfApp/NewTestProfileDialog.xaml.cs:52-59 | The updated index reads back from disk line for line. |
| ProfileDialog.UpdateIdempotent | app/WpfApp/NewTestProfileDialog.xaml.cs:52-59 | Saving the same id again, after the written index is read back, changes nothing. |
| Sorting.SortBySorted | app/MainWindow.xaml.cs:507-509 | The sorted listing is in ascending order of names, compared ignoring case. |
| Sorting.SortBy | app/MainWindow.xaml.cs:525-526 | Sorting is a permutation of the listing. |
| Aggregate.GridOf | app/MainWindow.xaml.cs:513-522 | A grid folder counts only if its name starts with `grid_` (in any case) and the rest is a 32-bit integer. |
| Aggregate.GridOfFolder | app/MainWindow.xaml.cs:513-522 | The folder the queue creates for grid text t reads back as the number t parses to. |
| Aggregate.VisitOrder | app/MainWindow.xaml.cs:507-526 | The grid folders are visited as a permutation of the listing in ascending name order, each with its replicate folders in ascending name order. |
| Aggregate.Visit | app/MainWindow.xaml.cs:507-509 | The grid folders are visited as a reordering of the listing, ascending by name ignoring case. The order within each folder is stated by VisitOrder. |
| Aggregate.RowOf | app/MainWindow.xaml.cs:528-557 | A replicate gives a row exactly when its log yields a metric. The row carries the folder name, that metric, its note, and the first seed found among the candidate files. |
| Aggregate.SeedCandidates | app/MainWindow.xaml.cs:543-549 | The seed is looked for in `args.txt`, `run_args.txt`, `cmd.txt`, then `run.log`. |
| Aggregate.FirstSeedWins | app/MainWindow.xaml.cs:550-554 | The first candidate file that yields a seed decides it. |
| Aggregate.GridRows | app/MainWindow.xaml.cs:524-558 | Every replicate that yields a row contributes it, and every row comes from such a replicate. There are no more rows than replicates. |
| Aggregate.GridRowsInOrder | app/MainWindow.xaml.cs:524-558 | A grid's rows are one row per replicate that yields one, in listing order. The k-th row is the row of the k-th yielding replicate. |
| Aggregate.Put | app/MainWindow.xaml.cs:560-561 | Storing a grid's rows replaces any earlier rows for that grid and keeps the groups in ascending grid order. |
| Aggregate.CollectLast | app/MainWindow.xaml.cs:511-564 | A grid's rows are those of the last visited folder for that grid that produced rows. |
| Aggregate.Collect | app/MainWindow.xaml.cs:506-564 | The per-grid rows are kept in ascending grid order. Every grid is a 32-bit integer and has between 1 and the largest folder's replicate count of rows. Which rows a grid gets is stated by CollectLast and CollectAbsent. |
| Aggregate.CollectAbsent | app/MainWindow.xaml.cs:560-563 | A grid none of whose folders produced rows has no group. |
| Aggregate.SummaryOf | app/MainWindow.xaml.cs:589-600 | A grid's summary row has stat "value", the count of finite metrics, and the same mean text as the report. |
| Aggregate.AggregateRun | app/MainWindow.xaml.cs:490-621 | A blank or missing run folder gives "No run selected. Create or open a run first.". A listing that throws gives "Aggregate failed.", and so does a write that throws once there is data. No data gives "Aggregate found no data.". Otherwise there is one report per grid, with the TSV and JSONL summaries one row per grid. |
| Aggregate.SummariesReadBack | app/MainWindow.xaml.cs:606-610 | Both summary files read back to the same summary rows. |
| Aggregate.SameMeanEverywhere | app/MainWindow.xaml.cs:587-600 | Both summary files read back to the same summary rows. For every grid, the report's `mean =` line shows the same mean text as that grid's summary row. |

## Left out

- Aggregate.AggregateRun: `Disk` says whether the run folder exists, whether listing folders throws and whether writing throws. Which file a failed write leaves behind, and the reports written before it, are not modelled.
- Batch.RunQueue: a throw after an item was counted is the `closeThrew` flag of its `Outcome`. The model does not say which statement threw.
- Process lifecycle is not modelled. This covers starting the interpreter, capturing its output, waiting for it, the cancellation of `Launch_Click`, and the contents of `cmd.txt` and `host.log`. An `Outcome` per queue position stands for what each run's process did.
- Batch.RunQueue: `Setting` stands for `PathHelpers.FindProjectRoot`, the `File.Exists` checks that pick the interpreter and the script, and `Directory.Exists` on the run folder. The interpreter and script paths are parameters.
- Batch.RunQueue: statuses are the `Status` datatype rather than strings, so the `OrdinalIgnoreCase` comparison with "Queued" (app/MainWindow.xaml.cs:314) is plain equality. The code only ever assigns the four literal texts.
- Queue.RemoveSelected: items are identified by position. The source removes `RunRequest` references, which are distinct objects.
- The file system is given as data. `TextFile`, `LogFile`, `Option<seq<string>>` listings and the `GridFolder`/`RepFolder` tree stand for it. Directory creation is the `failsAt` input of an addition, and `EnsureDirectory` is otherwise not modelled.
- Doubles are not modelled. `Double` tags a real as finite or not. `DoubleParser` stands for `double.TryParse`, and `Renderer` for the "R" and "E" formats. The accumulator works over exact reals, with no IEEE rounding.
- Stats.MakeResult: `Math.Sqrt` is the `Sqrt` parameter, only assumed positive on positive inputs.
- Stats.Add: only the default `skipNonFinite = true` path (app/WpfApp/Helpers/Stats.cs:64-66, 125) is modelled. The caller never passes `false`, so a non-finite value entering the sums is not modelled.
- Text.Lower: case folding is ASCII only. `ToLowerInvariant` and `OrdinalIgnoreCase` fold other letters too. For example, the source lower-cases the Kelvin sign U+212A to `k`, so `Slugify("\u212A")` there is "k", while the model gives "profile".
- ProfileDialog.Slugify: the contract holds for the ASCII folding above. Non-ASCII letters are treated as other characters.
- Text.IsWhiteSpace: the white-space set is the fixed list of .NET `char.IsWhiteSpace` code points. `int.TryParse` uses its own narrower set.
- Defaults.Entry: the culture-sensitive `t.StartsWith("#")` (app/WpfApp/Helpers/Defaults.cs:100) is modelled as a test of the first character.
- Defaults.WriteSetting: the dictionary is written in insertion order, with a replaced key kept in place. The source's `Dictionary` enumeration order is not a documented promise.
- Defaults.WriteThenRead: a key or value holding a line break is written as several lines, so read-back is stated only for values without line breaks. The same restriction applies to Defaults.WriteKeepsOthers and Defaults.WrittenParses.
- ProfileDialog.UpdateIdempotent: stated only for ids without line breaks or trailing white space, since only those read back as one listed line.
- RunIo.SummaryTsvRoundTrip: stated only for text columns free of tabs and line breaks.
- Aggregate.SameMeanEverywhere: stated only for renderings free of tabs and line breaks.
- Sorting.SortBy: stability is not stated. Only ascending order and permutation are proved.
- Queue.NextRepIndex: the step from one index to the next is stated for adding one folder (`NextAfterOne`). A count over several added folders is not stated.
- Queue.AddedReplicates: the folder is stated by its `rep_NNN` suffix. That the number reads back comes from `RepNameRoundTrip`.
- Queue.AddedReplicates: the enqueue timestamp is the clock parameter, not `FTimestamp(DateTime.Now)`.
- `AppendLog`, status-bar texts other than the modelled return messages, and all WPF handlers and dialogs are not modelled. Neither are `lOnFocusBehavior.cs` and `PathHelpers.cs`.
- `TryGetSelectedEquationCommand` reads combo-box items through reflection. Its results, the equation name and the template, are parameters.
- `EquationCatalog.cs` is YAML deserialisation through a foreign library.
- `Save_Click`'s YAML body is elided in the source. Only the index-line update is modelled.
- `Defaults.GetEquationsDir`, `SetEquationsDir` and `AutoDetectEquationsDir` are directory walks and dialogs.
- `TryGetNewestRun`, `FLong` and `TryParseDoubleInvariant` are not used by the modelled operations.
- The Python back end (`backend/py/`) is the external simulation and its GUI.
- Clocks are parameters: a `DateTime` for report headers and a per-item clock for the queue. Elapsed-time reporting is not modelled.

=== FILE: aggregate.dfy ===
/** The aggregation pass over a run folder: every `grid_N` folder's
    replicates are scraped for a metric and a seed, the rows are grouped by
    grid, and per grid a text report and one summary row are written; the
    summary rows go to the tab-separated and the JSON Lines summaries. The
    folder walk is given as listings; file contents as line sequences. */
module Aggregate {
  import opened Wrappers
  import opened Text
  import opened Numbers
  import opened NumberFormat
  import Stats
  import opened RunIo
  import opened LogParsing
  import opened Sorting

  /** A replicate folder as listed: its name and the files the pass reads. */
  datatype RepFolder = RepFolder(name: string, argsTxt: TextFile, runArgsTxt: TextFile,
                                 cmdTxt: TextFile, runLog: LogFile)

  /** A `grid_*` folder as listed, with its `rep_*` folders as listed. */
  datatype GridFolder = GridFolder(name: string, reps: seq<RepFolder>)

  /** What the pass writes: one text report per grid, then the two summaries. */
  datatype Outputs = Outputs(reports: seq<Report>, tsv: Report, jsonl: Report)

  // ------------------------------------------------------------------
  // One replicate
  // ------------------------------------------------------------------

  /** `run.log` as `File.ReadAllLines` sees it: a read failure anywhere
      fails the whole read. */
  function AsTextFile(log: LogFile): (r: TextFile)
    ensures log.NoFile? <==> r.Absent?
    ensures r.Readable? <==> log.LogLines? && !log.failsAfter
    ensures r.Readable? ==> r.lines == log.lines
  {
    match log
    case NoFile => Absent
    case LogLines(lines, failsAfter) => if failsAfter then Unreadable else Readable(lines)
  }

  /** The seed of the first candidate file that yields one. */
  function FirstSeed(files: seq<TextFile>): Option<int> {
    if |files| == 0 then None
    else
      match TryExtractSeed(files[0])
      case Some(n) => Some(n)
      case None => FirstSeed(files[1..])
  }

  /** The seed sources of a replicate, in the order they are tried:
      `args.txt`, `run_args.txt`, `cmd.txt`, then `run.log`. */
  function SeedCandidates(rep: RepFolder): (r: seq<TextFile>)
    ensures |r| == 4 && r[3] == AsTextFile(rep.runLog)
    ensures r[0] == rep.argsTxt && r[1] == rep.runArgsTxt && r[2] == rep.cmdTxt
  {
    [rep.argsTxt, rep.runArgsTxt, rep.cmdTxt, AsTextFile(rep.runLog)]
  }

  /** The row of a replicate, when its log yields a metric. */
  function RowOf(parse: DoubleParser, rep: RepFolder): (r: Option<RowEntry>)
    ensures r.Some? <==> TryExtractMetric(parse, rep.runLog).value.Some?
    ensures r.Some? ==> r.value.repId == rep.name && r.value.metric == TryExtractMetric(parse, rep.runLog).value.value
    ensures r.Some? ==> r.value.note == TryExtractMetric(parse, rep.runLog).note
    ensures r.Some? ==> r.value.seed == FirstSeed(SeedCandidates(rep))
  {
    var m := TryExtractMetric(parse, rep.runLog);
    match m.value
    case None => None
    case Some(x) => Some(RowEntry(rep.name, FirstSeed(SeedCandidates(rep)), x, m.note))
  }

  /** The candidate files are tried in order: the seed is the one of the
      first file that yields a seed, and there is none when no file does. */
  lemma {:induction false} FirstSeedWins(files: seq<TextFile>, k: nat)
    requires k < |files| && TryExtractSeed(files[k]).Some?
    requires forall j :: 0 <= j < k ==> TryExtractSeed(files[j]).None?
    ensures FirstSeed(files) == TryExtractSeed(files[k])
    decreases k
  {
    if k > 0 {
      assert forall j :: 0 <= j < k - 1 ==> files[1..][j] == files[j + 1];
      FirstSeedWins(files[1..], k - 1);
    }
  }

  lemma {:induction false} FirstSeedNone(files: seq<TextFile>)
    requires forall j :: 0 <= j < |files| ==> TryExtractSeed(files[j]).None?
    ensures FirstSeed(files).None?
    decreases |files|
  {
    if |files| > 0 {
      assert forall j :: 0 <= j < |files| - 1 ==> files[1..][j] == files[j + 1];
      FirstSeedNone(files[1..]);
    }
  }

  // ------------------------------------------------------------------
  // One grid
  // ------------------------------------------------------------------

  /** The grid of a `grid_N` folder name: the prefix is matched ignoring
      case and the rest must be a 32-bit integer. */
  function GridOf(name: string): (r: Option<int>)
    ensures r.Some? ==> IsInt32(r.value) && StartsWithIgnoreCase(name, "grid_")
  {
    if StartsWithIgnoreCase(name, "grid_") then ParseInt32(name[5..]) else None
  }

  /** A folder named by the queue for grid text `t` is read back as the
      grid `t` denotes. */
  lemma GridOfFolder(t: string)
    ensures GridOf("grid_" + t) == ParseInt32(t)
  {
    assert ("grid_" + t)[..5] == "grid_";
    assert ("grid_" + t)[5..] == t;
  }

  /** The rows of the replicates that yield a metric, in listing order. */
  function GridRows(parse: DoubleParser, reps: seq<RepFolder>): (r: seq<RowEntry>)
    ensures |r| <= |reps|
    ensures forall i :: 0 <= i < |reps| && RowOf(parse, reps[i]).Some? ==> RowOf(parse, reps[i]).value in r
    ensures forall e :: e in r ==> exists i :: 0 <= i < |reps| && RowOf(parse, reps[i]) == Some(e)
  {
    if |reps| == 0 then []
    else
      var rest := GridRows(parse, reps[1..]);
      assert forall i :: 1 <= i < |reps| ==> reps[i] == reps[1..][i - 1];
      match RowOf(parse, reps[0])
      case None => rest
      case Some(e) => [e] + rest
  }

  /** The positions of `s` holding a value, from `from` on, in order. */
  function SomePositions<U>(s: seq<Option<U>>, from: nat): (r: seq<nat>)
    requires from <= |s|
    ensures forall i :: 0 <= i < |r| ==> from <= r[i] < |s| && s[r[i]].Some?
    ensures forall p: nat :: from <= p < |s| && s[p].Some? ==> p in r
    ensures forall i, j :: 0 <= i < j < |r| ==> r[i] < r[j]
    decreases |s| - from
  {
    if from == |s| then []
    else
      var rest := SomePositions(s, from + 1);
      if s[from].Some? then [from] + rest else rest
  }

  /** What each replicate folder yields. */
  function Yields(parse: DoubleParser, reps: seq<RepFolder>): (r: seq<Option<RowEntry>>)
    ensures |r| == |reps| && forall i :: 0 <= i < |reps| ==> r[i] == RowOf(parse, reps[i])
  {
    seq(|reps|, i requires 0 <= i < |reps| => RowOf(parse, reps[i]))
  }

  /** The values of `s`, in order. */
  function Somes<U>(s: seq<Option<U>>): seq<U>
    decreases |s|
  {
    if |s| == 0 then []
    else (if s[0].Some? then [s[0].value] else []) + Somes(s[1..])
  }

  /** The `k`-th value of `s` sits at the `k`-th position holding one. */
  lemma {:induction false} SomesFrom<U>(s: seq<Option<U>>, from: nat)
    requires from <= |s|
    ensures var pos := SomePositions(s, from);
      |Somes(s[from..])| == |pos| && forall k :: 0 <= k < |pos| ==> Somes(s[from..])[k] == s[pos[k]].value
    decreases |s| - from
  {
    if from < |s| {
      var t := s[from..];
      var rest := SomePositions(s, from + 1);
      var tail := Somes(s[from + 1..]);
      SomesFrom(s, from + 1);
      assert t[1..] == s[from + 1..];
      assert t[0] == s[from];
      if s[from].Some? {
        assert SomePositions(s, from) == [from] + rest;
        assert Somes(t) == [s[from].value] + tail;
        ConsAt(s, from, rest, tail);
      } else {
        assert SomePositions(s, from) == rest;
        assert Somes(t) == tail;
      }
    }
  }

  /** Putting a value and its position in front keeps the two in step. */
  lemma ConsAt<U>(s: seq<Option<U>>, from: nat, rest: seq<nat>, tail: seq<U>)
    requires from < |s| && s[from].Some?
    requires |tail| == |rest| && forall k :: 0 <= k < |rest| ==> rest[k] < |s| && s[rest[k]].Some? && tail[k] == s[rest[k]].value
    ensures forall k :: 0 <= k < |rest| + 1 ==>
      s[([from] + rest)[k]].Some? && ([s[from].value] + tail)[k] == s[([from] + rest)[k]].value
  {
  }

  lemma {:induction false} GridRowsSomes(parse: DoubleParser, reps: seq<RepFolder>)
    ensures GridRows(parse, reps) == Somes(Yields(parse, reps))
    decreases |reps|
  {
    if |reps| > 0 {
      GridRowsSomes(parse, reps[1..]);
      assert Yields(parse, reps)[1..] == Yields(parse, reps[1..]);
    }
  }

  /** A grid's rows are the rows of the replicates that yield one, one row
      each, in listing order. */
  lemma GridRowsInOrder(parse: DoubleParser, reps: seq<RepFolder>)
    ensures var pos := SomePositions(Yields(parse, reps), 0);
      var r := GridRows(parse, reps);
      |r| == |pos| && forall k :: 0 <= k < |r| ==> r[k] == RowOf(parse, reps[pos[k]]).value
  {
    var s := Yields(parse, reps);
    GridRowsSomes(parse, reps);
    SomesFrom(s, 0);
    assert s[0..] == s;
  }

  /** The mean of the rows' finite metrics, as the round-trip rendering prints it. */
  function MeanText(render: Renderer, rows: seq<RowEntry>): string {
    render.roundTrip(Finite(Stats.MeanOf(Stats.Finites(Metrics(rows)))))
  }

  /** The summary row of a grid, built from the same statistics the text
      report prints: the round-trip mean and standard error, the count,
      and both again in six-digit exponential form joined by " ± ". */
  function SummaryOf(render: Renderer, sqrt: Stats.Sqrt, grid: int, rows: seq<RowEntry>): (r: SummaryRow)
    ensures r.grid == grid && r.stat == "value"
    ensures var xs := Stats.Finites(Metrics(rows));
            r.n == |xs| && r.meanFull == MeanText(render, rows)
  {
    var sr := Summarize(sqrt, rows);
    SummarizeExact(sqrt, rows);
    SummaryRow(grid, "value", render.roundTrip(Finite(sr.mean)), render.roundTrip(Finite(sr.stderr)), sr.n,
               FExp(render, Finite(sr.mean), 6) + " \U{B1} " + FExp(render, Finite(sr.stderr), 6))
  }

  // ------------------------------------------------------------------
  // Grouping and ordering
  // ------------------------------------------------------------------

  /** The per-grid rows as a list kept in ascending grid order, which is
      the order `OrderBy(k => k.Key)` later writes them in. */
  type Groups = seq<(int, seq<RowEntry>)>

  predicate Ascending(groups: Groups) {
    forall i, j :: 0 <= i < j < |groups| ==> groups[i].0 < groups[j].0
  }

  /** The rows stored for grid `g`, if any. */
  function Lookup(groups: Groups, g: int): (r: Option<seq<RowEntry>>)
    ensures r.Some? <==> exists i :: 0 <= i < |groups| && groups[i].0 == g
  {
    if |groups| == 0 then None
    else if groups[0].0 == g then Some(groups[0].1)
    else
      assert forall i :: 1 <= i < |groups| ==> groups[i] == groups[1..][i - 1];
      Lookup(groups[1..], g)
  }

  /** `perGridRows[g] = rows`: the entry of `g` is set and every other
      entry is kept; the order stays ascending. */
  function Put(groups: Groups, g: int, rows: seq<RowEntry>): (r: Groups)
    requires Ascending(groups)
    ensures Ascending(r)
    ensures Lookup(r, g) == Some(rows)
    ensures forall h :: h != g ==> Lookup(r, h) == Lookup(groups, h)
    ensures |r| > 0 && (r[0].0 == g || (|groups| > 0 && r[0].0 == groups[0].0))
    ensures forall i :: 0 <= i < |r| ==> r[i] == (g, rows) || r[i] in groups
  {
    if |groups| == 0 then [(g, rows)]
    else if groups[0].0 == g then [(g, rows)] + groups[1..]
    else if g < groups[0].0 then [(g, rows)] + groups
    else
      assert Ascending(groups[1..]) by {
        assert forall i :: 1 <= i < |groups| ==> groups[i] == groups[1..][i - 1];
      }
      var rest := Put(groups[1..], g, rows);
      assert forall h :: h != groups[0].0 ==> Lookup(groups, h) == Lookup(groups[1..], h);
      [groups[0]] + rest
  }

  /** The largest replicate count of the folders. */
  function MostReps(grids: seq<GridFolder>): (r: nat)
    ensures forall k :: 0 <= k < |grids| ==> |grids[k].reps| <= r
    ensures |grids| == 0 ==> r == 0
    ensures |grids| > 0 ==> exists k :: 0 <= k < |grids| && r == |grids[k].reps|
    decreases |grids|
  {
    if |grids| == 0 then 0
    else
      var init := grids[..|grids| - 1];
      var m := MostReps(init);
      assert forall k :: 0 <= k < |init| ==> init[k] == grids[k];
      if |grids[|grids| - 1].reps| > m then |grids[|grids| - 1].reps| else m
  }

  /** The name a grid folder is ordered by. */
  function GridFolderName(g: GridFolder): string {
    g.name
  }

  /** The name a replicate folder is ordered by. */
  function RepFolderName(r: RepFolder): string {
    r.name
  }

  /** Every grid folder with its replicate folders sorted by name. */
  function SortReps(grids: seq<GridFolder>): (r: seq<GridFolder>)
    ensures |r| == |grids|
    ensures forall i :: 0 <= i < |grids| ==>
      r[i].name == grids[i].name && r[i].reps == SortBy(grids[i].reps, RepFolderName)
  {
    seq(|grids|, i requires 0 <= i < |grids| => GridFolder(grids[i].name, SortBy(grids[i].reps, RepFolderName)))
  }

  /** The folders in the order the pass visits them: the grid folders
      sorted by name ignoring case, and in each the replicate folders
      sorted the same way. */
  function Visit(grids: seq<GridFolder>): (r: seq<GridFolder>)
    ensures multiset(r) == multiset(SortReps(grids))
    ensures SortedBy(r, GridFolderName)
  {
    SortBySorted(SortReps(grids), GridFolderName);
    SortBy(SortReps(grids), GridFolderName)
  }

  /** The visit order is the listing, reordered: grid folders ascending by
      name, replicate folders ascending by name within each, every folder
      kept with its own replicates. */
  lemma VisitOrder(grids: seq<GridFolder>)
    ensures var v := Visit(grids);
      |v| == |grids| && multiset(v) == multiset(SortReps(grids))
      && SortedBy(v, GridFolderName)
      && forall k :: 0 <= k < |v| ==> SortedBy(v[k].reps, RepFolderName)
  {
    var v := Visit(grids);
    SortBySorted(SortReps(grids), GridFolderName);
    SortByLength(SortReps(grids), GridFolderName);
    forall k | 0 <= k < |v| ensures SortedBy(v[k].reps, RepFolderName) {
      SortByFrom(SortReps(grids), GridFolderName, k);
      var j :| 0 <= j < |grids| && SortReps(grids)[j] == v[k];
      SortBySorted(grids[j].reps, RepFolderName);
    }
  }

  /** Sorting moves folders, so no visited folder has more replicates
      than the largest listed one. */
  lemma VisitMostReps(grids: seq<GridFolder>)
    ensures MostReps(Visit(grids)) <= MostReps(grids)
  {
    var v := Visit(grids);
    if |v| > 0 {
      var k :| 0 <= k < |v| && MostReps(v) == |v[k].reps|;
      SortByFrom(SortReps(grids), GridFolderName, k);
      var j :| 0 <= j < |grids| && SortReps(grids)[j] == v[k];
      SortByLength(grids[j].reps, RepFolderName);
    }
  }

  /** The per-grid rows of a pass over the listing. */
  function GridGroups(parse: DoubleParser, grids: seq<GridFolder>): Groups {
    Collect(parse, Visit(grids))
  }

  /** Every group has a 32-bit grid and between one and `m` rows. */
  predicate Bounded(groups: Groups, m: nat) {
    forall i :: 0 <= i < |groups| ==> IsInt32(groups[i].0) && 0 < |groups[i].1| <= m
  }

  /** What one grid folder contributes: its grid and its rows, when its
      name gives a grid and its replicates give rows. */
  function Contribution(parse: DoubleParser, folder: GridFolder): (r: Option<(int, seq<RowEntry>)>)
    ensures r.Some? <==> GridOf(folder.name).Some? && |GridRows(parse, folder.reps)| > 0
    ensures r.Some? ==> r.value == (GridOf(folder.name).value, GridRows(parse, folder.reps))
    ensures r.Some? ==> IsInt32(r.value.0) && 0 < |r.value.1| <= |folder.reps|
  {
    match GridOf(folder.name)
    case Some(g) =>
      var rows := GridRows(parse, folder.reps);
      if |rows| > 0 then Some((g, rows)) else None
    case None => None
  }

  /** The contribution of every folder, in order. */
  function Contributions(parse: DoubleParser, grids: seq<GridFolder>): (r: seq<Option<(int, seq<RowEntry>)>>)
    ensures |r| == |grids| && forall i :: 0 <= i < |grids| ==> r[i] == Contribution(parse, grids[i])
  {
    seq(|grids|, i requires 0 <= i < |grids| => Contribution(parse, grids[i]))
  }

  /** The contributions taken in order, each setting the entry of its grid. */
  function Fold(cs: seq<Option<(int, seq<RowEntry>)>>): (r: Groups)
    ensures Ascending(r)
    decreases |cs|
  {
    if |cs| == 0 then []
    else
      var before := Fold(cs[..|cs| - 1]);
      match cs[|cs| - 1]
      case Some((g, rows)) => Put(before, g, rows)
      case None => before
  }

  /** The per-grid rows: folders whose name gives no grid or whose
      replicates give no row are skipped, and a later folder with the same
      grid replaces an earlier one; the folders are taken in the given
      order. */
  function Collect(parse: DoubleParser, grids: seq<GridFolder>): (r: Groups)
    ensures Ascending(r)
    ensures Bounded(r, MostReps(grids))
  {
    var cs := Contributions(parse, grids);
    FoldBounded(cs, MostReps(grids));
    Fold(cs)
  }

  /** Contributions with 32-bit grids and at most `m` rows fold into
      bounded groups. */
  lemma {:induction false} FoldBounded(cs: seq<Option<(int, seq<RowEntry>)>>, m: nat)
    requires forall i :: 0 <= i < |cs| && cs[i].Some? ==> IsInt32(cs[i].value.0) && 0 < |cs[i].value.1| <= m
    ensures Bounded(Fold(cs), m)
    decreases |cs|
  {
    if |cs| > 0 {
      var init := cs[..|cs| - 1];
      assert forall i :: 0 <= i < |init| ==> init[i] == cs[i];
      FoldBounded(init, m);
      var c := cs[|cs| - 1];
      if c.Some? {
        PutBounded(Fold(init), c.value.0, c.value.1, m);
      }
    }
  }

  /** Setting an entry keeps every group bounded. */
  lemma PutBounded(groups: Groups, g: int, rows: seq<RowEntry>, m: nat)
    requires Ascending(groups) && Bounded(groups, m) && IsInt32(g) && 0 < |rows| <= m
    ensures Bounded(Put(groups, g, rows), m)
  {
    var r := Put(groups, g, rows);
    forall i | 0 <= i < |r| ensures IsInt32(r[i].0) && 0 < |r[i].1| <= m {
      if r[i] != (g, rows) {
        var k :| 0 <= k < |groups| && groups[k] == r[i];
      }
    }
  }

  /** The entry of `g` after one more contribution. */
  lemma FoldLookup(cs: seq<Option<(int, seq<RowEntry>)>>, g: int)
    requires |cs| > 0
    ensures var c := cs[|cs| - 1];
            Lookup(Fold(cs), g) == if c.Some? && c.value.0 == g then Some(c.value.1) else Lookup(Fold(cs[..|cs| - 1]), g)
  {
  }

  /** The last contribution for `g` decides its entry. */
  lemma {:induction false} FoldLast(cs: seq<Option<(int, seq<RowEntry>)>>, k: nat, g: int, rows: seq<RowEntry>)
    requires k < |cs| && cs[k] == Some((g, rows))
    requires forall j :: k < j < |cs| ==> cs[j].None? || cs[j].value.0 != g
    ensures Lookup(Fold(cs), g) == Some(rows)
    decreases |cs|
  {
    FoldLookup(cs, g);
    if k < |cs| - 1 {
      var init := cs[..|cs| - 1];
      assert forall j :: 0 <= j < |init| ==> init[j] == cs[j];
      FoldLast(init, k, g, rows);
    }
  }

  /** A grid no contribution names has no entry. */
  lemma {:induction false} FoldAbsent(cs: seq<Option<(int, seq<RowEntry>)>>, g: int)
    requires forall j :: 0 <= j < |cs| ==> cs[j].None? || cs[j].value.0 != g
    ensures Lookup(Fold(cs), g).None?
    decreases |cs|
  {
    if |cs| > 0 {
      var init := cs[..|cs| - 1];
      assert forall j :: 0 <= j < |init| ==> init[j] == cs[j];
      FoldLookup(cs, g);
      FoldAbsent(init, g);
    }
  }

  /** A folder that yields grid `g` and rows holds the rows of `g` unless a
      later folder yields `g` and rows too. */
  lemma CollectLast(parse: DoubleParser, grids: seq<GridFolder>, k: nat, g: int)
    requires k < |grids| && GridOf(grids[k].name) == Some(g) && |GridRows(parse, grids[k].reps)| > 0
    requires forall j :: k < j < |grids| && GridOf(grids[j].name) == Some(g) ==> |GridRows(parse, grids[j].reps)| == 0
    ensures Lookup(Collect(parse, grids), g) == Some(GridRows(parse, grids[k].reps))
  {
    var cs := Contributions(parse, grids);
    forall j | k < j < |cs| ensures cs[j].None? || cs[j].value.0 != g {
      assert cs[j] == Contribution(parse, grids[j]);
    }
    FoldLast(cs, k, g, GridRows(parse, grids[k].reps));
  }

  /** A grid no folder yields with rows has no entry. */
  lemma CollectAbsent(parse: DoubleParser, grids: seq<GridFolder>, g: int)
    requires forall j :: 0 <= j < |grids| && GridOf(grids[j].name) == Some(g) ==> |GridRows(parse, grids[j].reps)| == 0
    ensures Lookup(Collect(parse, grids), g).None?
  {
    var cs := Contributions(parse, grids);
    forall j | 0 <= j < |cs| ensures cs[j].None? || cs[j].value.0 != g {
      assert cs[j] == Contribution(parse, grids[j]);
    }
    FoldAbsent(cs, g);
  }

  /** Every group has rows. */
  predicate NonEmpty(groups: Groups) {
    forall i :: 0 <= i < |groups| ==> 0 < |groups[i].1|
  }

  /** The text report of one grid. */
  function TxtReport(render: Renderer, sqrt: Stats.Sqrt, runDir: string, grid: int, rows: seq<RowEntry>,
                     now: DateTime): (r: Report)
    requires now.Valid() && !IsBlank(runDir) && 0 < |rows|
    ensures |r.lines| == |rows| + 12
    ensures r.lines[|rows| + 8] == "mean = " + MeanText(render, rows)
  {
    AggregateFooter(render, sqrt, runDir, grid, rows, now);
    AggregateTxt(render, sqrt, runDir, grid, Some(rows), now).value
  }

  /** The text reports, one per grid, in the groups' order. */
  function ReportsOf(render: Renderer, sqrt: Stats.Sqrt, runDir: string, groups: Groups, now: DateTime): (r: seq<Report>)
    requires now.Valid() && !IsBlank(runDir) && NonEmpty(groups)
    ensures |r| == |groups|
    ensures forall i :: 0 <= i < |groups| ==> r[i] == TxtReport(render, sqrt, runDir, groups[i].0, groups[i].1, now)
  {
    seq(|groups|, i requires 0 <= i < |groups| => TxtReport(render, sqrt, runDir, groups[i].0, groups[i].1, now))
  }

  /** The summary rows, one per grid, in the groups' order. */
  function SummariesOf(render: Renderer, sqrt: Stats.Sqrt, groups: Groups): (r: seq<SummaryRow>)
    ensures |r| == |groups|
    ensures forall i :: 0 <= i < |groups| ==> r[i] == SummaryOf(render, sqrt, groups[i].0, groups[i].1)
  {
    seq(|groups|, i requires 0 <= i < |groups| => SummaryOf(render, sqrt, groups[i].0, groups[i].1))
  }

  /** What the pass finds on disk besides the folders' contents: whether
      the run folder exists, whether listing the grid and replicate
      folders succeeds, and whether writing the reports and summaries
      succeeds. A failed listing or write throws, and the catch reports
      it. */
  datatype Disk = Disk(runDirPresent: bool, listingsSucceed: bool, writesSucceed: bool)

  /** `AggregateButton_Click` with the run folder `runDir`, its grid folders
      as listed, and the clock reading `now`: no selected run, a failed
      listing, no data and a failed write are errors; otherwise the
      folders are visited in name order, and there is one report per grid
      in ascending grid order, and both summaries with one row per grid in
      that order. */
  function AggregateRun(parse: DoubleParser, render: Renderer, sqrt: Stats.Sqrt, runDir: string, disk: Disk,
                        grids: seq<GridFolder>, now: DateTime): (r: Result<Outputs, string>)
    requires now.Valid()
    ensures IsBlank(runDir) || !disk.runDirPresent ==> r == Err("No run selected. Create or open a run first.")
    ensures !IsBlank(runDir) && disk.runDirPresent && !disk.listingsSucceed ==> r == Err("Aggregate failed.")
    ensures !IsBlank(runDir) && disk.runDirPresent && disk.listingsSucceed && |GridGroups(parse, grids)| == 0
      ==> r == Err("Aggregate found no data.")
    ensures !IsBlank(runDir) && disk == Disk(true, true, false) && |GridGroups(parse, grids)| > 0
      ==> r == Err("Aggregate failed.")
    ensures r.Ok? <==> !IsBlank(runDir) && disk == Disk(true, true, true) && |GridGroups(parse, grids)| > 0
    ensures r.Ok? ==> |r.value.reports| == |GridGroups(parse, grids)| == |r.value.tsv.lines| - 1 == |r.value.jsonl.lines|
  {
    if IsBlank(runDir) || !disk.runDirPresent then Err("No run selected. Create or open a run first.")
    else if !disk.listingsSucceed then Err("Aggregate failed.")
    else
      var groups := GridGroups(parse, grids);
      if |groups| == 0 then Err("Aggregate found no data.")
      else if !disk.writesSucceed then Err("Aggregate failed.")
      else
        var summary := SummariesOf(render, sqrt, groups);
        Ok(Outputs(ReportsOf(render, sqrt, runDir, groups, now),
                   SummaryTsv(runDir, Some(summary)).value, SummaryJsonl(runDir, Some(summary)).value))
  }

  // ------------------------------------------------------------------
  // The same mean in every output
  // ------------------------------------------------------------------

  /** The platform's number renderings never hold a tab or a line break. */
  ghost predicate PlainRendering(render: Renderer) {
    (forall v :: '\t' !in render.roundTrip(v) && OneLine(render.roundTrip(v)))
    && (forall v, f :: '\t' !in render.exponential(v, f) && OneLine(render.exponential(v, f)))
  }

  lemma SummaryTsvSafe(render: Renderer, sqrt: Stats.Sqrt, grid: int, rows: seq<RowEntry>)
    requires PlainRendering(render)
    ensures TsvSafe(SummaryOf(render, sqrt, grid, rows))
  {
    var sr := Summarize(sqrt, rows);
    var a := FExp(render, Finite(sr.mean), 6);
    var b := FExp(render, Finite(sr.stderr), 6);
    assert '\t' !in a && '\t' !in b && OneLine(a) && OneLine(b);
    PlusMinusSafe(a, b);
  }

  lemma PlusMinusSafe(a: string, b: string)
    requires '\t' !in a && '\t' !in b && OneLine(a) && OneLine(b)
    ensures '\t' !in a + " \U{B1} " + b && OneLine(a + " \U{B1} " + b)
  {
    assert forall c :: c in a + " \U{B1} " + b ==> c in a || c in " \U{B1} " || c in b;
  }

  /** The summary rows of a pass. */
  function Summaries(parse: DoubleParser, render: Renderer, sqrt: Stats.Sqrt, grids: seq<GridFolder>): seq<SummaryRow> {
    SummariesOf(render, sqrt, GridGroups(parse, grids))
  }

  lemma AggregateRunParts(parse: DoubleParser, render: Renderer, sqrt: Stats.Sqrt, runDir: string, disk: Disk,
                          grids: seq<GridFolder>, now: DateTime)
    requires now.Valid() && AggregateRun(parse, render, sqrt, runDir, disk, grids, now).Ok?
    ensures var out := AggregateRun(parse, render, sqrt, runDir, disk, grids, now).value;
            out.reports == ReportsOf(render, sqrt, runDir, GridGroups(parse, grids), now)
            && out.tsv == SummaryTsv(runDir, Some(Summaries(parse, render, sqrt, grids))).value
            && out.jsonl == SummaryJsonl(runDir, Some(Summaries(parse, render, sqrt, grids))).value
  {
  }

  /** Every summary row of a pass has 32-bit grid and count and no tab. */
  lemma SummariesReadable(parse: DoubleParser, render: Renderer, sqrt: Stats.Sqrt, grids: seq<GridFolder>)
    requires PlainRendering(render) && MostReps(grids) <= IntMax
    ensures var summary := Summaries(parse, render, sqrt, grids);
            forall j :: 0 <= j < |summary| ==>
              IsInt32(summary[j].grid) && IsInt32(summary[j].n) && TsvSafe(summary[j])
  {
    var groups := GridGroups(parse, grids);
    var summary := SummariesOf(render, sqrt, groups);
    VisitMostReps(grids);
    forall j | 0 <= j < |groups|
      ensures IsInt32(summary[j].grid) && IsInt32(summary[j].n) && TsvSafe(summary[j])
    {
      SummaryTsvSafe(render, sqrt, groups[j].0, groups[j].1);
      assert |Stats.Finites(Metrics(groups[j].1))| <= |groups[j].1|;
    }
  }

  /** Both summary files of a pass read back as its summary rows. */
  lemma SummariesReadBack(parse: DoubleParser, render: Renderer, sqrt: Stats.Sqrt, runDir: string,
                          grids: seq<GridFolder>)
    requires !IsBlank(runDir) && PlainRendering(render) && MostReps(grids) <= IntMax
    ensures var summary := Summaries(parse, render, sqrt, grids);
            ParseSummaryTsv(Stored(SummaryTsv(runDir, Some(summary)).value.lines)) == Some(summary)
            && ParseEach(Stored(SummaryJsonl(runDir, Some(summary)).value.lines), ParseJsonlLine) == Some(summary)
  {
    var summary := Summaries(parse, render, sqrt, grids);
    SummariesReadable(parse, render, sqrt, grids);
    SummaryTsvRoundTrip(runDir, summary);
    SummaryJsonlRoundTrip(runDir, summary);
  }

  /** The summaries of a pass agree with its reports, grid by grid: both
      summary files read back as the summary rows, and for the `i`-th grid
      in ascending order the text report's mean line, the summary row's
      grid and its `mean_full` string all come from the same rows, for
      every listing whose folders hold no more than `int.MaxValue`
      replicates. */
  lemma SameMeanEverywhere(parse: DoubleParser, render: Renderer, sqrt: Stats.Sqrt, runDir: string, disk: Disk,
                           grids: seq<GridFolder>, now: DateTime, out: Outputs, i: nat)
    requires now.Valid() && PlainRendering(render) && MostReps(grids) <= IntMax
    requires AggregateRun(parse, render, sqrt, runDir, disk, grids, now) == Ok(out) && i < |GridGroups(parse, grids)|
    ensures var rows := GridGroups(parse, grids)[i].1;
            var summary := Summaries(parse, render, sqrt, grids);
            ParseSummaryTsv(Stored(out.tsv.lines)) == Some(summary)
            && ParseEach(Stored(out.jsonl.lines), ParseJsonlLine) == Some(summary)
            && out.reports[i].lines[|rows| + 8] == "mean = " + MeanText(render, rows)
            && summary[i].meanFull == MeanText(render, rows)
            && summary[i].grid == GridGroups(parse, grids)[i].0
  {
    AggregateRunParts(parse, render, sqrt, runDir, disk, grids, now);
    SummariesReadBack(parse, render, sqrt, runDir, grids);
  }
}

=== FILE: batch.dfy ===
/** One pass of the run queue: the items queued when the pass starts are
    run one after another, each ending Done or Failed, under a flag that
    keeps two passes from overlapping. The external process is an oracle
    that says, per queue position, how far each run got. */
module Batch {
  import opened Wrappers
  import opened Text
  import opened Numbers
  import opened LogParsing
  import opened Command
  import opened Queue

  /** How the run of one item went, once its folder is known to be set:
      creating the folder, or writing `args.txt` or `cmd.txt`, or opening
      `host.log` threw; the process could not be started; it exited with a
      code; or something threw after the item was marked Running and
      before it was counted. `closeThrew` says that something threw after
      the item was counted: the log line that follows, or closing
      `process` and `host.log` as the loop body ends. The catch then marks
      the item Failed and counts it a second time. */
  datatype Outcome = SetupThrew | NotStarted(closeThrew: bool) | Exited(code: int, closeThrew: bool) | Threw

  /** The item is counted twice: once where it ended, and once more by the
      catch after a throw that follows the count. */
  predicate Recounted(item: RunRequest, outcome: Outcome) {
    !IsBlank(item.outDir) && (outcome.NotStarted? || outcome.Exited?) && outcome.closeThrew
  }

  /** The item's process ran and exited with code 0. */
  predicate ExitedZero(item: RunRequest, outcome: Outcome) {
    !IsBlank(item.outDir) && outcome.Exited? && outcome.code == 0
  }

  /** The Failed a throw after the count adds. */
  function Recount(closeThrew: bool): seq<Status> {
    if closeThrew then [Failed] else []
  }

  /** The statuses an item is given, in order, while it is run. */
  function History(item: RunRequest, outcome: Outcome): (r: seq<Status>)
    ensures 1 <= |r| <= 3
    ensures r[|r| - 1] == Done || r[|r| - 1] == Failed
    ensures |r| >= 2 ==> r[0] == Running && forall i :: 1 <= i < |r| ==> r[i] == Done || r[i] == Failed
    ensures r[|r| - 1] == Done <==> !IsBlank(item.outDir) && outcome == Exited(0, false)
    ensures |r| >= 2 <==> !IsBlank(item.outDir) && !outcome.SetupThrew?
    ensures |r| == 3 <==> Recounted(item, outcome)
  {
    if IsBlank(item.outDir) then [Failed]
    else
      match outcome
      case SetupThrew => [Failed]
      case NotStarted(closeThrew) => [Running, Failed] + Recount(closeThrew)
      case Exited(code, closeThrew) => [Running, if code == 0 then Done else Failed] + Recount(closeThrew)
      case Threw => [Running, Failed]
  }

  /** The status an item ends the pass with. */
  function FinalStatus(item: RunRequest, outcome: Outcome): Status {
    var h := History(item, outcome);
    h[|h| - 1]
  }

  /** The positions of the items queued when the pass starts, from
      position `from` on, in queue order. */
  function SnapshotFrom(queue: seq<RunRequest>, from: nat): (r: seq<nat>)
    requires from <= |queue|
    ensures forall i :: 0 <= i < |r| ==> from <= r[i] < |queue| && queue[r[i]].status == Queued
    ensures forall p: nat :: from <= p < |queue| && queue[p].status == Queued ==> p in r
    ensures forall i, j :: 0 <= i < j < |r| ==> r[i] < r[j]
    decreases |queue| - from
  {
    if from == |queue| then []
    else
      var rest := SnapshotFrom(queue, from + 1);
      if queue[from].status == Queued then [from] + rest else rest
  }

  /** The snapshot the pass works through. */
  function Snapshot(queue: seq<RunRequest>): seq<nat> {
    SnapshotFrom(queue, 0)
  }

  /** The item at `p` with its final status. */
  function Finish(queue: seq<RunRequest>, p: nat, outcome: nat -> Outcome): (r: seq<RunRequest>)
    requires p < |queue|
    ensures |r| == |queue|
  {
    queue[p := queue[p].(status := FinalStatus(queue[p], outcome(p)))]
  }

  /** The counts the pass reports. */
  datatype Tally = Tally(succeeded: nat, failed: nat)

  /** The counts one item's run adds: every Done it is given comes with
      `succeeded++` and every Failed with `failed++`. A success is a
      process that exited with code 0, and an item counted twice adds one
      failure more. */
  function Marks(item: RunRequest, outcome: Outcome): (r: Tally)
    ensures r.succeeded == if ExitedZero(item, outcome) then 1 else 0
    ensures r.failed == (if ExitedZero(item, outcome) then 0 else 1) + (if Recounted(item, outcome) then 1 else 0)
  {
    var h := History(item, outcome);
    Tally(multiset(h)[Done], multiset(h)[Failed])
  }

  /** Runs the items at the positions `todo` in order: each ends with its
      final status, and adds its marks to the counts. */
  function Pass(queue: seq<RunRequest>, todo: seq<nat>, outcome: nat -> Outcome): (r: (seq<RunRequest>, Tally))
    requires forall i :: 0 <= i < |todo| ==> todo[i] < |queue|
    ensures |r.0| == |queue|
    ensures r.1.succeeded + r.1.failed >= |todo|
    decreases |todo|
  {
    if |todo| == 0 then (queue, Tally(0, 0))
    else
      var p := todo[0];
      var marks := Marks(queue[p], outcome(p));
      var next := Pass(Finish(queue, p, outcome), todo[1..], outcome);
      (next.0, Tally(next.1.succeeded + marks.succeeded, next.1.failed + marks.failed))
  }

  /** The part of the machine the pass reads and writes: the queue and
      the flag saying a pass is in progress. */
  datatype Machine = Machine(queue: seq<RunRequest>, running: bool)

  /** What the pass finds outside the queue: whether the prepared run
      folder exists, whether a script to run was found. */
  datatype Setting = Setting(runDirReady: bool, scriptFound: bool)

  /** How a pass ends. */
  datatype Report = AlreadyRunning | NoRunDir | NothingQueued | NoScript | Finished(tally: Tally)

  /** `RunQueueButton_Click`. */
  function RunQueue(m: Machine, setting: Setting, outcome: nat -> Outcome): (r: (Machine, Report))
    ensures m.running ==> r == (m, AlreadyRunning)
    ensures !m.running ==> !r.0.running && |r.0.queue| == |m.queue|
    ensures !r.1.Finished? ==> r.0.queue == m.queue
    ensures r.1.Finished? ==> r.1.tally.succeeded + r.1.tally.failed >= |Snapshot(m.queue)| > 0
  {
    if m.running then (m, AlreadyRunning)
    else if !setting.runDirReady then (m.(running := false), NoRunDir)
    else
      var todo := Snapshot(m.queue);
      if |todo| == 0 then (m.(running := false), NothingQueued)
      else if !setting.scriptFound then (m.(running := false), NoScript)
      else
        var done := Pass(m.queue, todo, outcome);
        (Machine(done.0, false), Finished(done.1))
  }

  // ------------------------------------------------------------------
  // What a pass does to the queue
  // ------------------------------------------------------------------

  /** The reference result: every item queued at the start carries its
      final status, every other item is as it was. */
  function Settled(queue: seq<RunRequest>, outcome: nat -> Outcome): (r: seq<RunRequest>)
    ensures |r| == |queue|
  {
    seq(|queue|, i requires 0 <= i < |queue| =>
      if queue[i].status == Queued then queue[i].(status := FinalStatus(queue[i], outcome(i))) else queue[i])
  }

  /** Strictly increasing positions name each item at most once. */
  predicate Increasing(todo: seq<nat>) {
    forall i, j :: 0 <= i < j < |todo| ==> todo[i] < todo[j]
  }

  /** Running the items at `todo` finishes exactly those items. */
  lemma {:induction false} PassFinishes(queue: seq<RunRequest>, todo: seq<nat>, outcome: nat -> Outcome)
    requires forall i :: 0 <= i < |todo| ==> todo[i] < |queue|
    requires Increasing(todo)
    ensures var r := Pass(queue, todo, outcome).0;
      forall p :: 0 <= p < |queue| ==>
        r[p] == if p in todo then queue[p].(status := FinalStatus(queue[p], outcome(p))) else queue[p]
    decreases |todo|
  {
    if |todo| > 0 {
      var p0 := todo[0];
      var q := Finish(queue, p0, outcome);
      var rest := todo[1..];
      assert forall i :: 0 <= i < |rest| ==> rest[i] == todo[i + 1] && p0 < rest[i];
      PassFinishes(q, rest, outcome);
      forall p | 0 <= p < |queue|
        ensures Pass(queue, todo, outcome).0[p]
          == if p in todo then queue[p].(status := FinalStatus(queue[p], outcome(p))) else queue[p]
      {
        assert p in todo <==> p == p0 || p in rest;
        if p == p0 {
          assert p0 !in rest;
        }
      }
    }
  }

  /** A pass over the snapshot settles the queue. */
  lemma PassSettles(queue: seq<RunRequest>, outcome: nat -> Outcome)
    ensures Pass(queue, Snapshot(queue), outcome).0 == Settled(queue, outcome)
  {
    var todo := Snapshot(queue);
    PassFinishes(queue, todo, outcome);
    forall p | 0 <= p < |queue|
      ensures p in todo <==> queue[p].status == Queued
    {
    }
  }

  /** The number of items at `todo` whose process exited with code 0. */
  function Successes(queue: seq<RunRequest>, todo: seq<nat>, outcome: nat -> Outcome): nat
    requires forall i :: 0 <= i < |todo| ==> todo[i] < |queue|
    decreases |todo|
  {
    if |todo| == 0 then 0
    else
      var here := if ExitedZero(queue[todo[0]], outcome(todo[0])) then 1 else 0;
      here + Successes(queue, todo[1..], outcome)
  }

  /** The number of items at `todo` that are counted twice. */
  function Recounts(queue: seq<RunRequest>, todo: seq<nat>, outcome: nat -> Outcome): nat
    requires forall i :: 0 <= i < |todo| ==> todo[i] < |queue|
    decreases |todo|
  {
    if |todo| == 0 then 0
    else
      var here := if Recounted(queue[todo[0]], outcome(todo[0])) then 1 else 0;
      here + Recounts(queue, todo[1..], outcome)
  }

  /** The counts of a pass: the successes are the items whose process
      exited with code 0; every other item is one failure, and an item
      counted twice is one failure more. */
  lemma {:induction false} PassCounts(queue: seq<RunRequest>, todo: seq<nat>, outcome: nat -> Outcome)
    requires forall i :: 0 <= i < |todo| ==> todo[i] < |queue|
    ensures Pass(queue, todo, outcome).1.succeeded == Successes(queue, todo, outcome)
    ensures Pass(queue, todo, outcome).1.failed
      == |todo| - Successes(queue, todo, outcome) + Recounts(queue, todo, outcome)
    decreases |todo|
  {
    if |todo| > 0 {
      var p0 := todo[0];
      var q := Finish(queue, p0, outcome);
      var rest := todo[1..];
      assert forall i :: 0 <= i < |rest| ==> rest[i] == todo[i + 1];
      PassCounts(q, rest, outcome);
      CountsElsewhere(queue, p0, rest, outcome);
    }
  }

  /** Finishing one item changes only its status, which the counts do not
      look at. */
  lemma {:induction false} CountsElsewhere(queue: seq<RunRequest>, p: nat, todo: seq<nat>, outcome: nat -> Outcome)
    requires p < |queue|
    requires forall i :: 0 <= i < |todo| ==> todo[i] < |queue|
    ensures Successes(Finish(queue, p, outcome), todo, outcome) == Successes(queue, todo, outcome)
    ensures Recounts(Finish(queue, p, outcome), todo, outcome) == Recounts(queue, todo, outcome)
    decreases |todo|
  {
    if |todo| > 0 {
      CountsElsewhere(queue, p, todo[1..], outcome);
    }
  }

  // ------------------------------------------------------------------
  // The pass as a whole
  // ------------------------------------------------------------------

  /** A pass requested while one is in progress changes nothing. */
  lemma RunWhileRunning(m: Machine, setting: Setting, outcome: nat -> Outcome)
    requires m.running
    ensures RunQueue(m, setting, outcome) == (m, AlreadyRunning)
  {
  }

  /** Otherwise the flag is down again whichever way the pass ends, and a
      pass that ends early leaves the queue as it was. */
  lemma RunClearsFlag(m: Machine, setting: Setting, outcome: nat -> Outcome)
    requires !m.running
    ensures var r := RunQueue(m, setting, outcome);
      !r.0.running && (r.1.Finished? || r.0.queue == m.queue)
      && (r.1.Finished? <==> setting.runDirReady && setting.scriptFound && |Snapshot(m.queue)| > 0)
  {
  }

  /** A finished pass settles the queue: the items queued at its start end
      Done exactly when their folder is set, their process exited with
      code 0 and nothing threw after that; Failed otherwise. Every other
      item keeps its status. */
  lemma RunSettles(m: Machine, setting: Setting, outcome: nat -> Outcome)
    requires RunQueue(m, setting, outcome).1.Finished?
    ensures var q := RunQueue(m, setting, outcome).0.queue;
      |q| == |m.queue|
      && forall p :: 0 <= p < |q| ==>
        if m.queue[p].status == Queued then
          q[p] == m.queue[p].(status := q[p].status)
          && (q[p].status == Done || q[p].status == Failed)
          && (q[p].status == Done <==> !IsBlank(m.queue[p].outDir) && outcome(p) == Exited(0, false))
        else q[p] == m.queue[p]
  {
    PassSettles(m.queue, outcome);
  }

  /** The counts of a finished pass: the successes are the items whose
      process exited with code 0, and successes and failures add up to the
      number of items queued at the start plus the number counted twice. */
  lemma RunCounts(m: Machine, setting: Setting, outcome: nat -> Outcome)
    requires RunQueue(m, setting, outcome).1.Finished?
    ensures var r := RunQueue(m, setting, outcome);
      var todo := Snapshot(m.queue);
      r.1.tally.succeeded == Successes(m.queue, todo, outcome)
      && r.1.tally.succeeded + r.1.tally.failed == |todo| + Recounts(m.queue, todo, outcome)
  {
    PassCounts(m.queue, Snapshot(m.queue), outcome);
  }

  /** A finished pass leaves nothing queued that was queued before, and a
      second pass right after it finds nothing to do. */
  lemma RunTwice(m: Machine, setting: Setting, outcome: nat -> Outcome, later: nat -> Outcome)
    requires RunQueue(m, setting, outcome).1.Finished?
    ensures var once := RunQueue(m, setting, outcome).0;
      RunQueue(once, setting, later) == (once, NothingQueued)
  {
    RunSettles(m, setting, outcome);
  }

  /** A single queued item whose process exits with code 0 but whose
      `host.log` then fails to close ends Failed, and is counted both as a
      success and as a failure. */
  lemma CloseThrowCountsTwice(item: RunRequest, outcome: nat -> Outcome)
    requires item.status == Queued && !IsBlank(item.outDir) && outcome(0) == Exited(0, true)
    ensures RunQueue(Machine([item], false), Setting(true, true), outcome)
      == (Machine([item.(status := Failed)], false), Finished(Tally(1, 1)))
  {
    assert SnapshotFrom([item], 1) == [];
    assert Snapshot([item]) == [0];
    assert History(item, outcome(0)) == [Running, Done, Failed];
    assert FinalStatus(item, outcome(0)) == Failed;
    assert Marks(item, outcome(0)) == Tally(1, 1);
    assert Finish([item], 0, outcome) == [item.(status := Failed)];
    assert Pass([item], [0], outcome) == ([item.(status := Failed)], Tally(1, 1));
  }

  // ------------------------------------------------------------------
  // What a run is given
  // ------------------------------------------------------------------

  /** The folder a run writes to: the item's folder, trimmed. */
  function RunFolder(item: RunRequest): string {
    Trim(item.outDir)
  }

  /** The lines written to a run's `args.txt`. */
  function ItemArgs(item: RunRequest): seq<string> {
    ArgsTxtLines(GridArg(item.grid), StepsArg(item.steps), item.seed, RunFolder(item))
  }

  /** The executable and argument line a run is started with. */
  function ItemCommand(item: RunRequest, python: string, script: string): (string, string) {
    (python, ArgumentLine(script, GridArg(item.grid), StepsArg(item.steps), item.seed, RunFolder(item)))
  }

  /** What a run's `args.txt` gives back to the seed scraper is the item's
      seed, provided the grid, step and folder texts do not contain
      "--seed". */
  lemma ItemArgsSeed(item: RunRequest)
    requires item.seed.Some? ==> IsInt32(item.seed.value)
    requires IndexOfIgnoreCase(GridArg(item.grid), "--seed").None?
    requires IndexOfIgnoreCase(StepsArg(item.steps), "--seed").None?
    requires IndexOfIgnoreCase(RunFolder(item), "--seed").None?
    ensures TryExtractSeed(Readable(ItemArgs(item))) == item.seed
  {
    ArgsTxtSeed(GridArg(item.grid), StepsArg(item.steps), item.seed, RunFolder(item));
  }

  /** A queued run starts the interpreter with the argument line a
      template-less launch of the same settings would split out. */
  lemma ItemCommandAsLaunch(item: RunRequest, python: string, script: string, projectRoot: string)
    requires |script| > 0
    requires |python| > 0 && python[0] != '"' && forall i :: 0 <= i < |python| ==> !IsWhiteSpace(python[i])
    requires '\n' !in ItemCommand(item, python, script).1
    ensures LaunchCommand("", python, script, projectRoot, GridArg(item.grid), StepsArg(item.steps), item.seed, RunFolder(item))
      == Ok(ItemCommand(item, python, script))
  {
    LaunchFallback("", python, script, projectRoot, GridArg(item.grid), StepsArg(item.steps), item.seed, RunFolder(item));
  }
}

=== FILE: command.dfy ===
/** Building the command that runs one replicate: defaulting of the grid
    and step texts, the `args.txt` lines and the argument line, placeholder
    substitution in a command template, and the split of a command into
    executable and arguments. */
module Command {
  import opened Wrappers
  import opened Text
  import opened Numbers
  import opened LogParsing

  // ------------------------------------------------------------------
  // Arguments
  // ------------------------------------------------------------------

  /** A text box's value, or `fallback` when the box is blank. */
  function DefaultArg(box: string, fallback: string): (r: string)
    ensures IsBlank(box) ==> r == fallback
    ensures !IsBlank(box) ==> r == Trim(box) && |r| > 0 && !IsWhiteSpace(r[0]) && !IsWhiteSpace(r[|r| - 1])
  {
    if IsBlank(box) then fallback else Trim(box)
  }

  /** The grid text: "256" when the box is blank. */
  function GridArg(box: string): string {
    DefaultArg(box, "256")
  }

  /** The step-count text: "1000" when the box is blank. */
  function StepsArg(box: string): string {
    DefaultArg(box, "1000")
  }

  /** Defaulting leaves a value with no white space at its ends: applying
      it to its own result changes nothing. */
  lemma DefaultArgStable(box: string, fallback: string)
    requires |fallback| > 0 && !IsWhiteSpace(fallback[0]) && !IsWhiteSpace(fallback[|fallback| - 1])
    ensures DefaultArg(DefaultArg(box, fallback), fallback) == DefaultArg(box, fallback)
  {
    var r := DefaultArg(box, fallback);
    assert !IsBlank(r) by { assert !IsWhiteSpace(r[0]); }
    TrimOfTrimmed(r);
  }

  /** The seed segment of the argument line: " --seed n", or nothing. */
  function SeedArg(seed: Option<int>): (r: string)
    ensures seed.None? <==> r == ""
    ensures forall n :: seed == Some(n) ==> r == " --seed " + FInt(n)
  {
    match seed
    case None => ""
    case Some(n) => " --seed " + FInt(n)
  }

  /** The argument line passed to the interpreter:
      `"script" --grid G --steps S[ --seed n] --out "dir"`. */
  function ArgumentLine(script: string, grid: string, steps: string, seed: Option<int>, outDir: string): string {
    "\"" + script + "\" --grid " + grid + " --steps " + steps + SeedArg(seed) + " --out \"" + outDir + "\""
  }

  /** The lines of `args.txt`: grid, steps, the seed when there is one, and
      the quoted output folder. */
  function ArgsTxtLines(grid: string, steps: string, seed: Option<int>, outDir: string): (r: seq<string>)
    ensures |r| == if seed.Some? then 4 else 3
    ensures r[0] == "--grid " + grid && r[1] == "--steps " + steps
    ensures seed.Some? ==> r[2] == "--seed " + FInt(seed.value)
    ensures r[|r| - 1] == "--out \"" + outDir + "\""
  {
    ["--grid " + grid, "--steps " + steps]
    + (match seed case None => [] case Some(n) => ["--seed " + FInt(n)])
    + ["--out \"" + outDir + "\""]
  }

  /** Some position both strings have differs ignoring case. */
  predicate Differs(x: string, p: string)
    decreases |x|
  {
    |x| > 0 && |p| > 0 && (Lower(x[0]) != Lower(p[0]) || Differs(x[1..], p[1..]))
  }

  /** No occurrence of `p` can start inside `a`: from every position of
      `a` a mismatch comes before `a` ends. */
  predicate Blocks(a: string, p: string)
    decreases |a|
  {
    |a| == 0 || (Differs(a, p) && Blocks(a[1..], p))
  }

  lemma {:induction false} DiffersNoMatch(x: string, y: string, p: string)
    requires Differs(x, p) && |p| <= |x + y|
    ensures !EqualsIgnoreCase((x + y)[..|p|], p)
    decreases |x|
  {
    if Lower(x[0]) == Lower(p[0]) {
      DiffersNoMatch(x[1..], y, p[1..]);
      assert (x + y)[..|p|][1..] == (x[1..] + y)[..|p| - 1];
    } else {
      assert (x + y)[..|p|][0] == x[0];
    }
  }

  lemma {:induction false} BlocksAt(a: string, p: string, j: nat)
    requires Blocks(a, p) && j < |a|
    ensures Differs(a[j..], p)
    decreases j
  {
    if j > 0 {
      BlocksAt(a[1..], p, j - 1);
      assert a[1..][j - 1..] == a[j..];
    }
  }

  lemma NoMatchAt(a: string, b: string, p: string, j: nat)
    requires Blocks(a, p) && IndexOfIgnoreCase(b, p).None? && j <= |a + b|
    ensures !MatchesAt(a + b, p, j)
  {
    var s := a + b;
    if j < |a| && j + |p| <= |s| {
      BlocksAt(a, p, j);
      DiffersNoMatch(a[j..], b, p);
      assert s[j..j + |p|] == (a[j..] + b)[..|p|];
    } else if j >= |a| && j + |p| <= |s| {
      assert s[j..j + |p|] == b[j - |a|..j - |a| + |p|];
      assert !MatchesAt(b, p, j - |a|);
    }
  }

  /** A prefix that blocks `p` adds no occurrence of it. */
  lemma NoMatchAfter(a: string, b: string, p: string)
    requires Blocks(a, p) && IndexOfIgnoreCase(b, p).None?
    ensures IndexOfIgnoreCase(a + b, p).None?
  {
    forall j | 0 <= j <= |a + b| ensures !MatchesAt(a + b, p, j) {
      NoMatchAt(a, b, p, j);
    }
  }

  lemma NoMatchBeforeAt(b: string, c: char, p: string, j: nat)
    requires IndexOfIgnoreCase(b, p).None? && forall i :: 0 <= i < |p| ==> Lower(c) != Lower(p[i])
    requires j <= |b| + 1
    ensures !MatchesAt(b + [c], p, j)
  {
    var s := b + [c];
    if j + |p| <= |b| {
      assert s[j..j + |p|] == b[j..j + |p|];
      assert !MatchesAt(b, p, j);
    } else if j + |p| <= |s| {
      assert Lower(s[j..j + |p|][|b| - j]) != Lower(p[|b| - j]);
    }
  }

  /** A final character that occurs nowhere in `p` adds no occurrence of it. */
  lemma NoMatchBefore(b: string, c: char, p: string)
    requires IndexOfIgnoreCase(b, p).None? && forall i :: 0 <= i < |p| ==> Lower(c) != Lower(p[i])
    ensures IndexOfIgnoreCase(b + [c], p).None?
  {
    forall j | 0 <= j <= |b| + 1 ensures !MatchesAt(b + [c], p, j) {
      NoMatchBeforeAt(b, c, p, j);
    }
  }

  lemma GridPrefixBlocks()
    ensures Blocks("--grid ", "--seed")
  {
  }

  lemma StepsPrefixBlocks()
    ensures Blocks("--steps ", "--seed")
  {
  }

  lemma OutPrefixBlocks()
    ensures Blocks("--out \"", "--seed")
  {
  }

  lemma GridLineNoSeed(grid: string)
    requires IndexOfIgnoreCase(grid, "--seed").None?
    ensures FlagValue("--grid " + grid, "--seed").None?
  {
    GridPrefixBlocks();
    NoMatchAfter("--grid ", grid, "--seed");
  }

  lemma StepsLineNoSeed(steps: string)
    requires IndexOfIgnoreCase(steps, "--seed").None?
    ensures FlagValue("--steps " + steps, "--seed").None?
  {
    StepsPrefixBlocks();
    NoMatchAfter("--steps ", steps, "--seed");
  }

  lemma OutLineNoSeed(outDir: string)
    requires IndexOfIgnoreCase(outDir, "--seed").None?
    ensures FlagValue("--out \"" + outDir + "\"", "--seed").None?
  {
    OutPrefixBlocks();
    NoMatchBefore(outDir, '"', "--seed");
    NoMatchAfter("--out \"", outDir + "\"", "--seed");
    assert "--out \"" + (outDir + "\"") == "--out \"" + outDir + "\"";
  }

  lemma ValueInThirdLine(value: LineValue, lines: seq<string>, v: int)
    requires |lines| >= 3 && value(lines[0]).None? && value(lines[1]).None?
    requires value(lines[2]) == Some(v)
    ensures FirstValue(value, lines) == Some(v)
  {
    forall j | 0 <= j < 2 ensures value(lines[j]).None? {
      if j == 1 {
        assert lines[j] == lines[1];
      }
    }
    FirstValueWins(value, lines, 2);
  }

  lemma ValueInNoLine(value: LineValue, lines: seq<string>)
    requires |lines| == 3 && value(lines[0]).None? && value(lines[1]).None? && value(lines[2]).None?
    ensures FirstValue(value, lines).None?
  {
    forall j | 0 <= j < 3 ensures value(lines[j]).None? {
      if j == 1 {
        assert lines[j] == lines[1];
      } else if j == 2 {
        assert lines[j] == lines[2];
      }
    }
    FirstValueNone(value, lines);
  }

  lemma FlagSpaceLine(flag: string, n: int)
    requires IsInt32(n)
    ensures FlagValue(flag + " " + FInt(n), flag) == Some(n)
  {
    FlagValueOf(flag, ' ', n);
  }

  lemma SeedPrefix()
    ensures "--seed" + " " == "--seed "
  {
  }

  /** `args.txt` read back by the seed scraper gives the seed it was written
      with, and nothing when it was written without one, as long as the grid,
      step and folder texts do not themselves hold "--seed". */
  lemma ArgsTxtSeed(grid: string, steps: string, seed: Option<int>, outDir: string)
    requires forall n :: seed == Some(n) ==> IsInt32(n)
    requires IndexOfIgnoreCase(grid, "--seed").None? && IndexOfIgnoreCase(steps, "--seed").None?
    requires IndexOfIgnoreCase(outDir, "--seed").None?
    ensures TryExtractSeed(Readable(ArgsTxtLines(grid, steps, seed, outDir))) == seed
  {
    var lines := ArgsTxtLines(grid, steps, seed, outDir);
    GridLineNoSeed(grid);
    StepsLineNoSeed(steps);
    OutLineNoSeed(outDir);
    var value := FlagOf("--seed");
    assert value(lines[0]).None? && value(lines[1]).None?;
    assert value(lines[|lines| - 1]).None?;
    if seed.Some? {
      SeedPrefix();
      FlagSpaceLine("--seed", seed.value);
      ValueInThirdLine(value, lines, seed.value);
    } else {
      ValueInNoLine(value, lines);
    }
  }

  /** `args.txt` read back by the grid scraper gives the grid when the grid
      text is an integer's rendering. */
  lemma ArgsTxtGrid(g: int, steps: string, seed: Option<int>, outDir: string)
    requires IsInt32(g)
    ensures TryExtractGrid(Readable(ArgsTxtLines(FInt(g), steps, seed, outDir))) == Some(g)
  {
    var lines := ArgsTxtLines(FInt(g), steps, seed, outDir);
    assert lines[0] == "--grid" + [' '] + FInt(g);
    FlagValueOf("--grid", ' ', g);
    FlagFromFirstLine(lines, "--grid", 0);
  }

  // ------------------------------------------------------------------
  // Templates
  // ------------------------------------------------------------------

  /** The value of a key, compared ignoring case. */
  function Find(params: seq<(string, string)>, key: string): (r: Option<string>)
    ensures r.Some? ==> exists i :: 0 <= i < |params| && EqualsIgnoreCase(params[i].0, key) && params[i].1 == r.value
    ensures r.None? ==> forall i :: 0 <= i < |params| ==> !EqualsIgnoreCase(params[i].0, key)
  {
    if |params| == 0 then None
    else if EqualsIgnoreCase(params[0].0, key) then Some(params[0].1)
    else
      var r := Find(params[1..], key);
      assert forall i :: 1 <= i < |params| ==> params[i] == params[1..][i - 1];
      r
  }

  /** With distinct keys, each key finds its own value. */
  lemma {:induction false} FindOwn(params: seq<(string, string)>, i: nat)
    requires DistinctKeys(params) && i < |params|
    ensures Find(params, params[i].0) == Some(params[i].1)
    decreases |params|
  {
    if i > 0 {
      assert !EqualsIgnoreCase(params[0].0, params[i].0);
      assert params[1..][i - 1] == params[i];
      FindOwn(params[1..], i - 1);
    }
  }

  /** No two keys are equal ignoring case (else the case-insensitive copy
      of the dictionary throws). */
  predicate DistinctKeys(params: seq<(string, string)>) {
    forall i, j :: 0 <= i < j < |params| ==> !EqualsIgnoreCase(params[i].0, params[j].0)
  }

  /** The text a placeholder `{key}` becomes: the key's value when the key
      is known, else the placeholder itself. */
  function Replacement(params: seq<(string, string)>, key: string): string {
    match Find(params, key)
    case Some(v) => v
    case None => "{" + key + "}"
  }

  /** One left-to-right pass of the pattern `\{(?<k>[^}]+)\}`: at a `{`
      with a non-empty key before the next `}`, the placeholder is replaced
      and the scan resumes after it; every other character is copied. */
  function ResolveFrom(t: string, params: seq<(string, string)>): string
    decreases |t|
  {
    if |t| == 0 then ""
    else if t[0] == '{' then
      match IndexOfChar(t[1..], '}')
      case Some(j) =>
        if j > 0 then Replacement(params, t[1..j + 1]) + ResolveFrom(t[j + 2..], params)
        else "{" + ResolveFrom(t[1..], params)
      case None => "{" + ResolveFrom(t[1..], params)
    else [t[0]] + ResolveFrom(t[1..], params)
  }

  /** `ResolveTemplate(template, dict)`: an empty template or dictionary
      gives the template back; a dictionary with keys equal ignoring case
      is an error; otherwise every placeholder is resolved. */
  function ResolveTemplate(template: string, params: seq<(string, string)>): (r: Option<string>)
    ensures |template| == 0 ==> r == Some("")
    ensures |params| == 0 ==> r == Some(template)
    ensures r.None? <==> |template| > 0 && |params| > 0 && !DistinctKeys(params)
  {
    if |template| == 0 || |params| == 0 then Some(template)
    else if !DistinctKeys(params) then None
    else Some(ResolveFrom(template, params))
  }

  /** Distinct keys always resolve. */
  lemma ResolvesDistinct(template: string, params: seq<(string, string)>)
    requires DistinctKeys(params)
    ensures ResolveTemplate(template, params).Some?
  {
  }

  /** A piece of a template: literal text or a placeholder. */
  datatype Segment = Lit(text: string) | Hole(key: string)

  /** A literal holds no `{`; a placeholder's key is non-empty and holds no `}`. */
  predicate WellFormed(segs: seq<Segment>) {
    forall i :: 0 <= i < |segs| ==>
      match segs[i]
      case Lit(x) => '{' !in x
      case Hole(k) => |k| > 0 && '}' !in k
  }

  /** The template text of the pieces. */
  function Render(segs: seq<Segment>): string {
    if |segs| == 0 then ""
    else
      match segs[0]
      case Lit(x) => x + Render(segs[1..])
      case Hole(k) => "{" + k + "}" + Render(segs[1..])
  }

  /** The intended substitution: literals kept, placeholders replaced. */
  function Substitute(segs: seq<Segment>, params: seq<(string, string)>): string {
    if |segs| == 0 then ""
    else
      match segs[0]
      case Lit(x) => x + Substitute(segs[1..], params)
      case Hole(k) => Replacement(params, k) + Substitute(segs[1..], params)
  }

  lemma {:induction false} ResolveLiteral(x: string, rest: string, params: seq<(string, string)>)
    requires '{' !in x
    ensures ResolveFrom(x + rest, params) == x + ResolveFrom(rest, params)
    decreases |x|
  {
    if |x| == 0 {
      assert x + rest == rest;
    } else {
      assert (x + rest)[0] == x[0];
      assert (x + rest)[1..] == x[1..] + rest;
      ResolveLiteral(x[1..], rest, params);
      assert [x[0]] + (x[1..] + ResolveFrom(rest, params)) == x + ResolveFrom(rest, params);
    }
  }

  lemma ResolveHole(k: string, rest: string, params: seq<(string, string)>)
    requires |k| > 0 && '}' !in k
    ensures ResolveFrom("{" + k + "}" + rest, params) == Replacement(params, k) + ResolveFrom(rest, params)
  {
    var t := "{" + k + "}" + rest;
    assert t[1..] == k + ['}'] + rest;
    IndexOfCharAfter(k, '}', rest);
    assert t[1..|k| + 1] == k;
    assert t[|k| + 2..] == rest;
  }

  /** The pass resolves a well-formed template exactly as the intended
      substitution does, for every dictionary. */
  lemma {:induction false} ResolveRendered(segs: seq<Segment>, params: seq<(string, string)>)
    requires WellFormed(segs)
    ensures ResolveFrom(Render(segs), params) == Substitute(segs, params)
    decreases |segs|
  {
    if |segs| > 0 {
      assert WellFormed(segs[1..]) by {
        forall i | 0 <= i < |segs[1..]| ensures segs[1..][i] == segs[i + 1] { }
      }
      ResolveRendered(segs[1..], params);
      match segs[0]
      case Lit(x) =>
        assert '{' !in x by { assert segs[0] == Lit(x); }
        ResolveLiteral(x, Render(segs[1..]), params);
      case Hole(k) =>
        assert |k| > 0 && '}' !in k by { assert segs[0] == Hole(k); }
        ResolveHole(k, Render(segs[1..]), params);
    }
  }

  /** A template without placeholders comes back unchanged. */
  lemma ResolveNoBraces(template: string, params: seq<(string, string)>)
    requires '{' !in template && DistinctKeys(params)
    ensures ResolveTemplate(template, params) == Some(template)
  {
    ResolveLiteral(template, "", params);
    assert template + "" == template;
  }

  // ------------------------------------------------------------------
  // Splitting a command line
  // ------------------------------------------------------------------

  /** The leading run of non-white characters (`\S+`). */
  function TakeNonWhite(s: string): (r: string)
    ensures |r| <= |s| && r == s[..|r|]
    ensures forall i :: 0 <= i < |r| ==> !IsWhiteSpace(r[i])
    ensures |r| < |s| ==> IsWhiteSpace(s[|r|])
  {
    if |s| == 0 || IsWhiteSpace(s[0]) then "" else [s[0]] + TakeNonWhite(s[1..])
  }

  /** No line feed, except possibly as the last character. */
  predicate SingleLine(r: string) {
    forall i :: 0 <= i < |r| - 1 ==> r[i] != '\n'
  }

  /** `\s*(?<args>.*)$` on the text after the executable: white space is
      skipped, the arguments run to the end (`.` stops at a line feed, `$`
      also matches before a final line feed), and a line feed anywhere else
      makes the match fail. */
  function TailArgs(t: string): (r: Option<string>)
    ensures r.Some? ==> '\n' !in r.value
  {
    var u := TrimStart(t);
    if !SingleLine(u) then None
    else if |u| > 0 && u[|u| - 1] == '\n' then Some(u[..|u| - 1])
    else Some(u)
  }

  /** The first alternative: a double-quoted executable, non-empty and free
      of quotes, and the arguments after it. */
  function QuotedForm(s: string): Option<(string, string)> {
    if |s| == 0 || s[0] != '"' then None
    else
      match IndexOfChar(s[1..], '"')
      case None => None
      case Some(j) =>
        if j == 0 then None
        else
          match TailArgs(s[j + 2..])
          case None => None
          case Some(a) => Some((s[1..j + 1], a))
  }

  /** The second alternative: the leading non-white run, and the arguments
      after it. */
  function BareForm(s: string): Option<(string, string)> {
    var e := TakeNonWhite(s);
    if |e| == 0 then None
    else
      match TailArgs(s[|e|..])
      case None => None
      case Some(a) => Some((e, a))
  }

  /** `SplitCommand(command)`: a blank command and a command the pattern
      does not match give two empty strings; otherwise the executable and
      the arguments, both trimmed. */
  function SplitCommand(command: string): (r: (string, string))
    ensures IsBlank(command) ==> r == ("", "")
  {
    if IsBlank(command) then ("", "")
    else
      var s := TrimStart(command);
      match QuotedForm(s)
      case Some((exe, args)) => (Trim(exe), Trim(args))
      case None =>
        match BareForm(s)
        case Some((exe, args)) => (Trim(exe), Trim(args))
        case None => ("", "")
  }

  lemma TrimStartTwice(s: string)
    ensures TrimStart(TrimStart(s)) == TrimStart(s)
  {
  }

  lemma TailArgsOf(args: string)
    requires '\n' !in args
    ensures TailArgs(args).Some? && Trim(TailArgs(args).value) == Trim(args)
  {
    TailArgsOneLine(args);
    TrimStartTwice(args);
  }

  /** Text without a line feed keeps everything after its leading white space. */
  lemma TailArgsOneLine(t: string)
    requires '\n' !in t
    ensures TailArgs(t) == Some(TrimStart(t))
  {
    var u := TrimStart(t);
    TrimStartOneLine(t);
    assert SingleLine(u) by {
      forall i | 0 <= i < |u| - 1 ensures u[i] != '\n' {
        assert u[i] in u;
      }
    }
    assert |u| > 0 ==> u[|u| - 1] in u;
  }

  lemma TrimStartOneLine(s: string)
    requires '\n' !in s
    ensures '\n' !in TrimStart(s)
  {
    var u := TrimStart(s);
    assert forall i :: 0 <= i < |u| ==> u[i] == s[|s| - |u| + i];
  }

  lemma QuotedParts(exe: string, args: string)
    requires '"' !in exe
    ensures var c := "\"" + exe + "\"" + args;
      |c| == |exe| + 2 + |args| && c[0] == '"' && IndexOfChar(c[1..], '"') == Some(|exe|)
      && c[1..|exe| + 1] == exe && c[|exe| + 2..] == args
  {
    var c := "\"" + exe + "\"" + args;
    assert c[1..] == exe + ['"'] + args;
    IndexOfCharAfter(exe, '"', args);
    assert c[1..|exe| + 1] == exe;
    assert c[|exe| + 2..] == args;
  }

  lemma QuotedFormOf(exe: string, args: string)
    requires |exe| > 0 && '"' !in exe && '\n' !in args
    ensures TailArgs(args).Some?
    ensures QuotedForm("\"" + exe + "\"" + args) == Some((exe, TailArgs(args).value))
  {
    TailArgsOf(args);
    QuotedParts(exe, args);
  }

  lemma {:induction false} TakeNonWhiteOf(w: string, rest: string)
    requires forall i :: 0 <= i < |w| ==> !IsWhiteSpace(w[i])
    requires |rest| > 0 && IsWhiteSpace(rest[0])
    ensures TakeNonWhite(w + rest) == w
    decreases |w|
  {
    if |w| == 0 {
      assert w + rest == rest;
    } else {
      assert (w + rest)[0] == w[0];
      assert (w + rest)[1..] == w[1..] + rest;
      TakeNonWhiteOf(w[1..], rest);
    }
  }

  lemma BareFormOf(exe: string, args: string)
    requires |exe| > 0 && '\n' !in args
    requires forall i :: 0 <= i < |exe| ==> !IsWhiteSpace(exe[i])
    ensures TailArgs(" " + args).Some?
    ensures BareForm(exe + " " + args) == Some((exe, TailArgs(" " + args).value))
  {
    assert '\n' !in " " + args;
    TailArgsOf(" " + args);
    TakeNonWhiteOf(exe, " " + args);
    assert exe + (" " + args) == exe + " " + args;
    assert (exe + " " + args)[|exe|..] == " " + args;
  }

  /** A quoted executable comes back without its quotes, and the rest as
      the arguments, both trimmed. */
  lemma SplitQuoted(exe: string, args: string)
    requires |exe| > 0 && '"' !in exe && '\n' !in args
    ensures SplitCommand("\"" + exe + "\"" + args) == (Trim(exe), Trim(args))
  {
    var c := "\"" + exe + "\"" + args;
    assert c[0] == '"';
    TrimStartStops("\"", exe + "\"" + args);
    assert "\"" + (exe + "\"" + args) == c;
    QuotedFormOf(exe, args);
    TailArgsOf(args);
  }

  lemma BareStart(exe: string, args: string)
    requires |exe| > 0 && !IsWhiteSpace(exe[0])
    ensures var c := exe + " " + args; c[0] == exe[0] && !IsBlank(c) && TrimStart(c) == c
  {
    var c := exe + " " + args;
    assert c[0] == exe[0];
    TrimStartStops(exe, " " + args);
    assert exe + (" " + args) == c;
  }

  lemma SpacedArgs(args: string)
    requires '\n' !in args
    ensures TailArgs(" " + args).Some? && Trim(TailArgs(" " + args).value) == Trim(args)
  {
    assert '\n' !in " " + args;
    TailArgsOf(" " + args);
    TrimStartSkipsBlank(" ", args);
  }

  /** An unquoted executable is the first white-space-delimited word. */
  lemma SplitBare(exe: string, args: string)
    requires |exe| > 0 && exe[0] != '"' && '\n' !in args
    requires forall i :: 0 <= i < |exe| ==> !IsWhiteSpace(exe[i])
    ensures SplitCommand(exe + " " + args) == (exe, Trim(args))
  {
    BareStart(exe, args);
    BareFormOf(exe, args);
    SpacedArgs(args);
    TrimOfTrimmed(exe);
  }

  // ------------------------------------------------------------------
  // The launch command
  // ------------------------------------------------------------------

  /** The placeholder values of a launch, in the order the dictionary is
      built: interpreter, script, project root, grid, steps, output folder
      and the seed segment. */
  function LaunchParams(python: string, script: string, projectRoot: string, grid: string,
                        steps: string, outDir: string, seed: Option<int>): (r: seq<(string, string)>)
    ensures |r| == 7 && DistinctKeys(r)
    ensures r[0] == ("python", python) && r[2] == ("projectRoot", projectRoot)
    ensures r[3] == ("grid", grid) && r[4] == ("steps", steps)
    ensures r[5] == ("outDir", outDir) && r[6] == ("seedOpt", SeedArg(seed))
  {
    var r := [("python", python), ("script", script), ("projectRoot", projectRoot), ("grid", grid),
              ("steps", steps), ("outDir", outDir), ("seedOpt", SeedArg(seed))];
    LaunchKeysDistinct(r);
    r
  }

  lemma KeysDiffer(a: string, b: string)
    requires |a| > 0 && |b| > 0 && (|a| != |b| || Lower(a[0]) != Lower(b[0]))
    ensures !EqualsIgnoreCase(a, b)
  {
  }

  lemma LaunchKeysDistinct(r: seq<(string, string)>)
    requires |r| == 7 && r[0].0 == "python" && r[1].0 == "script" && r[2].0 == "projectRoot"
    requires r[3].0 == "grid" && r[4].0 == "steps" && r[5].0 == "outDir" && r[6].0 == "seedOpt"
    ensures DistinctKeys(r)
  {
    forall i, j | 0 <= i < j < 7 ensures !EqualsIgnoreCase(r[i].0, r[j].0) {
      KeysDiffer(r[i].0, r[j].0);
    }
  }

  /** The executable and arguments of a launch: the profile's template
      with its placeholders filled in or, without a template, the
      interpreter followed by the argument line, split by `SplitCommand`.
      Without a script and without a template nothing is launched. */
  function LaunchCommand(template: string, python: string, script: string, projectRoot: string,
                         grid: string, steps: string, seed: Option<int>, outDir: string): (r: Result<(string, string), string>)
    ensures r.Err? <==> |script| == 0 && IsBlank(template)
    ensures IsBlank(template) && |script| > 0 ==>
      r == Ok(SplitCommand(python + " " + ArgumentLine(script, grid, steps, seed, outDir)))
  {
    if |script| == 0 && IsBlank(template) then
      Err("No Python script found (run_poisson.py / main.py), and no equation command template.")
    else if !IsBlank(template) then
      var params := LaunchParams(python, script, projectRoot, grid, steps, outDir, seed);
      ResolvesDistinct(template, params);
      Ok(SplitCommand(ResolveTemplate(template, params).value))
    else
      Ok(SplitCommand(python + " " + ArgumentLine(script, grid, steps, seed, outDir)))
  }

  lemma ArgumentLineQuoted(script: string, grid: string, steps: string, seed: Option<int>, outDir: string)
    ensures var a := ArgumentLine(script, grid, steps, seed, outDir);
      |a| > 0 && a[0] == '"' && a[|a| - 1] == '"'
  {
  }

  lemma SplitQuotedArgs(exe: string, a: string)
    requires |exe| > 0 && exe[0] != '"' && forall i :: 0 <= i < |exe| ==> !IsWhiteSpace(exe[i])
    requires |a| > 0 && a[0] == '"' && a[|a| - 1] == '"' && '\n' !in a
    ensures SplitCommand(exe + " " + a) == (exe, a)
  {
    SplitBare(exe, a);
    TrimOfTrimmed(a);
  }

  /** Without a template the launch runs the interpreter with the very
      argument line a queued run passes: the split hands back both unchanged. */
  lemma LaunchFallback(template: string, python: string, script: string, projectRoot: string,
                       grid: string, steps: string, seed: Option<int>, outDir: string)
    requires IsBlank(template) && |script| > 0
    requires |python| > 0 && python[0] != '"' && forall i :: 0 <= i < |python| ==> !IsWhiteSpace(python[i])
    requires '\n' !in ArgumentLine(script, grid, steps, seed, outDir)
    ensures LaunchCommand(template, python, script, projectRoot, grid, steps, seed, outDir)
      == Ok((python, ArgumentLine(script, grid, steps, seed, outDir)))
  {
    ArgumentLineQuoted(script, grid, steps, seed, outDir);
    SplitQuotedArgs(python, ArgumentLine(script, grid, steps, seed, outDir));
  }

  /** With a template the launch runs what the intended substitution of its
      pieces gives. */
  lemma LaunchTemplate(segs: seq<Segment>, python: string, script: string, projectRoot: string,
                       grid: string, steps: string, seed: Option<int>, outDir: string)
    requires WellFormed(segs) && !IsBlank(Render(segs))
    ensures LaunchCommand(Render(segs), python, script, projectRoot, grid, steps, seed, outDir)
      == Ok(SplitCommand(Substitute(segs, LaunchParams(python, script, projectRoot, grid, steps, outDir, seed))))
  {
    ResolveRendered(segs, LaunchParams(python, script, projectRoot, grid, steps, outDir, seed));
  }
}

=== FILE: defaults.dfy ===
/** The application defaults: the command template a new profile starts
    from, and the `key=value` settings file with its read and its
    read-modify-write update. The settings file is given as its lines. */
module Defaults {
  import opened Wrappers
  import opened Text
  import opened Command

  // ------------------------------------------------------------------
  // The default command template
  // ------------------------------------------------------------------

  /** The first pieces of `Defaults.CommandTemplate`, which reads
      `{python} "{projectRoot}\run_poisson.py" --grid {grid} --steps {steps}{seedOpt} --out "{outDir}"`. */
  function TemplateHead(): seq<Segment> {
    [Hole("python")] + ([Lit(" \"")] + ([Hole("projectRoot")] + ([Lit("\\run_poisson.py\" --grid ")]
    + [Hole("grid")])))
  }

  /** The remaining pieces of the template. */
  function TemplateTail(): seq<Segment> {
    [Lit(" --steps ")] + ([Hole("steps")] + ([Hole("seedOpt")] + ([Lit(" --out \"")]
    + ([Hole("outDir")] + [Lit("\"")]))))
  }

  /** `Defaults.CommandTemplate`, split at its placeholders. */
  function CommandSegments(): seq<Segment> {
    TemplateHead() + TemplateTail()
  }

  /** `Defaults.CommandTemplate`: the pieces in order. */
  function CommandTemplate(): string {
    Render(CommandSegments())
  }

  /** The text one piece becomes under a substitution. */
  function Filled(seg: Segment, params: seq<(string, string)>): string {
    match seg
    case Lit(x) => x
    case Hole(k) => Replacement(params, k)
  }

  lemma SubstituteStep(seg: Segment, rest: seq<Segment>, params: seq<(string, string)>)
    ensures Substitute([seg] + rest, params) == Filled(seg, params) + Substitute(rest, params)
  {
    assert ([seg] + rest)[1..] == rest;
  }

  lemma {:induction false} SubstituteAppend(a: seq<Segment>, b: seq<Segment>, params: seq<(string, string)>)
    ensures Substitute(a + b, params) == Substitute(a, params) + Substitute(b, params)
    decreases |a|
  {
    if |a| == 0 {
      assert a + b == b;
    } else {
      assert a + b == [a[0]] + (a[1..] + b);
      SubstituteStep(a[0], a[1..] + b, params);
      SubstituteStep(a[0], a[1..], params);
      assert a == [a[0]] + a[1..];
      SubstituteAppend(a[1..], b, params);
    }
  }

  lemma {:induction false} WellFormedCons(seg: Segment, rest: seq<Segment>)
    requires WellFormed(rest)
    requires match seg case Lit(x) => '{' !in x case Hole(k) => |k| > 0 && '}' !in k
    ensures WellFormed([seg] + rest)
  {
    assert forall i :: 1 <= i < |[seg] + rest| ==> ([seg] + rest)[i] == rest[i - 1];
  }

  lemma WellFormedAppend(a: seq<Segment>, b: seq<Segment>)
    requires WellFormed(a) && WellFormed(b)
    ensures WellFormed(a + b)
  {
    assert forall i :: |a| <= i < |a + b| ==> (a + b)[i] == b[i - |a|];
  }

  lemma HeadWellFormed()
    ensures WellFormed(TemplateHead())
  {
    assert '{' !in "\\run_poisson.py\" --grid ";
    var s4 := [Hole("grid")];
    var s3 := [Lit("\\run_poisson.py\" --grid ")] + s4;
    var s2 := [Hole("projectRoot")] + s3;
    var s1 := [Lit(" \"")] + s2;
    WellFormedCons(Lit("\\run_poisson.py\" --grid "), s4);
    WellFormedCons(Hole("projectRoot"), s3);
    WellFormedCons(Lit(" \""), s2);
    WellFormedCons(Hole("python"), s1);
  }

  lemma TailWellFormed()
    ensures WellFormed(TemplateTail())
  {
    var s5 := [Lit("\"")];
    var s4 := [Hole("outDir")] + s5;
    var s3 := [Lit(" --out \"")] + s4;
    var s2 := [Hole("seedOpt")] + s3;
    var s1 := [Hole("steps")] + s2;
    WellFormedCons(Hole("outDir"), s5);
    WellFormedCons(Lit(" --out \""), s4);
    WellFormedCons(Hole("seedOpt"), s3);
    WellFormedCons(Hole("steps"), s2);
    WellFormedCons(Lit(" --steps "), s1);
  }

  /** The template's pieces are well formed: literals without `{`,
      placeholders with a non-empty key without `}`. */
  lemma CommandSegmentsWellFormed()
    ensures WellFormed(CommandSegments())
  {
    HeadWellFormed();
    TailWellFormed();
    WellFormedAppend(TemplateHead(), TemplateTail());
  }

  /** Every placeholder of the template names a value of the launch map. */
  lemma LaunchReplacements(python: string, script: string, projectRoot: string, grid: string,
                           steps: string, outDir: string, seed: Option<int>)
    ensures var p := LaunchParams(python, script, projectRoot, grid, steps, outDir, seed);
      Replacement(p, "python") == python && Replacement(p, "projectRoot") == projectRoot
      && Replacement(p, "grid") == grid && Replacement(p, "steps") == steps
      && Replacement(p, "seedOpt") == SeedArg(seed) && Replacement(p, "outDir") == outDir
  {
    var p := LaunchParams(python, script, projectRoot, grid, steps, outDir, seed);
    FindOwn(p, 0);
    FindOwn(p, 2);
    FindOwn(p, 3);
    FindOwn(p, 4);
    FindOwn(p, 5);
    FindOwn(p, 6);
  }

  lemma SubstituteHead(params: seq<(string, string)>, python: string, projectRoot: string, grid: string)
    requires Replacement(params, "python") == python && Replacement(params, "projectRoot") == projectRoot
    requires Replacement(params, "grid") == grid
    ensures Substitute(TemplateHead(), params)
      == python + (" \"" + (projectRoot + ("\\run_poisson.py\" --grid " + grid)))
  {
    var s4 := [Hole("grid")];
    var s3 := [Lit("\\run_poisson.py\" --grid ")] + s4;
    var s2 := [Hole("projectRoot")] + s3;
    var s1 := [Lit(" \"")] + s2;
    SubstituteStep(Hole("grid"), [], params);
    assert [Hole("grid")] + [] == s4;
    SubstituteStep(Lit("\\run_poisson.py\" --grid "), s4, params);
    SubstituteStep(Hole("projectRoot"), s3, params);
    SubstituteStep(Lit(" \""), s2, params);
    SubstituteStep(Hole("python"), s1, params);
  }

  lemma SubstituteTail(params: seq<(string, string)>, steps: string, seedOpt: string, outDir: string)
    requires Replacement(params, "steps") == steps && Replacement(params, "seedOpt") == seedOpt
    requires Replacement(params, "outDir") == outDir
    ensures Substitute(TemplateTail(), params)
      == " --steps " + (steps + (seedOpt + (" --out \"" + (outDir + "\""))))
  {
    var s5 := [Lit("\"")];
    var s4 := [Hole("outDir")] + s5;
    var s3 := [Lit(" --out \"")] + s4;
    var s2 := [Hole("seedOpt")] + s3;
    var s1 := [Hole("steps")] + s2;
    SubstituteStep(Lit("\""), [], params);
    assert [Lit("\"")] + [] == s5;
    SubstituteStep(Hole("outDir"), s5, params);
    SubstituteStep(Lit(" --out \""), s4, params);
    SubstituteStep(Hole("seedOpt"), s3, params);
    SubstituteStep(Hole("steps"), s2, params);
    SubstituteStep(Lit(" --steps "), s1, params);
  }

  /** The filled pieces of the template spell the interpreter, a space and
      the fallback's argument line for the project's `run_poisson.py`. */
  lemma FilledIsFallback(python: string, projectRoot: string, grid: string, steps: string,
                         seed: Option<int>, outDir: string)
    ensures python + (" \"" + (projectRoot + ("\\run_poisson.py\" --grid " + grid)))
      + (" --steps " + (steps + (SeedArg(seed) + (" --out \"" + (outDir + "\"")))))
      == python + " " + ArgumentLine(projectRoot + "\\run_poisson.py", grid, steps, seed, outDir)
  {
    Regroup(python, " ", "\"", projectRoot, "\\run_poisson.py", "\" --grid ", grid, " --steps ", steps,
            SeedArg(seed), " --out \"", outDir, "\"");
    assert " " + "\"" == " \"";
    assert "\\run_poisson.py" + "\" --grid " == "\\run_poisson.py\" --grid ";
  }

  /** Concatenation regrouped the way the template's pieces nest. */
  lemma Regroup(py: string, sp: string, q: string, root: string, run: string, qg: string, grid: string,
                st: string, steps: string, seed: string, out: string, dir: string, qe: string)
    ensures py + sp + (q + (root + run) + qg + grid + st + steps + seed + out + dir + qe)
      == py + ((sp + q) + (root + ((run + qg) + grid))) + (st + (steps + (seed + (out + (dir + qe)))))
  {
  }

  /** The default template, resolved with the launch map, is the command
      the built-in fallback runs for the project's `run_poisson.py`: every
      placeholder is filled and none is left over. */
  lemma DefaultTemplateResolves(python: string, projectRoot: string, grid: string, steps: string,
                                outDir: string, seed: Option<int>)
    ensures var script := projectRoot + "\\run_poisson.py";
      ResolveTemplate(CommandTemplate(), LaunchParams(python, script, projectRoot, grid, steps, outDir, seed))
      == Some(python + " " + ArgumentLine(script, grid, steps, seed, outDir))
  {
    var script := projectRoot + "\\run_poisson.py";
    var p := LaunchParams(python, script, projectRoot, grid, steps, outDir, seed);
    CommandSegmentsWellFormed();
    ResolveRendered(CommandSegments(), p);
    LaunchReplacements(python, script, projectRoot, grid, steps, outDir, seed);
    SubstituteAppend(TemplateHead(), TemplateTail(), p);
    SubstituteHead(p, python, projectRoot, grid);
    SubstituteTail(p, steps, SeedArg(seed), outDir);
    FilledIsFallback(python, projectRoot, grid, steps, seed, outDir);
    assert |CommandTemplate()| > 0 by {
      assert CommandSegments()[0] == Hole("python");
    }
  }

  // ------------------------------------------------------------------
  // The settings file
  // ------------------------------------------------------------------

  /** A settings entry as the dictionary holds it. */
  type Settings = seq<(string, string)>

  /** `ReadSetting(key)` over the lines of the file: the first line that,
      trimmed, starts with `key=` (ignoring case) gives the trimmed text
      after it. */
  function ReadFrom(lines: seq<string>, key: string): (r: Option<string>)
    ensures r.Some? ==> Trim(r.value) == r.value
  {
    if |lines| == 0 then None
    else
      var t := Trim(lines[0]);
      if StartsWithIgnoreCase(t, key + "=") then
        (TrimIdempotent(t[|key| + 1..]); Some(Trim(t[|key| + 1..])))
      else ReadFrom(lines[1..], key)
  }

  /** The line answers a lookup of `key`: trimmed, it starts with `key=`
      ignoring case. */
  predicate Answers(line: string, key: string) {
    StartsWithIgnoreCase(Trim(line), key + "=")
  }

  /** The first answering line decides the setting: its trimmed text after
      `key=`, trimmed again. Later lines with the same key are never read. */
  lemma {:induction false} ReadFromFirst(lines: seq<string>, key: string, i: nat)
    requires i < |lines| && Answers(lines[i], key)
    requires forall j :: 0 <= j < i ==> !Answers(lines[j], key)
    ensures ReadFrom(lines, key) == Some(Trim(Trim(lines[i])[|key| + 1..]))
    decreases i
  {
    if i > 0 {
      assert !Answers(lines[0], key);
      ReadFromFirst(lines[1..], key, i - 1);
    }
  }

  /** A lookup finds nothing exactly when no line answers it. */
  lemma {:induction false} ReadFromAbsent(lines: seq<string>, key: string)
    ensures ReadFrom(lines, key).None? <==> forall i :: 0 <= i < |lines| ==> !Answers(lines[i], key)
    decreases |lines|
  {
    if |lines| > 0 {
      ReadFromAbsent(lines[1..], key);
      assert forall i :: 1 <= i < |lines| ==> lines[i] == lines[1..][i - 1];
    }
  }

  /** `ReadSetting(key)`: nothing when the file is missing or cannot be read. */
  function ReadSetting(file: TextFile, key: string): (r: Option<string>)
    ensures !file.Readable? ==> r.None?
  {
    match file
    case Readable(lines) => ReadFrom(lines, key)
    case _ => None
  }

  /** The entry a settings line holds: blank and `#` lines hold none, nor
      does a line without `=` or starting with it; otherwise the trimmed
      text before the first `=` and the trimmed text after it. */
  function Entry(line: string): (r: Option<(string, string)>)
    ensures r.Some? ==> IsKey(r.value.0) && r.value.0[0] != '#' && Trim(r.value.1) == r.value.1
  {
    var t := Trim(line);
    if |t| == 0 || t[0] == '#' then None
    else
      match IndexOfChar(t, '=')
      case None => None
      case Some(idx) =>
        if idx == 0 then None
        else
          var k := Trim(t[..idx]);
          var v := Trim(t[idx + 1..]);
          EntryKey(t, idx);
          TrimIdempotent(t[idx + 1..]);
          Some((k, v))
  }

  /** A key as the parser leaves it: non-empty, without `=`, and without
      white space at its ends. */
  predicate IsKey(k: string) {
    |k| > 0 && '=' !in k && !IsWhiteSpace(k[0]) && !IsWhiteSpace(k[|k| - 1])
  }

  lemma EntryKey(t: string, idx: nat)
    requires 0 < idx < |t| && !IsWhiteSpace(t[0]) && '=' !in t[..idx]
    ensures IsKey(Trim(t[..idx])) && Trim(t[..idx])[0] == t[0]
  {
    assert !IsBlank(t[..idx]) by { assert t[..idx][0] == t[0]; }
    TrimKeepsOut(t[..idx], '=');
    TrimStartStops(t[..idx], "");
    assert t[..idx] + "" == t[..idx];
  }

  /** `dict[key] = value` on a dictionary that compares keys ignoring case:
      an entry with an equal key keeps its spelling and takes the new
      value; otherwise the entry is added. */
  function Set(d: Settings, key: string, value: string): (r: Settings)
    ensures Find(r, key) == Some(value)
    ensures |r| == |d| || |r| == |d| + 1
    ensures forall j :: 0 <= j < |d| ==> r[j].0 == d[j].0
    ensures |r| == |d| + 1 ==> r[|d|] == (key, value) && Find(d, key).None?
    decreases |d|
  {
    if |d| == 0 then [(key, value)]
    else if EqualsIgnoreCase(d[0].0, key) then [(d[0].0, value)] + d[1..]
    else [d[0]] + Set(d[1..], key, value)
  }

  /** Setting one key leaves every other key's value as it was. */
  lemma {:induction false} SetOthers(d: Settings, key: string, value: string, other: string)
    requires !EqualsIgnoreCase(key, other)
    ensures Find(Set(d, key, value), other) == Find(d, other)
    decreases |d|
  {
    if |d| > 0 {
      if EqualsIgnoreCase(d[0].0, key) {
        if EqualsIgnoreCase(d[0].0, other) {
          EqualsIgnoreCaseSymmetric(d[0].0, key);
          EqualsIgnoreCaseTransitive(key, d[0].0, other);
        }
        assert Set(d, key, value)[1..] == d[1..];
      } else {
        SetOthers(d[1..], key, value, other);
        assert Set(d, key, value)[1..] == Set(d[1..], key, value);
      }
    }
  }

  /** Every key of the dictionary is a parsed key. */
  predicate Keyed(d: Settings) {
    forall i :: 0 <= i < |d| ==> IsKey(d[i].0)
  }

  lemma {:induction false} SetKeyed(d: Settings, key: string, value: string)
    requires Keyed(d) && IsKey(key)
    ensures Keyed(Set(d, key, value))
    decreases |d|
  {
    if |d| > 0 && !EqualsIgnoreCase(d[0].0, key) {
      SetKeyed(d[1..], key, value);
      var r := Set(d, key, value);
      assert forall i :: 1 <= i < |r| ==> r[i] == Set(d[1..], key, value)[i - 1];
    }
  }

  /** The dictionary `WriteSetting` builds from the old lines: the entry of
      every line, a later duplicate key overwriting an earlier one. */
  function ParseSettings(lines: seq<string>): (r: Settings)
    ensures Keyed(r)
    decreases |lines|
  {
    if |lines| == 0 then []
    else
      var d := ParseSettings(lines[..|lines| - 1]);
      match Entry(lines[|lines| - 1])
      case None => d
      case Some((k, v)) => SetKeyed(d, k, v); Set(d, k, v)
  }

  /** Reference reading of a settings file: the value of the last line
      whose entry has the key (ignoring case). */
  function LastValue(lines: seq<string>, key: string): (r: Option<string>)
    ensures r.Some? ==> Trim(r.value) == r.value
    decreases |lines|
  {
    if |lines| == 0 then None
    else
      match Entry(lines[|lines| - 1])
      case Some((k, v)) =>
        if EqualsIgnoreCase(k, key) then Some(v) else LastValue(lines[..|lines| - 1], key)
      case None => LastValue(lines[..|lines| - 1], key)
  }

  /** The parsed dictionary holds, for every key, the value of the last
      line with that key. */
  lemma {:induction false} ParseSettingsLast(lines: seq<string>, key: string)
    ensures Find(ParseSettings(lines), key) == LastValue(lines, key)
    decreases |lines|
  {
    if |lines| > 0 {
      var init := lines[..|lines| - 1];
      ParseSettingsLast(init, key);
      match Entry(lines[|lines| - 1])
      case None =>
      case Some((k, v)) =>
        if EqualsIgnoreCase(k, key) {
          EqualsIgnoreCaseSymmetric(k, key);
          SetFindsEqual(ParseSettings(init), k, v, key);
        } else {
          SetOthers(ParseSettings(init), k, v, key);
        }
    }
  }

  /** A key equal to the set one, ignoring case, finds the new value. */
  lemma {:induction false} SetFindsEqual(d: Settings, key: string, value: string, other: string)
    requires EqualsIgnoreCase(key, other)
    ensures Find(Set(d, key, value), other) == Some(value)
    decreases |d|
  {
    if |d| > 0 {
      if EqualsIgnoreCase(d[0].0, key) {
        EqualsIgnoreCaseTransitive(d[0].0, key, other);
      } else {
        if EqualsIgnoreCase(d[0].0, other) {
          EqualsIgnoreCaseSymmetric(key, other);
          EqualsIgnoreCaseTransitive(d[0].0, other, key);
        }
        SetFindsEqual(d[1..], key, value, other);
        assert Set(d, key, value)[1..] == Set(d[1..], key, value);
      }
    }
  }

  /** The lines `WriteSetting` writes: `key=value` for every entry. */
  function SettingLines(d: Settings): (r: seq<string>)
    ensures |r| == |d|
  {
    seq(|d|, i requires 0 <= i < |d| => d[i].0 + "=" + d[i].1)
  }

  /** `WriteSetting(key, value)`: the old entries, the key set to the
      value, written back one `key=value` line each; comments and blank
      lines are dropped. The result is the file as a later read sees it,
      so a key or value holding a line break comes back as several lines.
      A file that cannot be read is left alone. */
  function WriteSetting(file: TextFile, key: string, value: string): (r: TextFile)
    ensures file.Unreadable? <==> r.Unreadable?
    ensures r.Readable? ==> |r.lines| > 0
  {
    match file
    case Unreadable => Unreadable
    case Absent => Readable(Stored(SettingLines(Set([], key, value))))
    case Readable(lines) => Readable(Stored(SettingLines(Set(ParseSettings(lines), key, value))))
  }

  /** No key and no value holds a line break. */
  predicate LineFree(d: Settings) {
    forall i :: 0 <= i < |d| ==> OneLine(d[i].0) && OneLine(d[i].1)
  }

  /** A piece of a line holds no line break the line lacks. */
  lemma SliceOneLine(s: string, i: nat, j: nat)
    requires i <= j <= |s| && OneLine(s)
    ensures OneLine(s[i..j])
  {
    assert forall c :: c in s[i..j] ==> c in s;
  }

  /** The entry of a line without line breaks has none either. */
  lemma EntryOneLine(line: string)
    requires OneLine(line)
    ensures Entry(line).Some? ==> OneLine(Entry(line).value.0) && OneLine(Entry(line).value.1)
  {
    var t := Trim(line);
    TrimOneLine(line);
    match IndexOfChar(t, '=')
    case None =>
    case Some(idx) =>
      PiecesOneLine(t, idx);
  }

  lemma TrimOneLine(s: string)
    requires OneLine(s)
    ensures OneLine(Trim(s))
  {
    TrimKeepsOut(s, '\n');
    TrimKeepsOut(s, '\r');
  }

  /** Both sides of a cut line, trimmed, are free of line breaks. */
  lemma PiecesOneLine(t: string, idx: nat)
    requires OneLine(t) && idx < |t|
    ensures OneLine(Trim(t[..idx])) && OneLine(Trim(t[idx + 1..]))
  {
    SliceOneLine(t, 0, idx);
    SliceOneLine(t, idx + 1, |t|);
    assert t[..idx] == t[0..idx] && t[idx + 1..] == t[idx + 1..|t|];
    TrimOneLine(t[..idx]);
    TrimOneLine(t[idx + 1..]);
  }

  lemma {:induction false} SetLineFree(d: Settings, key: string, value: string)
    requires LineFree(d) && OneLine(key) && OneLine(value)
    ensures LineFree(Set(d, key, value))
    decreases |d|
  {
    if |d| > 0 && !EqualsIgnoreCase(d[0].0, key) {
      SetLineFree(d[1..], key, value);
      var r := Set(d, key, value);
      assert forall i :: 1 <= i < |r| ==> r[i] == Set(d[1..], key, value)[i - 1];
    }
  }

  /** Lines without line breaks parse to entries without line breaks. */
  lemma {:induction false} ParsedLineFree(lines: seq<string>)
    requires forall i :: 0 <= i < |lines| ==> OneLine(lines[i])
    ensures LineFree(ParseSettings(lines))
    decreases |lines|
  {
    if |lines| > 0 {
      var init := lines[..|lines| - 1];
      ParsedLineFree(init);
      EntryOneLine(lines[|lines| - 1]);
      var e := Entry(lines[|lines| - 1]);
      if e.Some? {
        SetLineFree(ParseSettings(init), e.value.0, e.value.1);
      }
    }
  }

  /** The written lines of an entry list without line breaks read back as
      written. */
  lemma StoredSettingLines(d: Settings)
    requires LineFree(d)
    ensures Stored(SettingLines(d)) == SettingLines(d)
  {
    var lines := SettingLines(d);
    forall i | 0 <= i < |lines| ensures OneLine(lines[i]) {
      assert forall c :: c in d[i].0 + "=" + d[i].1 ==> c in d[i].0 || c == '=' || c in d[i].1;
    }
    StoredOneLines(lines);
  }

  /** The entries `WriteSetting` writes, when neither the file as read
      nor the key nor the value holds a line break: they read back as
      written. */
  lemma WrittenLineFree(file: TextFile, key: string, value: string)
    requires !file.Unreadable? && AsRead(file) && OneLine(key) && OneLine(value)
    ensures var base := if file.Readable? then ParseSettings(file.lines) else [];
      WriteSetting(file, key, value).lines == SettingLines(Set(base, key, value))
  {
    var base := if file.Readable? then ParseSettings(file.lines) else [];
    if file.Readable? {
      ParsedLineFree(file.lines);
    }
    SetLineFree(base, key, value);
    StoredSettingLines(Set(base, key, value));
  }

  /** A value read back: trimmed, as the reader trims it. */
  function Trimmed(o: Option<string>): Option<string> {
    match o
    case Some(v) => Some(Trim(v))
    case None => None
  }

  /** A written line, trimmed: the key, `=`, and the value without its
      trailing white space. */
  lemma TrimmedLine(k: string, v: string)
    requires IsKey(k)
    ensures Trim(k + "=" + v) == k + "=" + TrimEnd(v)
  {
    TrimStartStops(k, "=" + v);
    assert k + ("=" + v) == k + "=" + v;
    TrimEndAfter(k + "=", v);
  }

  /** A written line answers a read of `key` exactly when its key equals
      `key` ignoring case, and then with the trimmed value. */
  lemma LineAnswers(k: string, v: string, key: string)
    requires IsKey(k) && '=' !in key
    ensures StartsWithIgnoreCase(Trim(k + "=" + v), key + "=") <==> EqualsIgnoreCase(k, key)
    ensures EqualsIgnoreCase(k, key) ==> Trim(Trim(k + "=" + v)[|key| + 1..]) == Trim(v)
  {
    TrimmedLine(k, v);
    var t := k + "=" + TrimEnd(v);
    var p := key + "=";
    if |k| < |key| && |p| <= |t| {
      assert t[..|p|][|k|] == '=' && p[|k|] == key[|k|];
    } else if |k| > |key| && |p| <= |t| {
      assert t[..|p|][|key|] == k[|key|] && p[|key|] == '=';
    } else if |k| == |key| {
      assert t[..|p|] == k + "=";
      if EqualsIgnoreCase(k, key) {
        assert EqualsIgnoreCase(t[..|p|], p) by {
          forall i | 0 <= i < |p| ensures Lower(t[..|p|][i]) == Lower(p[i]) {
            if i < |k| { assert t[..|p|][i] == k[i] && p[i] == key[i]; }
          }
        }
        assert t[|key| + 1..] == TrimEnd(v);
        TrimAfterTrimEnd(v);
      } else {
        assert !EqualsIgnoreCase(t[..|p|], p) by {
          var i :| 0 <= i < |k| && Lower(k[i]) != Lower(key[i]);
          assert t[..|p|][i] == k[i] && p[i] == key[i];
        }
      }
    }
  }

  /** Reading the written lines of a dictionary gives each key's value,
      trimmed, and nothing for a key the dictionary lacks. */
  lemma {:induction false} ReadWritten(d: Settings, key: string)
    requires Keyed(d) && '=' !in key
    ensures ReadFrom(SettingLines(d), key) == Trimmed(Find(d, key))
    decreases |d|
  {
    if |d| > 0 {
      var lines := SettingLines(d);
      assert lines[0] == d[0].0 + "=" + d[0].1;
      assert lines[1..] == SettingLines(d[1..]);
      LineAnswers(d[0].0, d[0].1, key);
      ReadWritten(d[1..], key);
    }
  }

  /** After `WriteSetting(key, value)` the key reads back as the trimmed
      value. */
  lemma WriteThenRead(file: TextFile, key: string, value: string)
    requires !file.Unreadable? && AsRead(file) && IsKey(key) && OneLine(key) && OneLine(value)
    ensures ReadSetting(WriteSetting(file, key, value), key) == Some(Trim(value))
  {
    WrittenLineFree(file, key, value);
    var base := if file.Readable? then ParseSettings(file.lines) else [];
    SetKeyed(base, key, value);
    ReadWritten(Set(base, key, value), key);
  }

  /** After `WriteSetting(key, value)` every other key reads back as the
      last value the old file gave it, and as nothing when the file was
      missing. */
  lemma WriteKeepsOthers(file: TextFile, key: string, value: string, other: string)
    requires !file.Unreadable? && AsRead(file) && IsKey(key) && OneLine(key) && OneLine(value)
    requires '=' !in other && !EqualsIgnoreCase(key, other)
    ensures ReadSetting(WriteSetting(file, key, value), other)
      == (if file.Readable? then LastValue(file.lines, other) else None)
  {
    WrittenLineFree(file, key, value);
    var base := if file.Readable? then ParseSettings(file.lines) else [];
    SetKeyed(base, key, value);
    ReadWritten(Set(base, key, value), other);
    SetOthers(base, key, value, other);
    if file.Readable? {
      ParseSettingsLast(file.lines, other);
    }
  }

  /** The dictionary with every value trimmed, as parsing leaves it. */
  function TrimValues(d: Settings): (r: Settings)
    ensures |r| == |d|
  {
    seq(|d|, i requires 0 <= i < |d| => (d[i].0, Trim(d[i].1)))
  }

  /** Setting a key keeps the keys pairwise different ignoring case. */
  lemma SetDistinct(d: Settings, key: string, value: string)
    requires DistinctKeys(d)
    ensures DistinctKeys(Set(d, key, value))
  {
  }

  /** A key absent from the dictionary is added at its end. */
  lemma {:induction false} SetAppends(d: Settings, key: string, value: string)
    requires Find(d, key).None?
    ensures Set(d, key, value) == d + [(key, value)]
    decreases |d|
  {
    if |d| > 0 {
      assert !EqualsIgnoreCase(d[0].0, key);
      SetAppends(d[1..], key, value);
      assert [d[0]] + (d[1..] + [(key, value)]) == d + [(key, value)];
    }
  }

  /** A written line holds the entry it was written from, value trimmed. */
  lemma EntryOfLine(k: string, v: string)
    requires IsKey(k) && k[0] != '#'
    ensures Entry(k + "=" + v) == Some((k, Trim(v)))
  {
    TrimmedLine(k, v);
    var t := k + "=" + TrimEnd(v);
    IndexOfCharAfter(k, '=', TrimEnd(v));
    assert t[..|k|] == k;
    assert t[|k| + 1..] == TrimEnd(v);
    TrimOfTrimmed(k);
    TrimAfterTrimEnd(v);
  }

  /** No key starts with `#`. */
  predicate Uncommented(d: Settings) {
    forall i :: 0 <= i < |d| ==> |d[i].0| > 0 && d[i].0[0] != '#'
  }

  /** Parsing one more line: its entry, if any, is set last. */
  lemma ParseSnoc(lines: seq<string>, line: string)
    ensures ParseSettings(lines + [line])
      == match Entry(line) case None => ParseSettings(lines) case Some(e) => Set(ParseSettings(lines), e.0, e.1)
  {
    assert (lines + [line])[..|lines|] == lines;
  }

  lemma SettingLinesSnoc(d: Settings)
    requires |d| > 0
    ensures SettingLines(d) == SettingLines(d[..|d| - 1]) + [d[|d| - 1].0 + "=" + d[|d| - 1].1]
  {
  }

  lemma TrimValuesSnoc(d: Settings)
    requires |d| > 0
    ensures TrimValues(d) == TrimValues(d[..|d| - 1]) + [(d[|d| - 1].0, Trim(d[|d| - 1].1))]
  {
  }

  lemma LastKeyNew(d: Settings)
    requires |d| > 0 && DistinctKeys(d)
    ensures Find(TrimValues(d[..|d| - 1]), d[|d| - 1].0).None?
  {
    var init := TrimValues(d[..|d| - 1]);
    forall i | 0 <= i < |init| ensures !EqualsIgnoreCase(init[i].0, d[|d| - 1].0) {
      assert init[i].0 == d[i].0;
    }
  }

  lemma CleanPrefix(d: Settings)
    requires |d| > 0 && Keyed(d) && DistinctKeys(d) && Uncommented(d)
    ensures var init := d[..|d| - 1]; Keyed(init) && DistinctKeys(init) && Uncommented(init)
  {
  }

  /** Parsing the written lines of a dictionary gives the dictionary back,
      values trimmed: nothing is lost and nothing is merged. */
  lemma {:induction false} ParseWritten(d: Settings)
    requires Keyed(d) && DistinctKeys(d) && Uncommented(d)
    ensures ParseSettings(SettingLines(d)) == TrimValues(d)
    decreases |d|
  {
    if |d| > 0 {
      var n := |d| - 1;
      CleanPrefix(d);
      ParseWritten(d[..n]);
      SettingLinesSnoc(d);
      ParseSnoc(SettingLines(d[..n]), d[n].0 + "=" + d[n].1);
      EntryOfLine(d[n].0, d[n].1);
      LastKeyNew(d);
      SetAppends(TrimValues(d[..n]), d[n].0, Trim(d[n].1));
      TrimValuesSnoc(d);
    }
  }

  lemma UncommentedKeys(d: Settings, r: Settings, key: string)
    requires Uncommented(d) && |key| > 0 && key[0] != '#'
    requires |r| == |d| || |r| == |d| + 1
    requires forall j :: 0 <= j < |d| ==> r[j].0 == d[j].0
    requires |r| == |d| + 1 ==> r[|d|].0 == key
    ensures Uncommented(r)
  {
  }

  lemma SetUncommented(d: Settings, key: string, value: string)
    requires Uncommented(d) && |key| > 0 && key[0] != '#'
    ensures Uncommented(Set(d, key, value))
  {
    UncommentedKeys(d, Set(d, key, value), key);
  }

  /** The parsed dictionary has pairwise different keys, none starting
      with `#`. */
  lemma {:induction false} ParseSettingsClean(lines: seq<string>)
    ensures DistinctKeys(ParseSettings(lines)) && Uncommented(ParseSettings(lines))
    decreases |lines|
  {
    if |lines| > 0 {
      var init := lines[..|lines| - 1];
      var d := ParseSettings(init);
      ParseSettingsClean(init);
      var e := Entry(lines[|lines| - 1]);
      if e.Some? {
        SetDistinct(d, e.value.0, e.value.1);
        SetUncommented(d, e.value.0, e.value.1);
      }
    }
  }

  /** What `WriteSetting` writes parses back to the dictionary it built:
      every written line is a `key=value` entry. */
  lemma WrittenParses(file: TextFile, key: string, value: string)
    requires !file.Unreadable? && AsRead(file) && IsKey(key) && key[0] != '#' && OneLine(key) && OneLine(value)
    ensures var base := if file.Readable? then ParseSettings(file.lines) else [];
      ParseSettings(WriteSetting(file, key, value).lines) == TrimValues(Set(base, key, value))
  {
    WrittenLineFree(file, key, value);
    var base := if file.Readable? then ParseSettings(file.lines) else [];
    if file.Readable? {
      ParseSettingsClean(file.lines);
    }
    ParseWrittenSet(base, key, value);
  }

  lemma ParseWrittenSet(base: Settings, key: string, value: string)
    requires Keyed(base) && DistinctKeys(base) && Uncommented(base) && IsKey(key) && key[0] != '#'
    ensures ParseSettings(SettingLines(Set(base, key, value))) == TrimValues(Set(base, key, value))
  {
    SetKeyed(base, key, value);
    SetDistinct(base, key, value);
    ParseWritten(Set(base, key, value));
  }
}

=== FILE: log_parsing.dfy ===
/** The tolerant scrapers that read a finished replicate's files: the metric
    from `run.log` and the `--grid` / `--seed` values from `args.txt` or
    `cmd.txt`. File contents arrive as line sequences; the platform's
    floating-point parser is a parameter. */
module LogParsing {
  import opened Wrappers
  import opened Text
  import opened Numbers
  import opened NumberFormat

  /** `double.TryParse(s, NumberStyles.Float, InvariantCulture)`: `None`
      when the text is not a number. */
  type DoubleParser = string -> Option<Double>

  /** What `File.ReadLines` on `run.log` delivers: no file, or the lines
      read before the end of the file or before a read failure. */
  datatype LogFile = NoFile | LogLines(lines: seq<string>, failsAfter: bool)

  /** The metric (`double?`) and the `note` out-parameter. */
  datatype MetricResult = MetricResult(value: Option<Double>, note: string)

  /** The value of an `elapsed_s=` marker anywhere in the trimmed line. */
  function ElapsedValue(parse: DoubleParser, s: string): (r: Option<Double>)
    ensures r.Some? ==> IndexOfIgnoreCase(s, "elapsed_s=").Some?
  {
    match IndexOfIgnoreCase(s, "elapsed_s=")
    case None => None
    case Some(i) => parse(Trim(s[i + 10..]))
  }

  /** The text after the first space of a trimmed line, trimmed ("" when
      there is no space). */
  function AfterFirstSpace(s: string): string {
    match IndexOfChar(s, ' ')
    case None => ""
    case Some(k) => Trim(s[k + 1..])
  }

  /** The `name=value` form of a METRIC payload, when its value parses. */
  function NamedMetric(parse: DoubleParser, after: string): Option<MetricResult> {
    match IndexOfChar(after, '=')
    case None => None
    case Some(eq) =>
      if eq > 0 then
        var name := Trim(after[..eq]);
        match parse(Trim(after[eq + 1..]))
        case None => None
        case Some(x) => Some(MetricResult(Some(x), if IsBlank(name) then "METRIC" else "METRIC " + name))
      else None
  }

  /** The result a line returns immediately, if it is a METRIC line whose
      payload parses: first as `name=value`, then as a bare value. */
  function MetricLine(parse: DoubleParser, s: string): (r: Option<MetricResult>)
    ensures r.Some? ==> StartsWithIgnoreCase(s, "METRIC") && r.value.value.Some?
  {
    if !StartsWithIgnoreCase(s, "METRIC") then None
    else
      var after := AfterFirstSpace(s);
      match NamedMetric(parse, after)
      case Some(hit) => Some(hit)
      case None =>
        match parse(after)
        case Some(y) => Some(MetricResult(Some(y), "METRIC"))
        case None => None
  }

  /** What one line of the log means to the scan: a METRIC result the
      method returns at once, an `elapsed_s` value it records, or nothing. */
  datatype LineKind = Hit(result: MetricResult) | Elapsed(seconds: Double) | Plain

  /** How `TryExtractMetric` judges one raw line: it trims the line, and a
      METRIC hit returns before the recorded `elapsed_s` value matters. */
  function Judge(parse: DoubleParser, line: string): (r: LineKind)
    ensures r.Hit? <==> MetricLine(parse, Trim(line)).Some?
    ensures r.Elapsed? ==> ElapsedValue(parse, Trim(line)) == Some(r.seconds)
  {
    var s := Trim(line);
    match MetricLine(parse, s)
    case Some(h) => Hit(h)
    case None =>
      match ElapsedValue(parse, s)
      case Some(x) => Elapsed(x)
      case None => Plain
  }

  /** The judgement of every line, in order. */
  function Judged(parse: DoubleParser, lines: seq<string>): (r: seq<LineKind>)
    ensures |r| == |lines|
    ensures forall j :: 0 <= j < |lines| ==> r[j] == Judge(parse, lines[j])
  {
    seq(|lines|, j requires 0 <= j < |lines| => Judge(parse, lines[j]))
  }

  /** What the method returns once no METRIC line was found: a read
      failure discards any recorded value; otherwise the last recorded
      `elapsed_s` value, or nothing. */
  function Fallback(failsAfter: bool, metric: Option<Double>): (r: MetricResult)
    ensures r.value.Some? <==> !failsAfter && metric.Some?
    ensures r.value.Some? ==> r.value == metric
    ensures r.note == (if failsAfter then "read error" else if metric.Some? then "elapsed_s" else "no metric")
  {
    if failsAfter then MetricResult(None, "read error")
    else if metric.Some? then MetricResult(metric, "elapsed_s")
    else MetricResult(None, "no metric")
  }

  /** The line loop of `TryExtractMetric` over the judged lines, with the
      last recorded `elapsed_s` value carried in `metric`. */
  function Scan(kinds: seq<LineKind>, failsAfter: bool, metric: Option<Double>): MetricResult {
    if |kinds| == 0 then Fallback(failsAfter, metric)
    else
      match kinds[0]
      case Hit(h) => h
      case Elapsed(x) => Scan(kinds[1..], failsAfter, Some(x))
      case Plain => Scan(kinds[1..], failsAfter, metric)
  }

  /** `TryExtractMetric(logPath, out note)`. */
  function TryExtractMetric(parse: DoubleParser, log: LogFile): (r: MetricResult)
    ensures log.NoFile? ==> r == MetricResult(None, "no run.log")
  {
    match log
    case NoFile => MetricResult(None, "no run.log")
    case LogLines(lines, failsAfter) => Scan(Judged(parse, lines), failsAfter, None)
  }

  /** No line before `k` is a METRIC hit. */
  predicate NoHitBefore(kinds: seq<LineKind>, k: nat)
    requires k <= |kinds|
  {
    forall j :: 0 <= j < k ==> !kinds[j].Hit?
  }

  /** Independent reference for the fallback: the `elapsed_s` value of the
      last line that records one. */
  function LastElapsed(kinds: seq<LineKind>): Option<Double> {
    if |kinds| == 0 then None
    else if kinds[|kinds| - 1].Elapsed? then Some(kinds[|kinds| - 1].seconds)
    else LastElapsed(kinds[..|kinds| - 1])
  }

  /** The scan returns the first hit, whatever `elapsed_s` lines come before
      or after it, and even when reading would fail later. */
  lemma {:induction false} ScanFirstHit(kinds: seq<LineKind>, failsAfter: bool, metric: Option<Double>, k: nat)
    requires k < |kinds| && NoHitBefore(kinds, k) && kinds[k].Hit?
    ensures Scan(kinds, failsAfter, metric) == kinds[k].result
    decreases k
  {
    if k > 0 {
      assert !kinds[0].Hit?;
      var metric' := if kinds[0].Elapsed? then Some(kinds[0].seconds) else metric;
      assert NoHitBefore(kinds[1..], k - 1) by {
        forall j | 0 <= j < k - 1
          ensures !kinds[1..][j].Hit?
        {
          assert kinds[1..][j] == kinds[j + 1];
        }
      }
      ScanFirstHit(kinds[1..], failsAfter, metric', k - 1);
      assert kinds[1..][k - 1] == kinds[k];
    }
  }

  /** The latest `elapsed_s` value of `kinds`, falling back to `metric`. */
  function Latest(kinds: seq<LineKind>, metric: Option<Double>): Option<Double> {
    if LastElapsed(kinds).Some? then LastElapsed(kinds) else metric
  }

  lemma {:induction false} LatestCons(kinds: seq<LineKind>, metric: Option<Double>)
    requires |kinds| > 0
    ensures var metric' := if kinds[0].Elapsed? then Some(kinds[0].seconds) else metric;
      Latest(kinds[1..], metric') == Latest(kinds, metric)
    decreases |kinds|
  {
    if |kinds| > 1 {
      var init := kinds[..|kinds| - 1];
      assert kinds[1..][..|kinds[1..]| - 1] == init[1..];
      assert kinds[1..][|kinds[1..]| - 1] == kinds[|kinds| - 1];
      assert init[0] == kinds[0];
      LatestCons(init, metric);
    } else {
      assert kinds[1..] == [];
    }
  }

  /** With no hit, the scan ends with the latest recorded `elapsed_s` value
      (note "elapsed_s"), or "no metric", or "read error" when reading
      failed, which discards any value seen. */
  lemma {:induction false} ScanNoHit(kinds: seq<LineKind>, failsAfter: bool, metric: Option<Double>)
    requires NoHitBefore(kinds, |kinds|)
    ensures Scan(kinds, failsAfter, metric) == Fallback(failsAfter, Latest(kinds, metric))
    decreases |kinds|
  {
    if |kinds| > 0 {
      assert !kinds[0].Hit?;
      var metric' := if kinds[0].Elapsed? then Some(kinds[0].seconds) else metric;
      assert NoHitBefore(kinds[1..], |kinds| - 1) by {
        forall j | 0 <= j < |kinds| - 1
          ensures !kinds[1..][j].Hit?
        {
          assert kinds[1..][j] == kinds[j + 1];
        }
      }
      ScanNoHit(kinds[1..], failsAfter, metric');
      LatestCons(kinds, metric);
    }
  }

  /** An existing log is scanned line by line from no recorded value. */
  lemma ReadsAllLines(parse: DoubleParser, lines: seq<string>, failsAfter: bool)
    ensures TryExtractMetric(parse, LogLines(lines, failsAfter)) == Scan(Judged(parse, lines), failsAfter, None)
  {
    var log := LogLines(lines, failsAfter);
    assert log.lines == lines && log.failsAfter == failsAfter;
  }

  /** The first METRIC line decides the metric, whatever comes before or
      after it. */
  lemma MetricWins(parse: DoubleParser, lines: seq<string>, failsAfter: bool, k: nat)
    requires k < |lines|
    requires forall j :: 0 <= j < k ==> MetricLine(parse, Trim(lines[j])).None?
    requires MetricLine(parse, Trim(lines[k])).Some?
    ensures TryExtractMetric(parse, LogLines(lines, failsAfter)) == MetricLine(parse, Trim(lines[k])).value
  {
    var kinds := Judged(parse, lines);
    ReadsAllLines(parse, lines, failsAfter);
    ScanFirstHit(kinds, failsAfter, None, k);
  }

  /** Without a METRIC line, the last parseable `elapsed_s` value wins; with
      none, "no metric"; a failed read gives "read error". */
  lemma ElapsedFallback(parse: DoubleParser, lines: seq<string>, failsAfter: bool)
    requires forall j :: 0 <= j < |lines| ==> MetricLine(parse, Trim(lines[j])).None?
    ensures TryExtractMetric(parse, LogLines(lines, failsAfter)) == Fallback(failsAfter, LastElapsed(Judged(parse, lines)))
  {
    var kinds := Judged(parse, lines);
    ReadsAllLines(parse, lines, failsAfter);
    ScanNoHit(kinds, failsAfter, None);
    assert Latest(kinds, None) == LastElapsed(kinds);
  }

  /** The `name=value` branch never sees a blank name: the payload is
      trimmed and `=` is not its first character, so the "METRIC" note of
      that branch is unreachable and the note is always "METRIC " + name. */
  lemma NamedMetricNote(parse: DoubleParser, after: string)
    requires after == Trim(after)
    requires NamedMetric(parse, after).Some?
    ensures var eq := IndexOfChar(after, '=').value;
      NamedMetric(parse, after).value.note == "METRIC " + Trim(after[..eq])
      && !IsBlank(Trim(after[..eq]))
  {
    var eq := IndexOfChar(after, '=').value;
    assert !IsWhiteSpace(after[..eq][0]);
    assert !IsBlank(after[..eq]);
  }

  /** The text after the first space is already trimmed. */
  lemma AfterFirstSpaceTrimmed(s: string)
    ensures Trim(AfterFirstSpace(s)) == AfterFirstSpace(s)
  {
    match IndexOfChar(s, ' ')
    case None =>
    case Some(k) => TrimIdempotent(s[k + 1..]);
  }

  /** The notes a METRIC hit can carry: "METRIC", or "METRIC " followed by
      a non-blank name. */
  predicate IsMetricNote(note: string) {
    note == "METRIC" || (|note| > 7 && note[..7] == "METRIC " && !IsBlank(note[7..]))
  }

  lemma NamedNoteShape(name: string)
    requires !IsBlank(name)
    ensures IsMetricNote("METRIC " + name)
  {
    var note := "METRIC " + name;
    assert note[..7] == "METRIC ";
    assert note[7..] == name;
  }

  /** A METRIC hit always carries a value, and its note is "METRIC" or
      "METRIC <name>" with a non-blank name. */
  lemma MetricLineNote(parse: DoubleParser, s: string)
    requires MetricLine(parse, s).Some?
    ensures MetricLine(parse, s).value.value.Some?
    ensures IsMetricNote(MetricLine(parse, s).value.note)
  {
    var after := AfterFirstSpace(s);
    AfterFirstSpaceTrimmed(s);
    if NamedMetric(parse, after).Some? {
      NamedMetricNote(parse, after);
      NamedNoteShape(Trim(after[..IndexOfChar(after, '=').value]));
    }
  }

  /** The `name=value` form read from its parts. */
  lemma NamedMetricOf(parse: DoubleParser, after: string, name: string, value: string, x: Double)
    requires !IsBlank(name) && '=' !in name && after == name + "=" + value
    requires Trim(name) == name && parse(Trim(value)) == Some(x)
    ensures NamedMetric(parse, after) == Some(MetricResult(Some(x), "METRIC " + name))
  {
    IndexOfCharAfter(name, '=', value);
    assert name + ['='] + value == after;
    assert after[..|name|] == name && after[|name| + 1..] == value;
  }

  /** A line whose first word merely starts with METRIC, in any case (such
      as "METRICS" or "metric_x"), followed by `name=value`, is a hit that
      reports `name`: the METRIC test is a bare prefix test. */
  lemma MetricNamedLine(parse: DoubleParser, word: string, name: string, value: string, x: Double)
    requires StartsWithIgnoreCase(word, "METRIC") && ' ' !in word
    requires !IsBlank(name) && Trim(name) == name && '=' !in name
    requires |value| > 0 && !IsWhiteSpace(value[|value| - 1]) && parse(Trim(value)) == Some(x)
    ensures MetricLine(parse, word + " " + name + "=" + value) == Some(MetricResult(Some(x), "METRIC " + name))
  {
    var after := name + "=" + value;
    var line := word + [' '] + after;
    LineShape(word, name, value);
    PayloadTrimmed(name, value);
    AfterWord(word, after);
    NamedMetricOf(parse, after, name, value, x);
    MetricLineNamed(parse, line, after);
  }

  lemma LineShape(word: string, name: string, value: string)
    ensures word + " " + name + "=" + value == word + [' '] + (name + "=" + value)
  {
  }

  lemma PayloadTrimmed(name: string, value: string)
    requires |name| > 0 && Trim(name) == name && |value| > 0 && !IsWhiteSpace(value[|value| - 1])
    ensures Trim(name + "=" + value) == name + "=" + value
  {
    var after := name + "=" + value;
    assert after[0] == name[0] && after[|after| - 1] == value[|value| - 1];
    TrimOfTrimmed(after);
  }

  /** After a first word that starts with METRIC comes the trimmed rest. */
  lemma AfterWord(word: string, after: string)
    requires StartsWithIgnoreCase(word, "METRIC") && ' ' !in word && Trim(after) == after
    ensures var line := word + [' '] + after;
      StartsWithIgnoreCase(line, "METRIC") && AfterFirstSpace(line) == after
  {
    var line := word + [' '] + after;
    assert line[..6] == word[..6];
    IndexOfCharAfter(word, ' ', after);
    assert line[|word| + 1..] == after;
  }

  lemma MetricLineNamed(parse: DoubleParser, line: string, after: string)
    requires StartsWithIgnoreCase(line, "METRIC") && AfterFirstSpace(line) == after
    requires NamedMetric(parse, after).Some?
    ensures MetricLine(parse, line) == NamedMetric(parse, after)
  {
  }

  // ------------------------------------------------------------------
  // --grid / --seed extraction
  // ------------------------------------------------------------------

  /** The separators of the token split. */
  predicate IsTokenSeparator(c: char) {
    c == ' ' || c == '\t' || c == '\r' || c == '\n' || c == '='
  }

  /** The leading run of non-separators. */
  function TakeWord(s: string): (r: string)
    ensures |r| <= |s| && r == s[..|r|]
    ensures forall i :: 0 <= i < |r| ==> !IsTokenSeparator(r[i])
    ensures |r| < |s| ==> IsTokenSeparator(s[|r|])
  {
    if |s| == 0 || IsTokenSeparator(s[0]) then "" else [s[0]] + TakeWord(s[1..])
  }

  /** Drops leading separators. */
  function SkipSeparators(s: string): (r: string)
    ensures |r| <= |s| && r == s[|s| - |r|..]
    ensures forall i :: 0 <= i < |s| - |r| ==> IsTokenSeparator(s[i])
    ensures |r| > 0 ==> !IsTokenSeparator(r[0])
  {
    if |s| > 0 && IsTokenSeparator(s[0]) then SkipSeparators(s[1..]) else s
  }

  /** A non-empty run of non-separators. */
  predicate IsToken(w: string) {
    |w| > 0 && forall i :: 0 <= i < |w| ==> !IsTokenSeparator(w[i])
  }

  /** `s.Split(separators, StringSplitOptions.RemoveEmptyEntries)`. */
  function Tokens(s: string): (r: seq<string>)
    ensures forall i :: 0 <= i < |r| ==> IsToken(r[i])
    decreases |s|
  {
    var t := SkipSeparators(s);
    if |t| == 0 then []
    else
      var w := TakeWord(t);
      WordIsToken(t);
      var rest := Tokens(t[|w|..]);
      ConsTokens(w, rest);
      [w] + rest
  }

  lemma WordIsToken(t: string)
    requires |t| > 0 && !IsTokenSeparator(t[0])
    ensures IsToken(TakeWord(t)) && |TakeWord(t)| <= |t|
  {
  }

  lemma ConsTokens(w: string, rest: seq<string>)
    requires IsToken(w) && forall i :: 0 <= i < |rest| ==> IsToken(rest[i])
    ensures forall i :: 0 <= i < |rest| + 1 ==> IsToken(([w] + rest)[i])
  {
    forall i | 0 <= i < |rest| + 1 ensures IsToken(([w] + rest)[i]) {
      if i > 0 {
        assert ([w] + rest)[i] == rest[i - 1];
      }
    }
  }

  /** The value one line gives for `flag`: the first token after the first
      case-insensitive occurrence of `flag`, when it parses as an `int`. */
  function FlagValue(line: string, flag: string): (r: Option<int>)
    ensures r.Some? ==> IsInt32(r.value) && IndexOfIgnoreCase(line, flag).Some?
  {
    match IndexOfIgnoreCase(line, flag)
    case None => None
    case Some(idx) =>
      var parts := Tokens(Trim(line[idx + |flag|..]));
      if |parts| > 0 then ParseInt32(parts[0]) else None
  }

  /** The per-line test of a flag search. */
  type LineValue = string -> Option<int>

  /** The value of the first line that yields one. */
  function FirstValue(value: LineValue, lines: seq<string>): Option<int> {
    if |lines| == 0 then None
    else if value(lines[0]).Some? then value(lines[0])
    else FirstValue(value, lines[1..])
  }

  /** The result is the value of the first line that yields one. */
  lemma {:induction false} FirstValueWins(value: LineValue, lines: seq<string>, k: nat)
    requires k < |lines| && value(lines[k]).Some?
    requires forall j :: 0 <= j < k ==> value(lines[j]).None?
    ensures FirstValue(value, lines) == value(lines[k])
    decreases k
  {
    if k > 0 {
      assert value(lines[0]).None?;
      forall j | 0 <= j < k - 1
        ensures value(lines[1..][j]).None?
      {
        assert lines[1..][j] == lines[j + 1];
      }
      FirstValueWins(value, lines[1..], k - 1);
      assert lines[1..][k - 1] == lines[k];
    }
  }

  /** No line yields a value exactly when the search finds none. */
  lemma {:induction false} FirstValueNone(value: LineValue, lines: seq<string>)
    ensures FirstValue(value, lines).None? <==> forall j :: 0 <= j < |lines| ==> value(lines[j]).None?
    decreases |lines|
  {
    if |lines| > 0 {
      FirstValueNone(value, lines[1..]);
      if value(lines[0]).None? {
        forall j | 0 <= j < |lines| ensures value(lines[j]).None? <==> (j == 0 || value(lines[1..][j - 1]).None?) {
          if j > 0 { assert lines[1..][j - 1] == lines[j]; }
        }
      }
    }
  }

  /** The per-line test for `flag`. */
  function FlagOf(flag: string): LineValue {
    line => FlagValue(line, flag)
  }

  /** The shared body of `TryExtractGrid` and `TryExtractSeed`: a missing
      or unreadable file gives no value. */
  function TryExtractFlag(file: TextFile, flag: string): (r: Option<int>)
    ensures !file.Readable? ==> r.None?
  {
    match file
    case Readable(lines) => FirstValue(FlagOf(flag), lines)
    case _ => None
  }

  /** `TryExtractGrid(path)`. */
  function TryExtractGrid(file: TextFile): Option<int> {
    TryExtractFlag(file, "--grid")
  }

  /** `TryExtractSeed(path)`. */
  function TryExtractSeed(file: TextFile): Option<int> {
    TryExtractFlag(file, "--seed")
  }

  /** A readable file gives the value of its first line that yields one,
      and nothing when no line does. */
  lemma FlagFromFirstLine(lines: seq<string>, flag: string, k: nat)
    requires k < |lines| && FlagValue(lines[k], flag).Some?
    requires forall j :: 0 <= j < k ==> FlagValue(lines[j], flag).None?
    ensures TryExtractFlag(Readable(lines), flag) == FlagValue(lines[k], flag)
  {
    FirstValueWins(FlagOf(flag), lines, k);
  }

  lemma FlagAbsent(lines: seq<string>, flag: string)
    ensures TryExtractFlag(Readable(lines), flag).None?
      <==> forall j :: 0 <= j < |lines| ==> FlagValue(lines[j], flag).None?
  {
    FirstValueNone(FlagOf(flag), lines);
  }

  lemma {:induction false} TakeWordOf(w: string, rest: string)
    requires forall i :: 0 <= i < |w| ==> !IsTokenSeparator(w[i])
    requires |rest| > 0 ==> IsTokenSeparator(rest[0])
    ensures TakeWord(w + rest) == w
    decreases |w|
  {
    if |w| == 0 {
      assert w + rest == rest;
    } else {
      assert (w + rest)[0] == w[0];
      assert (w + rest)[1..] == w[1..] + rest;
      TakeWordOf(w[1..], rest);
      assert [w[0]] + w[1..] == w;
    }
  }

  /** The rendering of an int is one token with no white space at its ends. */
  lemma IntToken(n: int)
    ensures var f := FInt(n); IsToken(f) && !IsWhiteSpace(f[0]) && !IsWhiteSpace(f[|f| - 1])
  {
    var f := FInt(n);
    forall i | 0 <= i < |f|
      ensures !IsTokenSeparator(f[i])
    {
      assert f[i] == '-' || IsDigit(f[i]);
    }
  }

  /** The first token is the word the separators are skipped to. */
  lemma FirstTokenIs(s: string, w: string)
    requires IsToken(w) && SkipSeparators(s) == w
    ensures |Tokens(s)| > 0 && Tokens(s)[0] == w
  {
    TakeWordOf(w, "");
    assert w + "" == w;
  }

  /** A token after one separator, a space or `=`, is the first token. */
  lemma SeparatedToken(sep: char, f: string)
    requires sep == ' ' || sep == '='
    requires IsToken(f) && !IsWhiteSpace(f[0]) && !IsWhiteSpace(f[|f| - 1])
    ensures var parts := Tokens(Trim([sep] + f)); |parts| > 0 && parts[0] == f
  {
    var tail := [sep] + f;
    if sep == ' ' {
      assert Trim(tail) == f by {
        TrimStartSkipsBlank([sep], f);
        TrimOfTrimmed(f);
      }
      FirstTokenIs(f, f);
    } else {
      assert Trim(tail) == tail by {
        assert tail[|tail| - 1] == f[|f| - 1];
        TrimOfTrimmed(tail);
      }
      assert SkipSeparators(tail) == f by {
        assert tail[1..] == f;
      }
      FirstTokenIs(tail, f);
    }
  }

  /** A line holding `flag`, one separator and an int gives that int. */
  lemma FlagValueOf(flag: string, sep: char, n: int)
    requires IsInt32(n) && (sep == ' ' || sep == '=')
    ensures FlagValue(flag + [sep] + FInt(n), flag) == Some(n)
  {
    var line := flag + [sep] + FInt(n);
    assert IndexOfIgnoreCase(line, flag) == Some(0) by {
      assert line[0..|flag|] == flag;
      assert MatchesAt(line, flag, 0);
    }
    assert line[|flag|..] == [sep] + FInt(n);
    IntToken(n);
    SeparatedToken(sep, FInt(n));
    ParseFInt(n);
  }

  /** "--seed 12" and "--seed=12" both give 12. */
  lemma SeedFlagForms(n: int, sep: char)
    requires IsInt32(n) && (sep == ' ' || sep == '=')
    ensures TryExtractSeed(Readable(["--seed" + [sep] + FInt(n)])) == Some(n)
  {
    var line := "--seed" + [sep] + FInt(n);
    FlagValueOf("--seed", sep, n);
    FirstValueWins(FlagOf("--seed"), [line], 0);
  }
}

=== FILE: number_format.dfy ===
/** The application's single place for rendering numbers and text fields:
    round-trip and exponential renderings of doubles, invariant integers,
    timestamps and CSV fields. The .NET `"R"` and `"E<n>"` renderings of a
    double are left uninterpreted: they are the two functions of a
    `Renderer`, and only the fact that each is a function is used. */
module NumberFormat {
  import opened Wrappers
  import opened Numbers

  /** An IEEE-754 double: a finite value (taken as an exact real) or one of
      the three non-finite values. */
  datatype Double = Finite(value: real) | NaN | PositiveInfinity | NegativeInfinity

  /** The platform's double renderings: `roundTrip` is `ToString("R")`;
      `exponential(v, spec)` is `v.ToString(spec)` for a spec `"E<digits>"`. */
  datatype Renderer = Renderer(roundTrip: Double -> string, exponential: (Double, string) -> string)

  /** `FFull(double?)`: the round-trip rendering, or "" for null. */
  function FFullOrEmpty(render: Renderer, v: Option<Double>): (r: string)
    ensures v.None? ==> r == ""
    ensures forall x :: v == Some(x) ==> r == render.roundTrip(x)
  {
    match v
    case None => ""
    case Some(x) => render.roundTrip(x)
  }

  /** The significant-digit count `FExp` actually uses. */
  function ClampDigits(d: int): (r: int)
    ensures 1 <= r <= 17
    ensures 1 <= d <= 17 ==> r == d
    ensures d < 1 ==> r == 1
    ensures d > 17 ==> r == 17
  {
    if d < 1 then 1 else if d > 17 then 17 else d
  }

  /** The format string `FExp` hands to the platform: `"E"` and the clamped count. */
  function ExpSpec(d: int): string {
    "E" + FInt(ClampDigits(d))
  }

  /** The format string is `"E"` followed by the invariant digits of a count
      in [1, 17], and that count is the clamped one. */
  lemma ExpSpecShape(d: int)
    ensures 2 <= |ExpSpec(d)| <= 3 && ExpSpec(d)[0] == 'E'
    ensures ParseInt32(ExpSpec(d)[1..]) == Some(ClampDigits(d))
  {
    var c := ClampDigits(d);
    assert ExpSpec(d)[1..] == FInt(c);
    ParseFInt(c);
    assert c < 10 ==> |Digits(c)| == 1;
    assert c >= 10 ==> Digits(c) == Digits(c / 10) + [DigitChar(c % 10)];
  }

  /** `FExp(value, significantDigits)`. */
  function FExp(render: Renderer, v: Double, significantDigits: int): string
  {
    render.exponential(v, ExpSpec(significantDigits))
  }

  /** Out-of-range digit counts render exactly like the nearest bound, and
      the rendering depends on the count only through its clamped value. */
  lemma FExpClamps(render: Renderer, v: Double, d: int)
    ensures FExp(render, v, d) == FExp(render, v, ClampDigits(d))
    ensures d < 1 ==> FExp(render, v, d) == FExp(render, v, 1)
    ensures d > 17 ==> FExp(render, v, d) == FExp(render, v, 17)
  {
  }

  /** A calendar date and clock time as `DateTime` carries them. */
  datatype DateTime = DateTime(year: int, month: int, day: int, hour: int, minute: int, second: int) {
    predicate Valid() {
      1 <= year <= 9999 && 1 <= month <= 12 && 1 <= day <= 31
      && 0 <= hour < 24 && 0 <= minute < 60 && 0 <= second < 60
    }
  }

  /** `FTimestamp`: the invariant `"yyyy-MM-dd HH:mm:ss"` rendering. */
  function FTimestamp(t: DateTime): (r: string)
    requires t.Valid()
    ensures |r| == 19
  {
    PaddedLength(t.year, 4);
    PaddedLength(t.month, 2);
    PaddedLength(t.day, 2);
    PaddedLength(t.hour, 2);
    PaddedLength(t.minute, 2);
    PaddedLength(t.second, 2);
    FPadded(t.year, 4) + "-" + FPadded(t.month, 2) + "-" + FPadded(t.day, 2) + " "
    + FPadded(t.hour, 2) + ":" + FPadded(t.minute, 2) + ":" + FPadded(t.second, 2)
  }

  function Pow10(k: nat): (p: nat)
    ensures p >= 1
  {
    if k == 0 then 1 else 10 * Pow10(k - 1)
  }

  lemma {:induction false} DigitsLength(n: nat, k: nat)
    requires k >= 1 && n < Pow10(k)
    ensures |Digits(n)| <= k
  {
    if n >= 10 {
      DigitsLength(n / 10, k - 1);
    }
  }

  lemma PaddedLength(n: int, width: nat)
    requires 0 <= n && width >= 1 && n < Pow10(width)
    ensures |FPadded(n, width)| == width
  {
    DigitsLength(n, width);
  }

  /** Where each field sits in a `yyyy-MM-dd HH:mm:ss` layout. */
  lemma {:induction false} StampLayout(y: string, mo: string, d: string, h: string, mi: string, s: string)
    requires |y| == 4 && |mo| == 2 && |d| == 2 && |h| == 2 && |mi| == 2 && |s| == 2
    ensures var r := y + "-" + mo + "-" + d + " " + h + ":" + mi + ":" + s;
      |r| == 19 && r[4] == '-' && r[7] == '-' && r[10] == ' ' && r[13] == ':' && r[16] == ':'
      && r[0..4] == y && r[5..7] == mo && r[8..10] == d
      && r[11..13] == h && r[14..16] == mi && r[17..19] == s
  {
    var r := y + "-" + mo + "-" + d + " " + h + ":" + mi + ":" + s;
    assert r[0..4] == y by { assert forall i :: 0 <= i < 4 ==> r[i] == y[i]; }
    assert r[5..7] == mo by { assert forall i :: 0 <= i < 2 ==> r[5 + i] == mo[i]; }
    assert r[8..10] == d by { assert forall i :: 0 <= i < 2 ==> r[8 + i] == d[i]; }
    assert r[11..13] == h by { assert forall i :: 0 <= i < 2 ==> r[11 + i] == h[i]; }
    assert r[14..16] == mi by { assert forall i :: 0 <= i < 2 ==> r[14 + i] == mi[i]; }
    assert r[17..19] == s by { assert forall i :: 0 <= i < 2 ==> r[17 + i] == s[i]; }
  }

  /** Where each field of a timestamp sits. */
  lemma TimestampLayout(t: DateTime)
    requires t.Valid()
    ensures |FTimestamp(t)| == 19
    ensures FTimestamp(t)[4] == '-' && FTimestamp(t)[7] == '-' && FTimestamp(t)[10] == ' '
    ensures FTimestamp(t)[13] == ':' && FTimestamp(t)[16] == ':'
    ensures FTimestamp(t)[0..4] == FPadded(t.year, 4)
    ensures FTimestamp(t)[5..7] == FPadded(t.month, 2)
    ensures FTimestamp(t)[8..10] == FPadded(t.day, 2)
    ensures FTimestamp(t)[11..13] == FPadded(t.hour, 2)
    ensures FTimestamp(t)[14..16] == FPadded(t.minute, 2)
    ensures FTimestamp(t)[17..19] == FPadded(t.second, 2)
  {
    PaddedLength(t.year, 4);
    PaddedLength(t.month, 2);
    PaddedLength(t.day, 2);
    PaddedLength(t.hour, 2);
    PaddedLength(t.minute, 2);
    PaddedLength(t.second, 2);
    StampLayout(FPadded(t.year, 4), FPadded(t.month, 2), FPadded(t.day, 2),
                FPadded(t.hour, 2), FPadded(t.minute, 2), FPadded(t.second, 2));
  }

  /** A timestamp is always 19 characters with its separators in fixed
      places, and each numeric field reads back as the field it renders. */
  lemma TimestampShape(t: DateTime)
    requires t.Valid()
    ensures |FTimestamp(t)| == 19
    ensures FTimestamp(t)[4] == '-' && FTimestamp(t)[7] == '-' && FTimestamp(t)[10] == ' '
    ensures FTimestamp(t)[13] == ':' && FTimestamp(t)[16] == ':'
    ensures ParseInt32(FTimestamp(t)[0..4]) == Some(t.year)
    ensures ParseInt32(FTimestamp(t)[5..7]) == Some(t.month)
    ensures ParseInt32(FTimestamp(t)[8..10]) == Some(t.day)
    ensures ParseInt32(FTimestamp(t)[11..13]) == Some(t.hour)
    ensures ParseInt32(FTimestamp(t)[14..16]) == Some(t.minute)
    ensures ParseInt32(FTimestamp(t)[17..19]) == Some(t.second)
  {
    TimestampLayout(t);
    ParseFPadded(t.year, 4);
    ParseFPadded(t.month, 2);
    ParseFPadded(t.day, 2);
    ParseFPadded(t.hour, 2);
    ParseFPadded(t.minute, 2);
    ParseFPadded(t.second, 2);
  }

  /** A field needs quoting when it holds a comma, a double quote, CR or LF
      (section 2 of RFC 4180, rule 6). */
  predicate NeedsQuotes(s: string) {
    ',' in s || '"' in s || '\n' in s || '\r' in s
  }

  /** `s.Replace("\"", "\"\"")`. */
  function DoubleQuotes(s: string): (r: string)
    ensures |r| >= |s|
  {
    if |s| == 0 then ""
    else if s[0] == '"' then "\"\"" + DoubleQuotes(s[1..])
    else [s[0]] + DoubleQuotes(s[1..])
  }

  /** `CsvEscape(s)`: null becomes "", a field that needs quoting is wrapped
      in double quotes with each inner quote doubled (section 2 of RFC 4180,
      rule 7), and any other field is left as it is. */
  function CsvEscape(s: Option<string>): (r: string)
    ensures s.None? ==> r == ""
    ensures s.Some? && !NeedsQuotes(s.value) ==> r == s.value
    ensures s.Some? && NeedsQuotes(s.value) ==> |r| >= |s.value| + 2 && r[0] == '"' && r[|r| - 1] == '"'
  {
    match s
    case None => ""
    case Some(t) => if NeedsQuotes(t) then "\"" + DoubleQuotes(t) + "\"" else t
  }

  /** Collapses each doubled quote of a quoted field's body back to one. */
  function UndoubleQuotes(s: string): string {
    if |s| >= 2 && s[0] == '"' && s[1] == '"' then "\"" + UndoubleQuotes(s[2..])
    else if |s| > 0 then [s[0]] + UndoubleQuotes(s[1..])
    else ""
  }

  /** Reads a CSV field back: a quoted field loses its outer quotes and has
      its doubled quotes collapsed; any other field is taken literally. */
  function CsvUnescape(f: string): string {
    if |f| >= 2 && f[0] == '"' && f[|f| - 1] == '"' then UndoubleQuotes(f[1..|f| - 1]) else f
  }

  lemma {:induction false} UndoubleDoubled(s: string)
    ensures UndoubleQuotes(DoubleQuotes(s)) == s
  {
    if |s| > 0 {
      UndoubleDoubled(s[1..]);
      if s[0] == '"' {
        assert ("\"\"" + DoubleQuotes(s[1..]))[2..] == DoubleQuotes(s[1..]);
      } else {
        assert ([s[0]] + DoubleQuotes(s[1..]))[1..] == DoubleQuotes(s[1..]);
      }
      assert s == [s[0]] + s[1..];
    }
  }

  /** Reading a written CSV field gives back the original text. */
  lemma CsvRoundTrip(s: string)
    ensures CsvUnescape(CsvEscape(Some(s))) == s
  {
    if NeedsQuotes(s) {
      var q := "\"" + DoubleQuotes(s) + "\"";
      assert q[1..|q| - 1] == DoubleQuotes(s);
      UndoubleDoubled(s);
    } else {
      assert |s| >= 2 ==> s[0] != '"';
    }
  }
}

=== FILE: numbers.dfy ===
/** 32-bit integers as the modelled code formats and parses them:
    `int.ToString(CultureInfo.InvariantCulture)`, the custom format `"000"`,
    `int.TryParse(s, NumberStyles.Integer, CultureInfo.InvariantCulture, ...)`,
    unchecked `int` addition, and the `"X4"` hexadecimal format. */
module Numbers {
  import opened Wrappers

  const IntMin: int := -0x8000_0000
  const IntMax: int := 0x7FFF_FFFF

  predicate IsInt32(n: int) {
    IntMin <= n <= IntMax
  }

  /** Unchecked C# `int` arithmetic: the mathematical result taken modulo 2^32
      into the signed range. */
  function Wrap32(n: int): (r: int)
    ensures IsInt32(r)
    ensures IsInt32(n) ==> r == n
  {
    if IsInt32(n) then n else (n - IntMin) % 0x1_0000_0000 + IntMin
  }

  /** The wrapped value differs from the mathematical one by a multiple
      of 2^32. */
  lemma Wrap32Congruent(n: int)
    ensures (Wrap32(n) - n) % 0x1_0000_0000 == 0
  {
  }

  predicate IsDigit(c: char) {
    '0' <= c <= '9'
  }

  predicate AllDigits(s: string) {
    forall i :: 0 <= i < |s| ==> IsDigit(s[i])
  }

  function DigitValue(c: char): (d: nat)
    requires IsDigit(c)
    ensures d < 10
  {
    c as int - '0' as int
  }

  function DigitChar(d: nat): (c: char)
    requires d < 10
    ensures IsDigit(c) && DigitValue(c) == d
  {
    ('0' as int + d) as char
  }

  /** Shortest decimal digits of a natural number. */
  function Digits(n: nat): (r: string)
    ensures |r| > 0 && AllDigits(r)
    ensures |r| > 1 ==> r[0] != '0'
  {
    if n < 10 then [DigitChar(n)] else Digits(n / 10) + [DigitChar(n % 10)]
  }

  /** The number a string of decimal digits denotes. */
  function ValueOf(s: string): nat
    requires AllDigits(s)
  {
    if |s| == 0 then 0 else ValueOf(s[..|s| - 1]) * 10 + DigitValue(s[|s| - 1])
  }

  lemma {:induction false} ValueOfDigits(n: nat)
    ensures ValueOf(Digits(n)) == n
  {
    if n >= 10 {
      var d := Digits(n);
      assert d[..|d| - 1] == Digits(n / 10);
      ValueOfDigits(n / 10);
    }
  }

  /** Leading zeros do not change the value of a digit string. */
  lemma {:induction false} ValueOfLeadingZeros(z: string, s: string)
    requires forall i :: 0 <= i < |z| ==> z[i] == '0'
    requires AllDigits(s)
    ensures AllDigits(z + s) && ValueOf(z + s) == ValueOf(s)
    decreases |s|, |z|
  {
    if |s| == 0 {
      assert z + s == z;
      if |z| > 0 {
        assert z[..|z| - 1] + [] == z[..|z| - 1];
        ValueOfLeadingZeros(z[..|z| - 1], []);
      }
    } else {
      assert (z + s)[..|z + s| - 1] == z + s[..|s| - 1];
      ValueOfLeadingZeros(z, s[..|s| - 1]);
    }
  }

  /** `n.ToString(CultureInfo.InvariantCulture)` for an `int`. */
  function FInt(n: int): (r: string)
    ensures |r| > 0 && (r[0] == '-' || IsDigit(r[0])) && IsDigit(r[|r| - 1])
    ensures forall i :: 0 < i < |r| ==> IsDigit(r[i])
  {
    if n < 0 then "-" + Digits(-n) else Digits(n)
  }

  /** Prefixes zeros until `d` has at least `width` characters. */
  function ZeroPad(d: string, width: nat): (r: string)
    ensures |r| >= width && |r| >= |d|
    ensures r[|r| - |d|..] == d
    ensures forall i :: 0 <= i < |r| - |d| ==> r[i] == '0'
  {
    if |d| >= width then d else seq(width - |d|, _ => '0') + d
  }

  /** The custom numeric format `"000"` (for `width` 3): at least `width`
      digits, zero-padded, with a leading minus sign for negatives. */
  function FPadded(n: int, width: nat): (r: string)
    ensures n >= 0 ==> |r| >= width && AllDigits(r)
  {
    if n < 0 then "-" + ZeroPad(Digits(-n), width) else ZeroPad(Digits(n), width)
  }

  /** The white space `NumberStyles.AllowLeadingWhite` / `AllowTrailingWhite`
      accept: tab to carriage return, and space. */
  predicate IsNumberWhite(c: char) {
    c == ' ' || '\t' <= c <= '\r'
  }

  function TrimNumberStart(s: string): (r: string)
    ensures |r| <= |s| && r == s[|s| - |r|..]
    ensures |r| > 0 ==> !IsNumberWhite(r[0])
    decreases |s|
  {
    if |s| > 0 && IsNumberWhite(s[0]) then TrimNumberStart(s[1..]) else s
  }

  function TrimNumberEnd(s: string): (r: string)
    ensures |r| <= |s| && r == s[..|r|]
    ensures |r| > 0 ==> !IsNumberWhite(r[|r| - 1])
    decreases |s|
  {
    if |s| > 0 && IsNumberWhite(s[|s| - 1]) then TrimNumberEnd(s[..|s| - 1]) else s
  }

  /** `int.TryParse(s, NumberStyles.Integer, CultureInfo.InvariantCulture, out n)`:
      optional white space, an optional `+` or `-`, one or more decimal
      digits, optional white space, and a value inside the `int` range. */
  function ParseInt32(s: string): (r: Option<int>)
    ensures r.Some? ==> IsInt32(r.value)
  {
    ParseSignedDigits(TrimNumberEnd(TrimNumberStart(s)))
  }

  /** The part of `ParseInt32` after the surrounding white space is gone. */
  function ParseSignedDigits(t: string): (r: Option<int>)
    ensures r.Some? ==> IsInt32(r.value)
  {
    if |t| == 0 then None
    else
      var body := if t[0] == '-' || t[0] == '+' then t[1..] else t;
      if |body| == 0 || !AllDigits(body) then None
      else
        var v := if t[0] == '-' then -(ValueOf(body) as int) else ValueOf(body) as int;
        if IsInt32(v) then Some(v) else None
  }

  lemma TrimNumberOfTrimmed(t: string)
    requires |t| > 0 && !IsNumberWhite(t[0]) && !IsNumberWhite(t[|t| - 1])
    ensures TrimNumberEnd(TrimNumberStart(t)) == t
  {
  }

  /** A string that neither starts nor ends with white space is parsed as it is. */
  lemma ParseTrimmed(t: string)
    requires |t| > 0 && !IsNumberWhite(t[0]) && !IsNumberWhite(t[|t| - 1])
    ensures ParseInt32(t) == ParseSignedDigits(t)
  {
    TrimNumberOfTrimmed(t);
  }

  /** Parsing gives back every formatted `int`. */
  lemma ParseFInt(n: int)
    requires IsInt32(n)
    ensures ParseInt32(FInt(n)) == Some(n)
  {
    var f := FInt(n);
    if n < 0 {
      assert f[1..] == Digits(-n);
      ValueOfDigits(-n);
      ParseNegative(f);
    } else {
      ValueOfDigits(n);
      ParseUnsigned(f);
    }
  }

  lemma ParseNegative(f: string)
    requires |f| > 1 && f[0] == '-' && AllDigits(f[1..]) && ValueOf(f[1..]) <= IntMax + 1
    ensures ParseInt32(f) == Some(-(ValueOf(f[1..]) as int))
  {
    var body := f[1..];
    assert IsDigit(f[|f| - 1]) by { assert f[|f| - 1] == body[|body| - 1]; }
    ParseTrimmed(f);
    SignedNegative(f, body, ValueOf(body));
  }

  lemma SignedNegative(t: string, body: string, v: nat)
    requires |t| > 1 && t[0] == '-' && body == t[1..] && AllDigits(body)
    requires v == ValueOf(body) && v <= IntMax + 1
    ensures ParseSignedDigits(t) == Some(-(v as int))
  {
  }

  lemma ParseUnsigned(f: string)
    requires |f| > 0 && AllDigits(f) && ValueOf(f) <= IntMax
    ensures ParseInt32(f) == Some(ValueOf(f))
  {
    TrimNumberOfTrimmed(f);
  }

  /** Parsing gives back every zero-padded non-negative `int`. */
  lemma ParseFPadded(n: int, width: nat)
    requires 0 <= n <= IntMax
    ensures ParseInt32(FPadded(n, width)) == Some(n)
  {
    var d := Digits(n);
    var f := ZeroPad(d, width);
    assert f == FPadded(n, width);
    var z := f[..|f| - |d|];
    assert f == z + d;
    ValueOfLeadingZeros(z, d);
    ValueOfDigits(n);
    ParseUnsigned(f);
  }

  /** Upper-case hexadecimal digit. */
  function HexDigit(d: nat): (c: char)
    requires d < 16
  {
    if d < 10 then DigitChar(d) else ('A' as int + d - 10) as char
  }

  /** Value of a hexadecimal digit of either case. */
  function HexValue(c: char): (r: Option<nat>)
    ensures r.Some? ==> r.value < 16
  {
    if '0' <= c <= '9' then Some(c as int - '0' as int)
    else if 'A' <= c <= 'F' then Some(c as int - 'A' as int + 10)
    else if 'a' <= c <= 'f' then Some(c as int - 'a' as int + 10)
    else None
  }

  /** `n.ToString("X4", CultureInfo.InvariantCulture)` for `n` below 0x10000. */
  function Hex4(n: nat): (r: string)
    requires n < 0x1_0000
    ensures |r| == 4
  {
    var r3 := n % 0x1000;
    var r2 := r3 % 0x100;
    [HexDigit(n / 0x1000), HexDigit(r3 / 0x100), HexDigit(r2 / 0x10), HexDigit(r2 % 0x10)]
  }

  /** Reads four hexadecimal digits. */
  function ParseHex4(s: string): (r: Option<nat>)
    requires |s| == 4
    ensures r.Some? ==> r.value < 0x1_0000
  {
    match (HexValue(s[0]), HexValue(s[1]), HexValue(s[2]), HexValue(s[3]))
    case (Some(a), Some(b), Some(c), Some(d)) => Some(a * 0x1000 + b * 0x100 + c * 0x10 + d)
    case _ => None
  }

  lemma HexValueOfDigit(d: nat)
    requires d < 16
    ensures HexValue(HexDigit(d)) == Some(d)
  {
  }

  lemma ParseHex4Of(n: nat)
    requires n < 0x1_0000
    ensures ParseHex4(Hex4(n)) == Some(n)
  {
    var r3 := n % 0x1000;
    var r2 := r3 % 0x100;
    HexValueOfDigit(n / 0x1000);
    HexValueOfDigit(r3 / 0x100);
    HexValueOfDigit(r2 / 0x10);
    HexValueOfDigit(r2 % 0x10);
    assert n == n / 0x1000 * 0x1000 + r3;
    assert r3 == r3 / 0x100 * 0x100 + r2;
    assert r2 == r2 / 0x10 * 0x10 + r2 % 0x10;
  }
}

=== FILE: profile_dialog.dfy ===
/** The new-profile dialog: turning a profile name into a file-name slug,
    and listing the profile's id in the equations index. */
module ProfileDialog {
  import opened Wrappers
  import opened Text

  // ------------------------------------------------------------------
  // Slugs
  // ------------------------------------------------------------------

  predicate IsLowerLetter(c: char) {
    'a' <= c <= 'z'
  }

  predicate IsDigit(c: char) {
    '0' <= c <= '9'
  }

  /** A letter or digit of a slug. */
  predicate IsAlnum(c: char) {
    IsLowerLetter(c) || IsDigit(c)
  }

  /** The class `[a-z0-9\-]`. */
  predicate Allowed(c: char) {
    IsAlnum(c) || c == '-'
  }

  /** Only `a-z`, `0-9` and `-`. */
  predicate AllAllowed(s: string) {
    forall i :: 0 <= i < |s| ==> Allowed(s[i])
  }

  /** No two dashes in a row. */
  predicate NoDoubleDash(s: string) {
    forall i :: 0 <= i < |s| - 1 ==> !(s[i] == '-' && s[i + 1] == '-')
  }

  /** What the dialog produces: non-empty, only `a-z`, `0-9` and `-`,
      starting with a letter, not ending with a dash, no doubled dash. */
  predicate IsSlug(s: string) {
    |s| > 0 && IsLowerLetter(s[0]) && s[|s| - 1] != '-' && NoDoubleDash(s)
    && AllAllowed(s)
  }

  /** `ToLowerInvariant` (ASCII letters). */
  function LowerAll(s: string): (r: string)
    ensures |r| == |s| && forall i :: 0 <= i < |s| ==> r[i] == Lower(s[i])
  {
    seq(|s|, i requires 0 <= i < |s| => Lower(s[i]))
  }

  /** `Regex.Replace(s, "[^a-z0-9\-]+", "-")`: every run of other
      characters becomes one dash. `inRun` says the previous character
      already started such a run. */
  function ReplaceRuns(s: string, inRun: bool): (r: string)
    ensures AllAllowed(r)
    decreases |s|
  {
    if |s| == 0 then ""
    else if Allowed(s[0]) then [s[0]] + ReplaceRuns(s[1..], false)
    else if inRun then ReplaceRuns(s[1..], true)
    else "-" + ReplaceRuns(s[1..], true)
  }

  /** `Regex.Replace(s, "-+", "-")`: every run of dashes becomes one dash.
      `inRun` says the previous character was a dash already written. */
  function CollapseDashes(s: string, inRun: bool): (r: string)
    ensures NoDoubleDash(r)
    ensures inRun && |r| > 0 ==> r[0] != '-'
    ensures AllAllowed(s) ==> AllAllowed(r)
    decreases |s|
  {
    if |s| == 0 then ""
    else if s[0] == '-' then
      if inRun then CollapseDashes(s[1..], true) else "-" + CollapseDashes(s[1..], true)
    else [s[0]] + CollapseDashes(s[1..], false)
  }

  /** `Trim('-')` from the front. */
  function TrimDashStart(s: string): (r: string)
    ensures |r| <= |s| && r == s[|s| - |r|..]
    ensures |r| > 0 ==> r[0] != '-'
    ensures forall i :: 0 <= i < |s| - |r| ==> s[i] == '-'
    ensures AllAllowed(s) ==> AllAllowed(r)
    ensures NoDoubleDash(s) ==> NoDoubleDash(r)
    decreases |s|
  {
    if |s| > 0 && s[0] == '-' then TrimDashStart(s[1..]) else s
  }

  /** `Trim('-')` from the back. */
  function TrimDashEnd(s: string): (r: string)
    ensures |r| <= |s| && r == s[..|r|]
    ensures |r| > 0 ==> r[|r| - 1] != '-'
    ensures forall i :: |r| <= i < |s| ==> s[i] == '-'
    ensures AllAllowed(s) ==> AllAllowed(r)
    ensures NoDoubleDash(s) ==> NoDoubleDash(r)
    decreases |s|
  {
    if |s| > 0 && s[|s| - 1] == '-' then TrimDashEnd(s[..|s| - 1]) else s
  }

  /** `Trim('-')`. */
  function TrimDashes(s: string): string {
    TrimDashEnd(TrimDashStart(s))
  }

  /** The text before the final checks: trimmed, lower-cased, runs of
      other characters and of dashes turned into single dashes, dashes
      trimmed from both ends. */
  function SlugCore(input: string): (r: string)
    ensures AllAllowed(r) && NoDoubleDash(r)
    ensures |r| > 0 ==> r[0] != '-' && r[|r| - 1] != '-'
  {
    var collapsed := CollapseDashes(ReplaceRuns(LowerAll(Trim(input)), false), false);
    var front := TrimDashStart(collapsed);
    var r := TrimDashEnd(front);
    assert |r| > 0 ==> r[0] == front[0];
    r
  }

  /** `Slugify(input)`: "profile" when nothing is left, and a "p-" prefix
      when the text does not start with a letter. */
  function Slugify(input: string): (r: string)
    ensures IsSlug(r)
  {
    var s := SlugCore(input);
    if |s| == 0 then ProfileIsSlug(); "profile"
    else if IsLowerLetter(s[0]) then s
    else PrefixedSlug(s); "p-" + s
  }

  lemma ProfileIsSlug()
    ensures IsSlug("profile")
  {
  }

  /** The "p-" prefix turns a dash-trimmed text into a slug. */
  lemma PrefixedSlug(s: string)
    requires AllAllowed(s) && NoDoubleDash(s)
    requires |s| > 0 && s[0] != '-' && s[|s| - 1] != '-'
    ensures IsSlug("p-" + s)
  {
    var r := "p-" + s;
    assert r[2..] == s;
    forall i | 0 <= i < |r| ensures Allowed(r[i]) {
      if i >= 2 { assert r[i] == s[i - 2]; }
    }
    forall i | 0 <= i < |r| - 1 ensures !(r[i] == '-' && r[i + 1] == '-') {
      if i >= 2 { assert r[i] == s[i - 2] && r[i + 1] == s[i - 1]; }
    }
  }

  // ------------------------------------------------------------------
  // The letters and digits a slug keeps
  // ------------------------------------------------------------------

  /** The letters and digits of `s`, in order. */
  function Alnums(s: string): (r: string)
    ensures |r| <= |s|
    ensures forall i :: 0 <= i < |r| ==> IsAlnum(r[i])
    decreases |s|
  {
    if |s| == 0 then ""
    else if IsAlnum(s[0]) then [s[0]] + Alnums(s[1..])
    else Alnums(s[1..])
  }

  lemma {:induction false} AlnumsAppend(a: string, b: string)
    ensures Alnums(a + b) == Alnums(a) + Alnums(b)
    decreases |a|
  {
    if |a| == 0 {
      assert a + b == b;
    } else {
      assert (a + b)[0] == a[0];
      assert (a + b)[1..] == a[1..] + b;
      AlnumsAppend(a[1..], b);
    }
  }

  lemma {:induction false} ReplaceRunsAlnums(s: string, inRun: bool)
    ensures Alnums(ReplaceRuns(s, inRun)) == Alnums(s)
    decreases |s|
  {
    if |s| > 0 {
      if Allowed(s[0]) {
        ReplaceRunsAlnums(s[1..], false);
        AlnumsAppend([s[0]], ReplaceRuns(s[1..], false));
      } else {
        ReplaceRunsAlnums(s[1..], true);
        AlnumsAppend("-", ReplaceRuns(s[1..], true));
      }
    }
  }

  lemma {:induction false} CollapseAlnums(s: string, inRun: bool)
    ensures Alnums(CollapseDashes(s, inRun)) == Alnums(s)
    decreases |s|
  {
    if |s| > 0 {
      if s[0] == '-' {
        CollapseAlnums(s[1..], true);
        AlnumsAppend("-", CollapseDashes(s[1..], true));
      } else {
        CollapseAlnums(s[1..], false);
        AlnumsAppend([s[0]], CollapseDashes(s[1..], false));
      }
    }
  }

  lemma {:induction false} DashesNoAlnums(s: string)
    requires forall i :: 0 <= i < |s| ==> s[i] == '-'
    ensures Alnums(s) == ""
    decreases |s|
  {
    if |s| > 0 {
      DashesNoAlnums(s[1..]);
    }
  }

  /** Dashes trimmed from the front carry no letter or digit. */
  lemma DashPrefix(s: string, a: string)
    requires |a| <= |s| && a == s[|s| - |a|..]
    requires forall i :: 0 <= i < |s| - |a| ==> s[i] == '-'
    ensures Alnums(s) == Alnums(a)
  {
    var p := s[..|s| - |a|];
    assert s == p + a;
    forall i | 0 <= i < |p| ensures p[i] == '-' { }
    DashesNoAlnums(p);
    AlnumsAppend(p, a);
  }

  /** Dashes trimmed from the back carry no letter or digit. */
  lemma DashSuffix(s: string, b: string)
    requires |b| <= |s| && b == s[..|b|]
    requires forall i :: |b| <= i < |s| ==> s[i] == '-'
    ensures Alnums(s) == Alnums(b)
  {
    var p := s[|b|..];
    assert s == b + p;
    forall i | 0 <= i < |p| ensures p[i] == '-' { assert p[i] == s[|b| + i]; }
    DashesNoAlnums(p);
    AlnumsAppend(b, p);
  }

  lemma TrimDashesAlnums(s: string)
    ensures Alnums(TrimDashes(s)) == Alnums(s)
  {
    var a := TrimDashStart(s);
    DashPrefix(s, a);
    DashSuffix(a, TrimDashEnd(a));
  }

  lemma {:induction false} BlankNoAlnums(s: string)
    requires IsBlank(s)
    ensures Alnums(LowerAll(s)) == ""
    decreases |s|
  {
    if |s| > 0 {
      assert LowerAll(s)[1..] == LowerAll(s[1..]);
      BlankNoAlnums(s[1..]);
    }
  }

  lemma LowerAllAppend(a: string, b: string)
    ensures LowerAll(a + b) == LowerAll(a) + LowerAll(b)
  {
  }

  /** Trimming white space loses no letter or digit. */
  lemma TrimAlnums(s: string)
    ensures Alnums(LowerAll(Trim(s))) == Alnums(LowerAll(s))
  {
    var ts := TrimStart(s);
    var core := TrimEnd(ts);
    PaddedParts(s, ts, core);
    var w1 := s[..|s| - |ts|];
    var w2 := ts[|core|..];
    LowerAllAppend(w1 + core, w2);
    LowerAllAppend(w1, core);
    AlnumsAppend(LowerAll(w1) + LowerAll(core), LowerAll(w2));
    AlnumsAppend(LowerAll(w1), LowerAll(core));
    BlankNoAlnums(w1);
    BlankNoAlnums(w2);
  }

  lemma SlugCoreAlnums(input: string)
    ensures Alnums(SlugCore(input)) == Alnums(LowerAll(input))
  {
    var replaced := ReplaceRuns(LowerAll(Trim(input)), false);
    var collapsed := CollapseDashes(replaced, false);
    TrimAlnums(input);
    ReplaceRunsAlnums(LowerAll(Trim(input)), false);
    CollapseAlnums(replaced, false);
    TrimDashesAlnums(collapsed);
  }

  lemma ProfileAlnums()
    ensures Alnums("profile") == "profile"
  {
  }

  lemma PrefixAlnums(s: string)
    ensures Alnums("p-" + s) == "p" + Alnums(s)
  {
    AlnumsAppend("p-", s);
    assert Alnums("p-") == "p";
  }

  /** The slug keeps every letter and digit of the (lower-cased) input, in
      order, and adds only the "profile" fallback or the "p" of the
      "p-" prefix: the prefix appears exactly when the first kept
      character is a digit. */
  lemma SlugifyAlnums(input: string)
    ensures var a := Alnums(LowerAll(input));
      Alnums(Slugify(input)) == (if |a| == 0 then "profile" else if IsDigit(a[0]) then "p" + a else a)
  {
    var s := SlugCore(input);
    SlugCoreAlnums(input);
    if |s| == 0 {
      ProfileAlnums();
    } else {
      assert IsAlnum(s[0]);
      assert Alnums(s) == [s[0]] + Alnums(s[1..]);
      if !IsLowerLetter(s[0]) {
        PrefixAlnums(s);
      }
    }
  }

  lemma {:induction false} ReplaceRunsKeeps(s: string, inRun: bool)
    requires AllAllowed(s)
    ensures ReplaceRuns(s, inRun) == s
    decreases |s|
  {
    if |s| > 0 {
      assert Allowed(s[0]);
      ReplaceRunsKeeps(s[1..], false);
    }
  }

  lemma {:induction false} CollapseKeeps(s: string, inRun: bool)
    requires NoDoubleDash(s)
    requires inRun && |s| > 0 ==> s[0] != '-'
    ensures CollapseDashes(s, inRun) == s
    decreases |s|
  {
    if |s| > 0 {
      var t := s[1..];
      assert NoDoubleDash(t) by {
        forall i | 0 <= i < |t| - 1 ensures !(t[i] == '-' && t[i + 1] == '-') {
          assert t[i] == s[i + 1] && t[i + 1] == s[i + 2];
        }
      }
      if s[0] == '-' {
        assert |t| > 0 ==> t[0] == s[1];
        CollapseKeeps(t, true);
      } else {
        CollapseKeeps(t, false);
      }
    }
  }

  lemma LowerAllKeeps(s: string)
    requires AllAllowed(s)
    ensures LowerAll(s) == s
  {
    forall i | 0 <= i < |s| ensures LowerAll(s)[i] == s[i] {
      assert Allowed(s[i]);
    }
  }

  /** Slugs are the fixed points of `Slugify`. */
  lemma SlugFixed(s: string)
    requires IsSlug(s)
    ensures Slugify(s) == s
  {
    assert Allowed(s[|s| - 1]);
    TrimOfTrimmed(s);
    LowerAllKeeps(s);
    ReplaceRunsKeeps(s, false);
    CollapseKeeps(s, false);
  }

  /** Slugifying a slug changes nothing. */
  lemma SlugifyIdempotent(input: string)
    ensures Slugify(Slugify(input)) == Slugify(input)
  {
    SlugFixed(Slugify(input));
  }

  // ------------------------------------------------------------------
  // The equations index
  // ------------------------------------------------------------------

  /** The line listing `id` in the index. */
  function IndexLine(id: string): string {
    "  - " + id
  }

  /** Some line, trimmed, reads exactly (ordinal comparison) `- id`. */
  predicate Listed(lines: seq<string>, id: string) {
    exists i :: 0 <= i < |lines| && Trim(lines[i]) == "- " + id
  }

  /** The lines the update starts from: the file's, or a fresh header. */
  function IndexBase(file: TextFile): seq<string>
    requires !file.Unreadable?
  {
    if file.Absent? then ["equations:"] else file.lines
  }

  /** The index-line update of the save: None when reading the index
      throws (the save fails and nothing is written), otherwise the lines
      written back. */
  function UpdateIndex(file: TextFile, id: string): (r: Option<seq<string>>)
    ensures r.None? <==> file.Unreadable?
    ensures r.Some? ==> |IndexBase(file)| <= |r.value| <= |IndexBase(file)| + 1
    ensures r.Some? ==> r.value[..|IndexBase(file)|] == IndexBase(file)
    ensures r.Some? ==> (|r.value| == |IndexBase(file)| <==> Listed(IndexBase(file), id))
    ensures r.Some? && |r.value| > |IndexBase(file)| ==> r.value[|IndexBase(file)|] == IndexLine(id)
  {
    if file.Unreadable? then None
    else
      var lines := IndexBase(file);
      if Listed(lines, id) then Some(lines) else Some(lines + [IndexLine(id)])
  }

  /** An id whose appended line trims back to `- id` and stays one line:
      every slug is one. */
  predicate ListableId(id: string) {
    |id| > 0 && !IsWhiteSpace(id[|id| - 1]) && OneLine(id)
  }

  lemma SlugListable(id: string)
    requires IsSlug(id)
    ensures ListableId(id)
  {
    assert Allowed(id[|id| - 1]);
    assert forall i :: 0 <= i < |id| ==> Allowed(id[i]);
  }

  lemma IndexLineTrims(id: string)
    requires ListableId(id)
    ensures Trim(IndexLine(id)) == "- " + id
  {
    var core := "- " + id;
    assert IndexLine(id) == "  " + core + "";
    TrimOfPadded("  ", core, "");
    TrimOfTrimmed(core);
  }

  /** After the update the id is listed. */
  lemma UpdateLists(file: TextFile, id: string)
    requires !file.Unreadable? && ListableId(id)
    ensures Listed(UpdateIndex(file, id).value, id)
  {
    var lines := IndexBase(file);
    if !Listed(lines, id) {
      var r := lines + [IndexLine(id)];
      IndexLineTrims(id);
      assert Trim(r[|lines|]) == "- " + id;
    }
  }

  /** The index line of a single-line id is one line. */
  lemma IndexLineOneLine(id: string)
    requires OneLine(id)
    ensures OneLine(IndexLine(id))
  {
    assert forall c :: c in "  - " + id ==> c == ' ' || c == '-' || c in id;
  }

  /** The lines the update starts from hold no line break. */
  lemma BaseOneLine(file: TextFile)
    requires !file.Unreadable? && AsRead(file)
    ensures forall i :: 0 <= i < |IndexBase(file)| ==> OneLine(IndexBase(file)[i])
  {
    assert OneLine("equations:");
  }

  /** The written index reads back line for line when the file as read
      and the id hold no line break. */
  lemma UpdateStored(file: TextFile, id: string)
    requires !file.Unreadable? && AsRead(file) && ListableId(id)
    ensures Stored(UpdateIndex(file, id).value) == UpdateIndex(file, id).value
  {
    var base := IndexBase(file);
    BaseOneLine(file);
    IndexLineOneLine(id);
    if !Listed(base, id) {
      var lines := base + [IndexLine(id)];
      assert forall i :: 0 <= i < |base| ==> lines[i] == base[i];
      StoredOneLines(lines);
    } else {
      StoredOneLines(base);
    }
  }

  /** Saving twice with the same id writes what saving once does: the
      second save reads back the first one's lines and finds the id
      listed. */
  lemma UpdateIdempotent(file: TextFile, id: string)
    requires AsRead(file) && ListableId(id)
    ensures var once := UpdateIndex(file, id);
      once.Some? ==> UpdateIndex(Readable(Stored(once.value)), id) == once
  {
    if !file.Unreadable? {
      UpdateStored(file, id);
      UpdateLists(file, id);
    }
  }
}

=== FILE: queue.dfy ===
/** The run queue: queued requests, replicate numbering, adding a batch of
    replicates and removing selected items. */
module Queue {
  import opened Wrappers
  import opened Text
  import opened Numbers
  import opened Command

  /** The four status texts a request ever carries. */
  datatype Status = Queued | Running | Done | Failed

  /** One queued simulation run. `repIndex` is 1-based; a seed of `None`
      means no `--seed` is passed. */
  datatype RunRequest = RunRequest(
    enqueuedAt: string,
    equationName: string,
    grid: string,
    steps: string,
    outDir: string,
    status: Status,
    repIndex: int,
    repTotal: int,
    seed: Option<int>)

  // ------------------------------------------------------------------
  // Replicate numbering
  // ------------------------------------------------------------------

  /** The number of a replicate folder `rep_NNN` (prefix in any case),
      when the rest parses as an `int`. */
  function RepNumber(name: string): (r: Option<int>)
    ensures r.Some? ==> StartsWithIgnoreCase(name, "rep_") && r == ParseInt32(name[4..])
    ensures !StartsWithIgnoreCase(name, "rep_") ==> r.None?
  {
    if StartsWithIgnoreCase(name, "rep_") then ParseInt32(name[4..]) else None
  }

  /** The replicate number of each folder name, where it has one. */
  function RepNumbers(names: seq<string>): (r: seq<Option<int>>)
    ensures |r| == |names| && forall i :: 0 <= i < |names| ==> r[i] == RepNumber(names[i])
  {
    seq(|names|, i requires 0 <= i < |names| => RepNumber(names[i]))
  }

  /** The running maximum the scan keeps, starting from 0 and skipping
      names without a number. */
  function MaxOf(nums: seq<Option<int>>): (r: int)
    ensures r >= 0
    ensures forall i :: 0 <= i < |nums| && nums[i].Some? ==> nums[i].value <= r
    ensures r == 0 || exists i :: 0 <= i < |nums| && nums[i] == Some(r)
  {
    if |nums| == 0 then 0
    else
      var m := MaxOf(nums[..|nums| - 1]);
      var last := nums[|nums| - 1];
      if last.Some? && last.value > m then last.value else m
  }

  /** The largest replicate number among the names, or 0. */
  function MaxRep(names: seq<string>): int {
    MaxOf(RepNumbers(names))
  }

  /** `GetNextRepIndex`: one past the largest replicate number among the
      folder names, in unchecked `int` arithmetic; 1 when the folder path
      is blank, the folder is missing or listing it throws (`None`). */
  function NextRepIndex(listing: Option<seq<string>>): (r: int)
    ensures listing.None? ==> r == 1
    ensures listing.Some? && MaxRep(listing.value) < IntMax ==>
      r == MaxRep(listing.value) + 1 && r >= 1
      && forall i :: 0 <= i < |listing.value| && RepNumbers(listing.value)[i].Some? ==>
           RepNumbers(listing.value)[i].value < r
    ensures listing.Some? && MaxRep(listing.value) == IntMax ==> r == IntMin
  {
    match listing
    case None => 1
    case Some(names) =>
      WrapPastMax();
      Wrap32(MaxRep(names) + 1)
  }

  /** One past the largest `int` wraps to the smallest. */
  lemma WrapPastMax()
    ensures Wrap32(IntMax + 1) == IntMin
  {
  }

  /** The folder name of replicate `n`: `rep_` and at least three digits. */
  function RepName(n: int): string {
    "rep_" + FPadded(n, 3)
  }

  lemma RepPrefix(x: string)
    ensures StartsWithIgnoreCase("rep_" + x, "rep_") && ("rep_" + x)[4..] == x
  {
    assert ("rep_" + x)[..4] == "rep_";
  }

  /** Folder names read back as the replicate numbers they were made from. */
  lemma RepNameRoundTrip(n: int)
    requires 0 <= n <= IntMax
    ensures RepNumber(RepName(n)) == Some(n)
  {
    RepPrefix(FPadded(n, 3));
    ParseFPadded(n, 3);
  }

  lemma MaxRepSnoc(names: seq<string>, name: string, n: Option<int>)
    requires RepNumber(name) == n
    ensures MaxRep(names + [name]) == if n.Some? && n.value > MaxRep(names) then n.value else MaxRep(names)
  {
    var nums := RepNumbers(names + [name]);
    assert nums[..|names|] == RepNumbers(names);
  }

  /** A folder numbered with the next index moves it on by one. */
  lemma NextAfterOne(names: seq<string>, name: string, n: int)
    requires NextRepIndex(Some(names)) == n && 1 <= n < IntMax
    requires RepNumber(name) == Some(n)
    ensures NextRepIndex(Some(names + [name])) == n + 1
  {
    NextIsMaxPlusOne(names, n);
    MaxRepSnoc(names, name, Some(n));
  }

  lemma NextIsMaxPlusOne(names: seq<string>, n: int)
    requires NextRepIndex(Some(names)) == n && n >= 1
    ensures MaxRep(names) == n - 1
  {
  }

  // ------------------------------------------------------------------
  // Adding replicates
  // ------------------------------------------------------------------

  /** The replicate count: the parsed box value, or 1 when it does not
      parse or is below 1. */
  function ReplicateCount(box: string): (r: int)
    ensures r >= 1
    ensures ParseInt32(Trim(box)).Some? && ParseInt32(Trim(box)).value >= 1 ==> r == ParseInt32(Trim(box)).value
    ensures ParseInt32(Trim(box)).None? || ParseInt32(Trim(box)).value < 1 ==> r == 1
  {
    match ParseInt32(Trim(box))
    case Some(n) => if n < 1 then 1 else n
    case None => 1
  }

  /** The seed typed in the form, if it parses. */
  function TypedSeed(box: string): Option<int> {
    ParseInt32(Trim(box))
  }

  /** The label of the chosen equation: "(unnamed)" when there is none. */
  function EquationLabel(name: string): (r: string)
    ensures |r| > 0
    ensures !IsBlank(name) ==> r == name
  {
    if IsBlank(name) then "(unnamed)" else name
  }

  /** What the add button reads: the form's boxes and the chosen equation's
      name ("" when none is chosen). */
  datatype AddForm = AddForm(
    gridBox: string,
    stepsBox: string,
    replicatesBox: string,
    seedBox: string,
    equationName: string)

  /** The world the add button sees: the prepared run folder (`None` when
      there is none or it does not exist), the replicate folders already in
      the grid folder, the first replicate whose folder cannot be created
      (`None` when every one can), and the clock reading for each item. */
  datatype AddWorld = AddWorld(
    runDir: Option<string>,
    listing: Option<seq<string>>,
    failsAt: Option<nat>,
    clock: nat -> string)

  /** What every replicate of one addition shares: the label, the
      defaulted grid and step texts, the grid folder, the replicate count,
      the typed seed and the first replicate number. */
  datatype AddPlan = AddPlan(
    equationLabel: string,
    grid: string,
    steps: string,
    gridFolder: string,
    reps: int,
    seed: Option<int>,
    next: int)

  /** The plan the add button derives from the form and the run folder. */
  function Plan(form: AddForm, world: AddWorld, runDir: string): AddPlan {
    var grid := GridArg(form.gridBox);
    AddPlan(
      EquationLabel(form.equationName),
      grid,
      StepsArg(form.stepsBox),
      PathCombine(runDir, "grid_" + grid),
      ReplicateCount(form.replicatesBox),
      TypedSeed(form.seedBox),
      NextRepIndex(world.listing))
  }

  /** Replicate `k` of an addition, stamped `now`: number and seed are
      stepped by `k` in unchecked `int` arithmetic. */
  function Replicate(plan: AddPlan, now: string, k: nat): RunRequest {
    var repIndex := Wrap32(plan.next + k);
    RunRequest(
      now,
      plan.equationLabel,
      plan.grid,
      plan.steps,
      PathCombine(plan.gridFolder, RepName(repIndex)),
      Queued,
      repIndex,
      plan.reps,
      if plan.seed.Some? then Some(Wrap32(plan.seed.value + k)) else None)
  }

  /** How many of `reps` replicates get queued: all of them, or those
      before the first folder that cannot be created. */
  function AddedCount(reps: int, failsAt: Option<nat>): (r: nat)
    requires reps >= 1
    ensures r <= reps
    ensures r < reps <==> failsAt.Some? && failsAt.value < reps
  {
    if failsAt.Some? && failsAt.value < reps then failsAt.value else reps
  }

  /** The first `count` replicates of a plan, each stamped by the clock. */
  function Replicates(plan: AddPlan, clock: nat -> string, count: nat): (r: seq<RunRequest>)
    ensures |r| == count && forall k :: 0 <= k < count ==> r[k] == Replicate(plan, clock(k), k)
  {
    seq(count, k requires 0 <= k < count => Replicate(plan, clock(k), k))
  }

  /** The status text after an addition. */
  function AddMessage(added: nat, reps: int): string {
    if added < reps then "Failed to add queue item(s)."
    else if reps == 1 then "Added 1 item to queue."
    else "Added " + FInt(reps) + " items to queue."
  }

  /** `AddToQueueButton_Click`: the new queue and the status text. */
  function AddToQueue(queue: seq<RunRequest>, form: AddForm, world: AddWorld): (r: (seq<RunRequest>, string))
    ensures world.runDir.None? ==> r == (queue, "Prepare a run first (click 'New Run').")
    ensures world.runDir.Some? ==>
      var plan := Plan(form, world, world.runDir.value);
      var added := AddedCount(plan.reps, world.failsAt);
      r.0 == queue + Replicates(plan, world.clock, added)
  {
    match world.runDir
    case None => (queue, "Prepare a run first (click 'New Run').")
    case Some(runDir) =>
      var plan := Plan(form, world, runDir);
      var added := AddedCount(plan.reps, world.failsAt);
      (queue + Replicates(plan, world.clock, added), AddMessage(added, plan.reps))
  }

  /** Adding appends the replicates it queues and leaves the items already
      queued as they were. */
  lemma AddKeepsQueue(queue: seq<RunRequest>, form: AddForm, world: AddWorld)
    ensures var r := AddToQueue(queue, form, world).0;
      |queue| <= |r| && r[..|queue|] == queue
      && (world.runDir.Some? ==>
            |r| == |queue| + AddedCount(Plan(form, world, world.runDir.value).reps, world.failsAt))
  {
  }

  /** The status text says the addition failed exactly when a replicate
      folder could not be created. */
  lemma AddMessageFailed(added: nat, reps: int)
    requires added <= reps
    ensures AddMessage(added, reps) == "Failed to add queue item(s)." <==> added < reps
  {
    if added == reps && reps != 1 {
      assert AddMessage(added, reps)[0] == 'A';
    }
  }

  /** A typed seed moved on by `k`; no seed stays no seed. */
  function SeedPlus(seed: Option<int>, k: nat): Option<int> {
    if seed.Some? then Some(seed.value + k) else None
  }

  /** A replicate whose number and seed stay inside the `int` range. */
  lemma ReplicateFields(plan: AddPlan, now: string, k: nat)
    requires 1 <= plan.next + k <= IntMax
    requires plan.seed.Some? ==> IsInt32(plan.seed.value + k)
    ensures var item := Replicate(plan, now, k);
      item.status == Queued && item.repIndex == plan.next + k && item.repTotal == plan.reps
      && item.seed == SeedPlus(plan.seed, k)
      && item.outDir == PathCombine(plan.gridFolder, RepName(plan.next + k))
  {
  }

  /** The last component of the item's folder is the name of its replicate
      number (which reads back as that number, by `RepNameRoundTrip`). */
  predicate InOwnFolder(item: RunRequest) {
    EndsWith(item.outDir, RepName(item.repIndex))
  }

  predicate EndsWith(path: string, name: string) {
    |name| <= |path| && path[|path| - |name|..] == name
  }

  lemma FolderOf(item: RunRequest, gridFolder: string)
    requires item.outDir == PathCombine(gridFolder, RepName(item.repIndex))
    ensures InOwnFolder(item)
  {
    CombineEndsWith(gridFolder, RepName(item.repIndex), item.outDir);
  }

  lemma CombineEndsWith(dir: string, name: string, path: string)
    requires path == PathCombine(dir, name)
    ensures EndsWith(path, name)
  {
  }

  /** Every queued replicate carries the request's numbering: consecutive
      indices from the next free one, the common total, a seed stepped
      per replicate (or none when none was typed), its own numbered folder
      under the grid folder, and status Queued. */
  lemma AddedReplicates(queue: seq<RunRequest>, form: AddForm, world: AddWorld, k: nat)
    requires world.runDir.Some? && k < AddedCount(Plan(form, world, world.runDir.value).reps, world.failsAt)
    requires world.listing.Some? ==> MaxRep(world.listing.value) + k < IntMax
    requires TypedSeed(form.seedBox).Some? ==> TypedSeed(form.seedBox).value + k <= IntMax
    ensures var item := AddToQueue(queue, form, world).0[|queue| + k];
      var next := NextRepIndex(world.listing);
      var seed := TypedSeed(form.seedBox);
      item.status == Queued && item.repIndex == next + k && item.repIndex >= 1
      && item.repTotal == ReplicateCount(form.replicatesBox)
      && item.seed == SeedPlus(seed, k)
      && InOwnFolder(item)
  {
    var plan := Plan(form, world, world.runDir.value);
    var item := AddToQueue(queue, form, world).0[|queue| + k];
    AddedItem(queue, form, world, k);
    assert plan.next == NextRepIndex(world.listing) && 1 <= plan.next + k <= IntMax;
    assert plan.seed == TypedSeed(form.seedBox) && (plan.seed.Some? ==> IsInt32(plan.seed.value + k));
    assert plan.reps == ReplicateCount(form.replicatesBox);
    ReplicateFields(plan, world.clock(k), k);
    FolderOf(item, plan.gridFolder);
  }

  /** Distinct replicates of one addition get distinct indices, none of
      which an existing replicate folder already has. */
  lemma AddedIndicesFresh(queue: seq<RunRequest>, form: AddForm, world: AddWorld, j: nat, k: nat)
    requires world.runDir.Some? && world.listing.Some?
    requires j < k < AddedCount(Plan(form, world, world.runDir.value).reps, world.failsAt)
    requires MaxRep(world.listing.value) + k < IntMax
    ensures var r := AddToQueue(queue, form, world).0;
      r[|queue| + j].repIndex < r[|queue| + k].repIndex
      && forall i :: 0 <= i < |world.listing.value| && RepNumbers(world.listing.value)[i].Some? ==>
           RepNumbers(world.listing.value)[i].value < r[|queue| + j].repIndex
  {
    var plan := Plan(form, world, world.runDir.value);
    var added := AddedCount(plan.reps, world.failsAt);
    var items := Replicates(plan, world.clock, added);
    var r := AddToQueue(queue, form, world).0;
    assert r == queue + items;
    assert r[|queue| + j] == items[j] && r[|queue| + k] == items[k];
    var names := world.listing.value;
    assert plan.next == NextRepIndex(Some(names));
    FreshAbove(names, plan.next);
    ReplicateIndex(plan, world.clock(j), j);
    ReplicateIndex(plan, world.clock(k), k);
  }

  lemma FreshAbove(names: seq<string>, next: int)
    requires next == NextRepIndex(Some(names)) && MaxRep(names) < IntMax
    ensures next == MaxRep(names) + 1
    ensures forall i :: 0 <= i < |names| && RepNumbers(names)[i].Some? ==> RepNumbers(names)[i].value < next
  {
  }

  /** Item `k` of an addition is replicate `k` of the plan. */
  lemma AddedItem(queue: seq<RunRequest>, form: AddForm, world: AddWorld, k: nat)
    requires world.runDir.Some? && k < AddedCount(Plan(form, world, world.runDir.value).reps, world.failsAt)
    ensures AddToQueue(queue, form, world).0[|queue| + k]
      == Replicate(Plan(form, world, world.runDir.value), world.clock(k), k)
  {
  }

  lemma ReplicateIndex(plan: AddPlan, now: string, k: nat)
    requires 1 <= plan.next + k <= IntMax
    ensures Replicate(plan, now, k).repIndex == plan.next + k
  {
  }

  // ------------------------------------------------------------------
  // Removing selected items
  // ------------------------------------------------------------------

  /** The positions below `n` that are not selected, in increasing order. */
  function Kept(selected: set<nat>, n: nat): (r: seq<nat>)
    ensures forall i :: 0 <= i < |r| ==> r[i] < n && r[i] !in selected
    ensures forall p: nat :: p < n && p !in selected ==> p in r
  {
    if n == 0 then []
    else
      var front := Kept(selected, n - 1);
      if n - 1 in selected then front
      else
        var r := front + [n - 1];
        assert forall i :: 0 <= i < |front| ==> r[i] == front[i];
        r
  }

  predicate Increasing(s: seq<nat>) {
    forall i, j :: 0 <= i < j < |s| ==> s[i] < s[j]
  }

  lemma AppendIncreasing(s: seq<nat>, x: nat)
    requires Increasing(s) && forall i :: 0 <= i < |s| ==> s[i] < x
    ensures Increasing(s + [x])
  {
  }

  /** The kept positions are in increasing order. */
  lemma {:induction false} KeptIncreasing(selected: set<nat>, n: nat)
    ensures Increasing(Kept(selected, n))
  {
    if n > 0 {
      var front := Kept(selected, n - 1);
      KeptIncreasing(selected, n - 1);
      if n - 1 in selected {
        assert Kept(selected, n) == front;
      } else {
        assert Kept(selected, n) == front + [n - 1];
        AppendIncreasing(front, n - 1);
      }
    }
  }

  /** The queue without the items at the selected positions. */
  function RemoveAt(queue: seq<RunRequest>, selected: set<nat>): (r: seq<RunRequest>)
    ensures |r| <= |queue|
    decreases |queue|
  {
    if |queue| == 0 then []
    else
      var n := |queue| - 1;
      RemoveAt(queue[..n], selected) + (if n in selected then [] else [queue[n]])
  }

  /** Removal keeps exactly the unselected items, in queue order. */
  lemma {:induction false} RemoveAtKept(queue: seq<RunRequest>, selected: set<nat>)
    ensures var kept := Kept(selected, |queue|);
      |RemoveAt(queue, selected)| == |kept|
      && forall j :: 0 <= j < |kept| ==> RemoveAt(queue, selected)[j] == queue[kept[j]]
    decreases |queue|
  {
    if |queue| > 0 {
      var n := |queue| - 1;
      var front := queue[..n];
      RemoveAtKept(front, selected);
      var a := RemoveAt(front, selected);
      var kept := Kept(selected, n);
      PickFromLonger(queue, n, a, kept);
      if n in selected {
        assert RemoveAt(queue, selected) == a + [];
      } else {
        PickLast(queue, n, a, kept);
      }
    }
  }

  lemma PickFromLonger(queue: seq<RunRequest>, n: nat, a: seq<RunRequest>, kept: seq<nat>)
    requires n < |queue| && |a| == |kept|
    requires forall j :: 0 <= j < |kept| ==> kept[j] < n && a[j] == queue[..n][kept[j]]
    ensures forall j :: 0 <= j < |kept| ==> a[j] == queue[kept[j]]
  {
  }

  lemma PickLast(queue: seq<RunRequest>, n: nat, a: seq<RunRequest>, kept: seq<nat>)
    requires n < |queue| && |a| == |kept|
    requires forall j :: 0 <= j < |kept| ==> kept[j] < |queue| && a[j] == queue[kept[j]]
    ensures forall j :: 0 <= j < |kept| + 1 ==> (kept + [n])[j] < |queue| && (a + [queue[n]])[j] == queue[(kept + [n])[j]]
  {
  }

  /** The positions in `selected` that are below `n`. */
  function Below(selected: set<nat>, n: nat): (r: set<nat>)
    ensures forall p :: p in r <==> p in selected && p < n
  {
    set p | p in selected && p < n
  }

  lemma {:induction false} KeptCount(selected: set<nat>, n: nat)
    ensures |Kept(selected, n)| + |Below(selected, n)| == n
  {
    if n > 0 {
      KeptCount(selected, n - 1);
      BelowStep(selected, n);
    }
  }

  lemma BelowStep(selected: set<nat>, n: nat)
    requires n > 0
    ensures |Below(selected, n)| == |Below(selected, n - 1)| + (if n - 1 in selected then 1 else 0)
  {
    if n - 1 in selected {
      assert Below(selected, n) == Below(selected, n - 1) + {n - 1};
    } else {
      assert Below(selected, n) == Below(selected, n - 1);
    }
  }

  lemma {:induction false} RemoveNothing(queue: seq<RunRequest>)
    ensures RemoveAt(queue, {}) == queue
    decreases |queue|
  {
    if |queue| > 0 {
      RemoveNothing(queue[..|queue| - 1]);
      assert queue[..|queue| - 1] + [queue[|queue| - 1]] == queue;
    }
  }

  /** `RemoveQueueItemButton_Click`: an empty selection changes nothing;
      otherwise the selected items go. */
  function RemoveSelected(queue: seq<RunRequest>, selected: set<nat>): (r: (seq<RunRequest>, string))
    requires forall p :: p in selected ==> p < |queue|
    ensures |selected| == 0 ==> r == (queue, "No queue items selected.")
    ensures |r.0| + |selected| == |queue| && |r.0| == |Kept(selected, |queue|)|
    ensures forall j :: 0 <= j < |r.0| ==> r.0[j] == queue[Kept(selected, |queue|)[j]]
  {
    RemoveAtKept(queue, selected);
    KeptCount(selected, |queue|);
    assert Below(selected, |queue|) == selected;
    if |selected| == 0 then
      RemoveNothing(queue);
      (queue, "No queue items selected.")
    else
      var message := if |selected| == 1 then "Removed 1 queue item." else "Removed " + FInt(|selected|) + " queue items.";
      (RemoveAt(queue, selected), message)
  }
}

=== FILE: run_io.dfy ===
/** The report writers: the per-grid text report, the tab-separated and
    JSON Lines summaries, and the JSON string escaping they rely on. The
    files are modelled as the lines written to them; the directory creation
    and the stream writing are left to the caller. */
module RunIo {
  import opened Wrappers
  import opened Text
  import opened Numbers
  import opened NumberFormat
  import Stats

  // ------------------------------------------------------------------
  // JSON string escaping (section 7 of RFC 8259)
  // ------------------------------------------------------------------

  /** `char.IsControl`: U+0000 to U+001F and U+007F to U+009F. */
  predicate IsControl(c: char) {
    c <= '\U{1F}' || ('\U{7F}' <= c <= '\U{9F}')
  }

  /** A character `JsonEscape` does not copy as it is. */
  predicate NeedsEscape(c: char) {
    c == '\\' || c == '"' || IsControl(c)
  }

  /** A string `JsonEscape` leaves alone. */
  predicate IsPlain(s: string) {
    forall i :: 0 <= i < |s| ==> !NeedsEscape(s[i])
  }

  /** The escape of one character: the two-character escapes for backslash,
      quote, backspace, form feed, line feed, carriage return and tab,
      `\u` and four upper-case hexadecimal digits for any other control
      character, and the character itself otherwise. */
  function EscapeChar(c: char): (r: string)
    ensures NeedsEscape(c) ==> |r| >= 2 && r[0] == '\\'
    ensures !NeedsEscape(c) ==> r == [c]
    ensures forall i :: 0 <= i < |r| ==> !IsControl(r[i])
  {
    if c == '\\' then "\\\\"
    else if c == '"' then "\\\""
    else if c == '\U{8}' then "\\b"
    else if c == '\U{C}' then "\\f"
    else if c == '\n' then "\\n"
    else if c == '\r' then "\\r"
    else if c == '\t' then "\\t"
    else if IsControl(c) then HexEscape(c)
    else [c]
  }

  /** `\u` and the four-digit upper-case hexadecimal code of a control character. */
  function HexEscape(c: char): (r: string)
    requires IsControl(c)
    ensures |r| == 6 && r[..2] == "\\u" && r[2..] == Hex4(c as int)
    ensures forall i :: 0 <= i < |r| ==> !IsControl(r[i])
  {
    var h := Hex4(c as int);
    assert forall i :: 0 <= i < 4 ==> '0' <= h[i] <= 'F';
    "\\u" + h
  }

  /** `JsonEscape(s)` (null and empty both give ""): the characters' escapes
      in order. The result holds no control character, is `s` itself
      exactly when `s` needs no escaping, and is longer otherwise. */
  function JsonEscape(s: string): (r: string)
    ensures forall i :: 0 <= i < |r| ==> !IsControl(r[i])
    ensures IsPlain(s) ==> r == s
    ensures !IsPlain(s) ==> |r| > |s|
    ensures |r| >= |s|
    decreases |s|
  {
    if |s| == 0 then ""
    else
      var head := EscapeChar(s[0]);
      var tail := JsonEscape(s[1..]);
      assert IsPlain(s) <==> !NeedsEscape(s[0]) && IsPlain(s[1..]) by {
        assert forall i :: 1 <= i < |s| ==> s[i] == s[1..][i - 1];
      }
      assert forall i :: |head| <= i < |head| + |tail| ==> (head + tail)[i] == tail[i - |head|];
      head + tail
  }

  /** The characters a two-character escape stands for. */
  function ShortEscape(c: char): Option<char> {
    if c == '"' then Some('"')
    else if c == '\\' then Some('\\')
    else if c == '/' then Some('/')
    else if c == 'b' then Some('\U{8}')
    else if c == 'f' then Some('\U{C}')
    else if c == 'n' then Some('\n')
    else if c == 'r' then Some('\r')
    else if c == 't' then Some('\t')
    else None
  }

  function Prepend(c: char, r: Option<(string, string)>): Option<(string, string)> {
    match r
    case None => None
    case Some((text, rest)) => Some(([c] + text, rest))
  }

  /** A JSON string reader: decodes the characters of a string literal
      whose opening quote has been consumed, up to its closing quote, and
      gives the decoded text and what follows the closing quote. Raw
      control characters below U+0020, unknown escapes, malformed `\u`
      escapes, surrogate codes and a missing closing quote are errors. */
  function ReadJsonString(s: string): (r: Option<(string, string)>)
    ensures r.Some? ==> |r.value.1| < |s|
    decreases |s|
  {
    if |s| == 0 then None
    else if s[0] == '"' then Some(("", s[1..]))
    else if s[0] == '\\' then
      if |s| < 2 then None
      else if s[1] == 'u' then
        if |s| < 6 then None
        else
          match ParseHex4(s[2..6])
          case None => None
          case Some(n) =>
            if 0xD800 <= n < 0xE000 then None else Prepend(n as char, ReadJsonString(s[6..]))
      else
        match ShortEscape(s[1])
        case None => None
        case Some(c) => Prepend(c, ReadJsonString(s[2..]))
    else if s[0] < ' ' then None
    else Prepend(s[0], ReadJsonString(s[1..]))
  }

  /** A JSON reader decodes the escape of one character back to it. */
  lemma ReadEscapeChar(c: char, t: string)
    ensures ReadJsonString(EscapeChar(c) + t) == Prepend(c, ReadJsonString(t))
  {
    var u := EscapeChar(c) + t;
    if NeedsEscape(c) && IsControl(c) && c !in "\U{8}\U{C}\n\r\t" {
      var h := Hex4(c as int);
      assert u[0] == '\\' && u[1] == 'u';
      assert u[2..6] == h;
      assert u[6..] == t;
      ParseHex4Of(c as int);
    } else if NeedsEscape(c) {
      assert u[2..] == t;
    } else {
      assert u[0] == c && u[1..] == t;
    }
  }

  /** Escaping is undone by a JSON reader: the escaped text followed by a
      closing quote reads back as the original text, for every string. */
  lemma {:induction false} JsonStringRoundTrip(s: string, rest: string)
    ensures ReadJsonString(JsonEscape(s) + "\"" + rest) == Some((s, rest))
    decreases |s|
  {
    if |s| == 0 {
      assert JsonEscape(s) + "\"" + rest == "\"" + rest;
    } else {
      var t := JsonEscape(s[1..]) + "\"" + rest;
      JsonStringRoundTrip(s[1..], rest);
      EscapeCons(s, rest);
      ReadEscapeChar(s[0], t);
      assert [s[0]] + s[1..] == s;
    }
  }

  lemma EscapeCons(s: string, rest: string)
    requires |s| > 0
    ensures JsonEscape(s) + "\"" + rest == EscapeChar(s[0]) + (JsonEscape(s[1..]) + "\"" + rest)
  {
    var head := EscapeChar(s[0]);
    var tail := JsonEscape(s[1..]);
    assert JsonEscape(s) == head + tail;
    Regroup(head, tail, "\"", rest);
  }

  lemma Regroup<T>(a: seq<T>, b: seq<T>, c: seq<T>, d: seq<T>)
    ensures a + b + c + d == a + (b + c + d)
  {
  }

  // ------------------------------------------------------------------
  // Rows and summaries
  // ------------------------------------------------------------------

  /** One replicate of the per-grid report. */
  datatype RowEntry = RowEntry(repId: string, seed: Option<int>, metric: Double, note: string)

  /** One line of the summaries. */
  datatype SummaryRow = SummaryRow(grid: int, stat: string, meanFull: string, stderrFull: string,
                                   n: int, pretty: string)

  /** A written file: its path and its lines. */
  datatype Report = Report(path: string, lines: seq<string>)

  /** The `RowEntry` constructor: a null id or note is stored as "". */
  function NewRowEntry(repId: Option<string>, seed: Option<int>, metric: Double, note: Option<string>): (r: RowEntry)
    ensures repId.None? ==> r.repId == ""
    ensures note.None? ==> r.note == ""
    ensures forall t :: repId == Some(t) ==> r.repId == t
    ensures forall t :: note == Some(t) ==> r.note == t
    ensures r.seed == seed && r.metric == metric
  {
    RowEntry(repId.GetOr(""), seed, metric, note.GetOr(""))
  }

  /** The `SummaryRow` constructor: a null stat is stored as "value", the
      other null strings as "". */
  function NewSummaryRow(grid: int, stat: Option<string>, meanFull: Option<string>, stderrFull: Option<string>,
                         n: int, pretty: Option<string>): (r: SummaryRow)
    ensures stat.None? ==> r.stat == "value"
    ensures meanFull.None? ==> r.meanFull == ""
    ensures stderrFull.None? ==> r.stderrFull == ""
    ensures pretty.None? ==> r.pretty == ""
    ensures forall t :: stat == Some(t) ==> r.stat == t
    ensures forall t :: meanFull == Some(t) ==> r.meanFull == t
    ensures forall t :: stderrFull == Some(t) ==> r.stderrFull == t
    ensures forall t :: pretty == Some(t) ==> r.pretty == t
    ensures r.grid == grid && r.n == n
  {
    SummaryRow(grid, stat.GetOr("value"), meanFull.GetOr(""), stderrFull.GetOr(""), n, pretty.GetOr(""))
  }

  /** The metric column of the rows, in order. */
  function Metrics(rows: seq<RowEntry>): (r: seq<Double>)
    ensures |r| == |rows| && forall i :: 0 <= i < |rows| ==> r[i] == rows[i].metric
  {
    if |rows| == 0 then [] else [rows[0].metric] + Metrics(rows[1..])
  }

  /** `Stats.Compute` over the rows' metrics. */
  function Summarize(sqrt: Stats.Sqrt, rows: seq<RowEntry>): Stats.StatsResult {
    Stats.ToResult(sqrt, Stats.AddAll(Stats.Empty, Metrics(rows)))
  }

  /** The seed column: the invariant digits, or nothing when there is no seed. */
  function SeedText(seed: Option<int>): (r: string)
    ensures seed.None? <==> r == ""
    ensures forall n :: seed == Some(n) && IsInt32(n) ==> ParseInt32(r) == Some(n)
    ensures '\t' !in r
  {
    match seed
    case None => ""
    case Some(n) =>
      assert forall m :: IsInt32(m) ==> ParseInt32(FInt(m)) == Some(m) by {
        forall m | IsInt32(m) ensures ParseInt32(FInt(m)) == Some(m) { ParseFInt(m); }
      }
      FInt(n)
  }

  /** The columns of a replicate's line: id, seed, metric, note. */
  function RowColumns(render: Renderer, row: RowEntry): seq<string> {
    [row.repId, SeedText(row.seed), render.roundTrip(row.metric), row.note]
  }

  /** One replicate line of the per-grid report. */
  function RowLine(render: Renderer, row: RowEntry): string {
    Join(RowColumns(render, row), '\t')
  }

  /** The replicate lines, one per row, in input order. */
  function RowLines(render: Renderer, rows: seq<RowEntry>): (r: seq<string>)
    ensures |r| == |rows| && forall i :: 0 <= i < |rows| ==> r[i] == RowLine(render, rows[i])
  {
    if |rows| == 0 then [] else [RowLine(render, rows[0])] + RowLines(render, rows[1..])
  }

  /** The statistics footer of the per-grid report. */
  function Footer(render: Renderer, sr: Stats.StatsResult): (r: seq<string>)
    ensures |r| == 6
  {
    ["", "n = " + FInt(sr.n),
     "mean = " + render.roundTrip(Finite(sr.mean)),
     "stddev (sample) = " + render.roundTrip(Finite(sr.sampleStdev)),
     "stderr = " + render.roundTrip(Finite(sr.stderr)),
     "95% CI = mean \U{B1} " + render.roundTrip(Finite(sr.ci95))]
  }

  /** The header of the per-grid report. */
  function AggregateHeader(runDir: string, grid: int, now: DateTime): (r: seq<string>)
    requires now.Valid()
    ensures |r| == 6
  {
    ["# Aggregate over replicates (grouped by grid)", "# run: " + runDir,
     "# group (grid): " + FInt(grid), "# generated: " + FTimestamp(now), "",
     "rep\tseed\tmetric\t(note)"]
  }

  /** `WriteAggregateTxt(runDir, grid, rows)` with the clock reading `now`:
      a blank run directory or a null or empty row list is rejected;
      otherwise the report is a six-line header, the replicate lines in
      input order, and the statistics footer of the rows' metrics. */
  function AggregateTxt(render: Renderer, sqrt: Stats.Sqrt, runDir: string, grid: int,
                        rows: Option<seq<RowEntry>>, now: DateTime): (r: Result<Report, string>)
    requires now.Valid()
    ensures r.Ok? <==> !IsBlank(runDir) && rows.Some? && |rows.value| > 0
    ensures IsBlank(runDir) ==> r == Err("runDir is null/empty.")
    ensures !IsBlank(runDir) && (rows.None? || |rows.value| == 0) ==> r == Err("rows is null or empty.")
    ensures r.Ok? ==> |r.value.lines| == |rows.value| + 12
  {
    if IsBlank(runDir) then Err("runDir is null/empty.")
    else if rows.None? || |rows.value| == 0 then Err("rows is null or empty.")
    else
      var rs := rows.value;
      var lines := AggregateHeader(runDir, grid, now) + RowLines(render, rs) + Footer(render, Summarize(sqrt, rs));
      Ok(Report(PathCombine(runDir, "aggregate_grid_" + FInt(grid) + ".txt"), lines))
  }

  /** The per-grid report is laid out as the header, one line per row in
      input order, and the footer of the rows' statistics. */
  lemma AggregateTxtLayout(render: Renderer, sqrt: Stats.Sqrt, runDir: string, grid: int,
                           rows: seq<RowEntry>, now: DateTime)
    requires now.Valid() && !IsBlank(runDir) && |rows| > 0
    ensures var lines := AggregateTxt(render, sqrt, runDir, grid, Some(rows), now).value.lines;
      lines[..6] == AggregateHeader(runDir, grid, now)
      && (forall i :: 0 <= i < |rows| ==> lines[6 + i] == RowLine(render, rows[i]))
      && lines[|rows| + 6..] == Footer(render, Summarize(sqrt, rows))
  {
    var lines := AggregateTxt(render, sqrt, runDir, grid, Some(rows), now).value.lines;
    var body := RowLines(render, rows);
    AggregateLines(render, sqrt, runDir, grid, rows, now);
    LayoutOf(lines, AggregateHeader(runDir, grid, now), body, Footer(render, Summarize(sqrt, rows)));
  }

  /** Where the parts of a report sit: the header, the body, the footer. */
  lemma LayoutOf(lines: seq<string>, head: seq<string>, body: seq<string>, foot: seq<string>)
    requires lines == head + body + foot && |head| == 6
    ensures lines[..6] == head && lines[|body| + 6..] == foot
    ensures forall i :: 0 <= i < |body| ==> lines[6 + i] == body[i]
  {
    ThreeParts(head, body, foot);
  }

  lemma AggregateLines(render: Renderer, sqrt: Stats.Sqrt, runDir: string, grid: int,
                       rows: seq<RowEntry>, now: DateTime)
    requires now.Valid() && !IsBlank(runDir) && |rows| > 0
    ensures AggregateTxt(render, sqrt, runDir, grid, Some(rows), now).value.lines
      == AggregateHeader(runDir, grid, now) + RowLines(render, rows) + Footer(render, Summarize(sqrt, rows))
  {
  }

  /** Where the parts of a three-part concatenation sit. */
  lemma ThreeParts<T>(a: seq<T>, b: seq<T>, c: seq<T>)
    ensures (a + b + c)[..|a|] == a && (a + b + c)[|a| + |b|..] == c
    ensures forall i :: 0 <= i < |b| ==> (a + b + c)[|a| + i] == b[i]
  {
  }

  /** A replicate line splits at its tabs back into its four columns when
      none of them holds a tab, and the seed column reads back as the seed
      (empty when there is none). */
  lemma RowLineColumns(render: Renderer, row: RowEntry)
    requires '\t' !in row.repId && '\t' !in row.note && '\t' !in render.roundTrip(row.metric)
    ensures Split(RowLine(render, row), '\t') == [row.repId, SeedText(row.seed), render.roundTrip(row.metric), row.note]
    ensures row.seed.None? ==> Split(RowLine(render, row), '\t')[1] == ""
    ensures forall n :: row.seed == Some(n) && IsInt32(n) ==> ParseInt32(Split(RowLine(render, row), '\t')[1]) == Some(n)
  {
    SplitJoin(RowColumns(render, row), '\t');
  }

  /** The statistics of the rows are the textbook ones of their finite
      metrics: count, sum and mean. */
  lemma SummarizeExact(sqrt: Stats.Sqrt, rows: seq<RowEntry>)
    ensures var xs := Stats.Finites(Metrics(rows));
            Summarize(sqrt, rows).n == |xs| && Summarize(sqrt, rows).sum == Stats.Sum(xs)
            && Summarize(sqrt, rows).mean == Stats.MeanOf(xs)
  {
    Stats.AddAllRepresents(Metrics(rows));
    Stats.ToResultExact(sqrt, Stats.AddAll(Stats.Empty, Metrics(rows)), Stats.Finites(Metrics(rows)));
  }

  lemma FooterAt(lines: seq<string>, k: nat, render: Renderer, sr: Stats.StatsResult)
    requires k <= |lines| && lines[k..] == Footer(render, sr)
    ensures lines[k + 1] == "n = " + FInt(sr.n)
    ensures lines[k + 2] == "mean = " + render.roundTrip(Finite(sr.mean))
  {
    assert lines[k + 1] == lines[k..][1] && lines[k + 2] == lines[k..][2];
  }

  /** The footer of the per-grid report states the count and the mean of
      the finite metrics. */
  lemma AggregateFooter(render: Renderer, sqrt: Stats.Sqrt, runDir: string, grid: int,
                        rows: seq<RowEntry>, now: DateTime)
    requires now.Valid() && !IsBlank(runDir) && |rows| > 0
    ensures var lines := AggregateTxt(render, sqrt, runDir, grid, Some(rows), now).value.lines;
            var xs := Stats.Finites(Metrics(rows));
            lines[|rows| + 7] == "n = " + FInt(|xs|)
            && lines[|rows| + 8] == "mean = " + render.roundTrip(Finite(Stats.MeanOf(xs)))
  {
    var lines := AggregateTxt(render, sqrt, runDir, grid, Some(rows), now).value.lines;
    var sr := Summarize(sqrt, rows);
    AggregateTxtLayout(render, sqrt, runDir, grid, rows, now);
    FooterAt(lines, |rows| + 6, render, sr);
    SummarizeExact(sqrt, rows);
  }

  // ------------------------------------------------------------------
  // Tab-separated summary
  // ------------------------------------------------------------------

  /** The six columns of a summary line. */
  function TsvFields(row: SummaryRow): seq<string> {
    [FInt(row.grid), row.stat, row.meanFull, row.stderrFull, FInt(row.n), row.pretty]
  }

  /** One summary line: the six columns joined by tabs. */
  function TsvLine(row: SummaryRow): string {
    Join(TsvFields(row), '\t')
  }

  /** The text columns hold no tab and no line break. */
  predicate TsvSafe(row: SummaryRow) {
    '\t' !in row.stat && '\t' !in row.meanFull && '\t' !in row.stderrFull && '\t' !in row.pretty
    && OneLine(row.stat) && OneLine(row.meanFull) && OneLine(row.stderrFull) && OneLine(row.pretty)
  }

  /** A reader for summary lines: six tab-separated columns whose first and
      fifth are integers. */
  function ParseTsvLine(line: string): Option<SummaryRow> {
    var f := Split(line, '\t');
    if |f| != 6 then None
    else
      match (ParseInt32(f[0]), ParseInt32(f[4]))
      case (Some(grid), Some(n)) => Some(SummaryRow(grid, f[1], f[2], f[3], n, f[5]))
      case _ => None
  }

  /** A summary line reads back as its row, its strings copied verbatim. */
  lemma TsvLineRoundTrip(row: SummaryRow)
    requires IsInt32(row.grid) && IsInt32(row.n) && TsvSafe(row)
    ensures ParseTsvLine(TsvLine(row)) == Some(row)
  {
    var f := TsvFields(row);
    assert '\t' !in FInt(row.grid) && '\t' !in FInt(row.n);
    SplitJoin(f, '\t');
    ParseFInt(row.grid);
    ParseFInt(row.n);
  }

  /** Applies a line reader to every line; fails if any line fails. */
  function ParseEach(lines: seq<string>, parse: string -> Option<SummaryRow>): (r: Option<seq<SummaryRow>>)
    ensures r.Some? ==> |r.value| == |lines|
  {
    if |lines| == 0 then Some([])
    else
      match (parse(lines[0]), ParseEach(lines[1..], parse))
      case (Some(row), Some(rest)) => Some([row] + rest)
      case _ => None
  }

  lemma {:induction false} ParseEachOf(lines: seq<string>, parse: string -> Option<SummaryRow>, rows: seq<SummaryRow>)
    requires |lines| == |rows|
    requires forall i :: 0 <= i < |lines| ==> parse(lines[i]) == Some(rows[i])
    ensures ParseEach(lines, parse) == Some(rows)
  {
    if |lines| > 0 {
      ParseEachOf(lines[1..], parse, rows[1..]);
      assert rows == [rows[0]] + rows[1..];
    }
  }

  /** The summary lines of the rows, in input order. */
  function TsvLines(rows: seq<SummaryRow>): (r: seq<string>)
    ensures |r| == |rows| && forall i :: 0 <= i < |rows| ==> r[i] == TsvLine(rows[i])
  {
    if |rows| == 0 then [] else [TsvLine(rows[0])] + TsvLines(rows[1..])
  }

  /** The columns of the summary file, in order. */
  function TsvColumns(): seq<string> {
    ["grid", "stat", "mean_full", "stderr_full", "n", "mean_pm_pretty"]
  }

  /** The header line: the column names joined by tabs. */
  function TsvHeader(): string {
    Join(TsvColumns(), '\t')
  }

  /** `WriteSummaryTsv(runDir, rows)`: a blank run directory or a null row
      list is rejected; otherwise the fixed header and one line per row. */
  function SummaryTsv(runDir: string, rows: Option<seq<SummaryRow>>): (r: Result<Report, string>)
    ensures r.Ok? <==> !IsBlank(runDir) && rows.Some?
    ensures r.Ok? ==> |r.value.lines| == |rows.value| + 1
  {
    if IsBlank(runDir) then Err("runDir is null/empty.")
    else if rows.None? then Err("rows")
    else
      Ok(Report(PathCombine(runDir, "aggregate_summary.tsv"),
                [TsvHeader()] + TsvLines(rows.value)))
  }

  /** A reader for the summary file: the header, then one row per line. */
  function ParseSummaryTsv(lines: seq<string>): Option<seq<SummaryRow>> {
    if |lines| == 0 || lines[0] != TsvHeader() then None
    else ParseEach(lines[1..], ParseTsvLine)
  }

  /** An integer's digits hold no line break. */
  lemma FIntOneLine(n: int)
    ensures OneLine(FInt(n))
  {
    var d := FInt(n);
    assert forall i :: 0 <= i < |d| ==> d[i] == '-' || IsDigit(d[i]);
  }

  /** Joining lines without line breaks by a separator that is not one
      gives a line without line breaks. */
  lemma {:induction false} JoinOneLine(fields: seq<string>, sep: char)
    requires |fields| > 0 && sep != '\n' && sep != '\r'
    requires forall i :: 0 <= i < |fields| ==> OneLine(fields[i])
    ensures OneLine(Join(fields, sep))
    decreases |fields|
  {
    if |fields| > 1 {
      JoinOneLine(fields[1..], sep);
      var rest := Join(fields[1..], sep);
      assert forall c :: c in fields[0] + [sep] + rest ==> c in fields[0] || c == sep || c in rest;
    }
  }

  /** A summary line of a row with safe text columns is one line. */
  lemma TsvLineOneLine(row: SummaryRow)
    requires TsvSafe(row)
    ensures OneLine(TsvLine(row))
  {
    FIntOneLine(row.grid);
    FIntOneLine(row.n);
    JoinOneLine(TsvFields(row), '\t');
  }

  /** The summary file as written reads back line for line. */
  lemma SummaryTsvStored(runDir: string, rows: seq<SummaryRow>)
    requires !IsBlank(runDir)
    requires forall i :: 0 <= i < |rows| ==> TsvSafe(rows[i])
    ensures var lines := SummaryTsv(runDir, Some(rows)).value.lines; Stored(lines) == lines
  {
    TsvLinesOneLine(rows);
    HeaderOneLine();
    StoredHeaded(TsvHeader(), TsvLines(rows));
  }

  lemma TsvLinesOneLine(rows: seq<SummaryRow>)
    requires forall i :: 0 <= i < |rows| ==> TsvSafe(rows[i])
    ensures forall i :: 0 <= i < |rows| ==> OneLine(TsvLines(rows)[i])
  {
    forall i | 0 <= i < |rows| ensures OneLine(TsvLines(rows)[i]) {
      TsvLineOneLine(rows[i]);
    }
  }

  lemma StoredHeaded(header: string, body: seq<string>)
    requires OneLine(header) && forall i :: 0 <= i < |body| ==> OneLine(body[i])
    ensures Stored([header] + body) == [header] + body
  {
    var lines := [header] + body;
    assert lines[0] == header && lines[1..] == body;
    LinePartsOfOneLine(header);
    StoredOneLines(body);
  }

  /** The header is one line. */
  lemma HeaderOneLine()
    ensures OneLine(TsvHeader())
  {
    assert OneLine("grid") && OneLine("stat") && OneLine("mean_full") && OneLine("stderr_full")
      && OneLine("n") && OneLine("mean_pm_pretty");
    JoinOneLine(TsvColumns(), '\t');
  }

  /** The written summary file, read back line by line, gives the rows in
      order. */
  lemma SummaryTsvRoundTrip(runDir: string, rows: seq<SummaryRow>)
    requires !IsBlank(runDir)
    requires forall i :: 0 <= i < |rows| ==> IsInt32(rows[i].grid) && IsInt32(rows[i].n) && TsvSafe(rows[i])
    ensures ParseSummaryTsv(Stored(SummaryTsv(runDir, Some(rows)).value.lines)) == Some(rows)
  {
    var lines := SummaryTsv(runDir, Some(rows)).value.lines;
    forall i | 0 <= i < |rows| ensures ParseTsvLine(lines[1..][i]) == Some(rows[i]) {
      TsvLineRoundTrip(rows[i]);
    }
    ParseEachOf(lines[1..], ParseTsvLine, rows);
    SummaryTsvStored(runDir, rows);
  }

  // ------------------------------------------------------------------
  // JSON Lines summary
  // ------------------------------------------------------------------

  /** A member value of a summary object: a bare integer or a string. */
  datatype JsonValue = JsonInt(n: int) | JsonString(text: string)

  /** The kind of value a member holds. */
  datatype Kind = IntKind | StringKind

  function KindOf(v: JsonValue): Kind {
    if v.JsonInt? then IntKind else StringKind
  }

  /** A value as written: an integer's invariant digits, or its escaped
      text between double quotes. */
  function RenderValue(v: JsonValue): string {
    match v
    case JsonInt(n) => FInt(n)
    case JsonString(t) => "\"" + JsonEscape(t) + "\""
  }

  /** What precedes a member's value: a comma unless it is the first
      member, then the quoted key and a colon. */
  function MemberKey(key: string, first: bool): string {
    (if first then "" else ",") + "\"" + key + "\":"
  }

  /** The members as written, each `"key":value`, all but the first
      preceded by a comma, then the closing brace. */
  function RenderMembers(members: seq<(string, JsonValue)>, first: bool): (r: string)
    ensures |r| > 0
    ensures |members| == 0 ==> r == "}"
    ensures |members| > 0 && !first ==> r[0] == ','
  {
    if |members| == 0 then "}"
    else
      MemberKey(members[0].0, first) + RenderValue(members[0].1) + RenderMembers(members[1..], false)
  }

  /** A one-line JSON object with the members in the given order. */
  function RenderObject(members: seq<(string, JsonValue)>): string {
    "{" + RenderMembers(members, true)
  }

  /** Which key and which kind of value each member has. */
  function ShapeOf(members: seq<(string, JsonValue)>): (r: seq<(string, Kind)>)
    ensures |r| == |members|
    ensures forall i :: 0 <= i < |members| ==> r[i] == (members[i].0, KindOf(members[i].1))
  {
    if |members| == 0 then [] else [(members[0].0, KindOf(members[0].1))] + ShapeOf(members[1..])
  }

  /** The members' values in order. */
  function ValuesOf(members: seq<(string, JsonValue)>): (r: seq<JsonValue>)
    ensures |r| == |members| && forall i :: 0 <= i < |members| ==> r[i] == members[i].1
  {
    if |members| == 0 then [] else [members[0].1] + ValuesOf(members[1..])
  }

  /** `s` without its prefix `p`, if it has it. */
  function DropPrefix(s: string, p: string): (r: Option<string>)
    ensures r.Some? ==> s == p + r.value
  {
    if |p| <= |s| && s[..|p|] == p then
      assert s == s[..|p|] + s[|p|..];
      Some(s[|p|..])
    else None
  }

  lemma DropPrefixOf(p: string, s: string)
    ensures DropPrefix(p + s, p) == Some(s)
  {
    assert (p + s)[..|p|] == p;
  }

  /** An integer up to the next `stop` character, and the text from there. */
  function ReadIntUntil(s: string, stop: char): Option<(int, string)> {
    match IndexOfChar(s, stop)
    case None => None
    case Some(i) =>
      match ParseInt32(s[..i])
      case None => None
      case Some(v) => Some((v, s[i..]))
  }

  lemma ReadIntUntilOf(n: int, stop: char, rest: string)
    requires IsInt32(n) && !IsDigit(stop) && stop != '-'
    requires |rest| > 0 && rest[0] == stop
    ensures ReadIntUntil(FInt(n) + rest, stop) == Some((n, rest))
  {
    var f := FInt(n);
    assert stop !in f;
    assert f + rest == f + [stop] + rest[1..];
    IndexOfCharAfter(f, stop, rest[1..]);
    assert (f + rest)[..|f|] == f;
    assert (f + rest)[|f|..] == rest;
    ParseFInt(n);
  }

  /** Reads a value of the given kind; an integer runs up to `stop`. */
  function ReadValue(s: string, kind: Kind, stop: char): Option<(JsonValue, string)> {
    match kind
    case IntKind =>
      (match ReadIntUntil(s, stop)
       case None => None
       case Some((n, rest)) => Some((JsonInt(n), rest)))
    case StringKind =>
      match DropPrefix(s, "\"")
      case None => None
      case Some(t) =>
        match ReadJsonString(t)
        case None => None
        case Some((text, rest)) => Some((JsonString(text), rest))
  }

  /** A reader for members with exactly the given keys and kinds, in order,
      followed by the closing brace. */
  function ReadMembers(s: string, shape: seq<(string, Kind)>, first: bool): Option<seq<JsonValue>>
    decreases |shape|
  {
    if |shape| == 0 then (if s == "}" then Some([]) else None)
    else
      match DropPrefix(s, MemberKey(shape[0].0, first))
      case None => None
      case Some(t) =>
        match ReadValue(t, shape[0].1, if |shape| == 1 then '}' else ',')
        case None => None
        case Some((v, rest)) =>
          match ReadMembers(rest, shape[1..], false)
          case None => None
          case Some(vs) => Some([v] + vs)
  }

  /** A reader for one-line objects of the given shape. */
  function ReadObject(s: string, shape: seq<(string, Kind)>): Option<seq<JsonValue>> {
    match DropPrefix(s, "{")
    case None => None
    case Some(t) => ReadMembers(t, shape, true)
  }

  predicate IntsInRange(members: seq<(string, JsonValue)>) {
    forall i :: 0 <= i < |members| ==> members[i].1.JsonInt? ==> IsInt32(members[i].1.n)
  }

  lemma ReadValueOf(v: JsonValue, rest: string, stop: char)
    requires v.JsonInt? ==> IsInt32(v.n) && |rest| > 0 && rest[0] == stop && !IsDigit(stop) && stop != '-'
    ensures ReadValue(RenderValue(v) + rest, KindOf(v), stop) == Some((v, rest))
  {
    match v
    case JsonInt(n) =>
      ReadIntUntilOf(n, stop, rest);
    case JsonString(t) =>
      assert RenderValue(v) + rest == "\"" + (JsonEscape(t) + "\"" + rest);
      DropPrefixOf("\"", JsonEscape(t) + "\"" + rest);
      JsonStringRoundTrip(t, rest);
  }

  /** One member read, then the rest. */
  lemma ReadMembersStep(s: string, shape: seq<(string, Kind)>, first: bool,
                        t: string, v: JsonValue, rest: string, vs: seq<JsonValue>)
    requires |shape| > 0
    requires DropPrefix(s, MemberKey(shape[0].0, first)) == Some(t)
    requires ReadValue(t, shape[0].1, if |shape| == 1 then '}' else ',') == Some((v, rest))
    requires ReadMembers(rest, shape[1..], false) == Some(vs)
    ensures ReadMembers(s, shape, first) == Some([v] + vs)
  {
  }

  lemma IntsInRangeTail(members: seq<(string, JsonValue)>)
    requires |members| > 0 && IntsInRange(members)
    ensures IntsInRange(members[1..])
  {
    forall i | 0 <= i < |members[1..]| ensures members[1..][i] == members[i + 1] { }
  }

  /** The first member as written, followed by the rest. */
  lemma RenderMembersCons(members: seq<(string, JsonValue)>, first: bool)
    requires |members| > 0
    ensures RenderMembers(members, first)
            == MemberKey(members[0].0, first) + (RenderValue(members[0].1) + RenderMembers(members[1..], false))
  {
  }

  /** Written members read back as their values, for every list of members
      whose integers are 32-bit. */
  lemma {:induction false} ReadMembersOf(members: seq<(string, JsonValue)>, first: bool)
    requires IntsInRange(members)
    ensures ReadMembers(RenderMembers(members, first), ShapeOf(members), first) == Some(ValuesOf(members))
    decreases |members|
  {
    if |members| > 0 {
      var v := members[0].1;
      var rest := RenderMembers(members[1..], false);
      RenderMembersCons(members, first);
      DropPrefixOf(MemberKey(members[0].0, first), RenderValue(v) + rest);
      ReadValueOf(v, rest, if |members| == 1 then '}' else ',');
      IntsInRangeTail(members);
      ReadMembersOf(members[1..], false);
      ReadMembersStep(RenderMembers(members, first), ShapeOf(members), first,
                      RenderValue(v) + rest, v, rest, ValuesOf(members[1..]));
    }
  }

  /** A written object reads back as its values. */
  lemma ReadObjectOf(members: seq<(string, JsonValue)>)
    requires IntsInRange(members)
    ensures ReadObject(RenderObject(members), ShapeOf(members)) == Some(ValuesOf(members))
  {
    DropPrefixOf("{", RenderMembers(members, true));
    ReadMembersOf(members, true);
  }

  /** The members of a summary object, in the order they are written:
      `grid` and `n` as bare integers, the other four as strings. */
  function JsonlMembers(row: SummaryRow): seq<(string, JsonValue)> {
    [("grid", JsonInt(row.grid)), ("stat", JsonString(row.stat)), ("mean_full", JsonString(row.meanFull)),
     ("stderr_full", JsonString(row.stderrFull)), ("n", JsonInt(row.n)), ("mean_pm_pretty", JsonString(row.pretty))]
  }

  /** One summary object per row. */
  function JsonlLine(row: SummaryRow): string {
    RenderObject(JsonlMembers(row))
  }

  /** The keys and kinds of a summary object. */
  function JsonlShape(): seq<(string, Kind)> {
    [("grid", IntKind), ("stat", StringKind), ("mean_full", StringKind),
     ("stderr_full", StringKind), ("n", IntKind), ("mean_pm_pretty", StringKind)]
  }

  /** A reader for summary objects. */
  function ParseJsonlLine(line: string): Option<SummaryRow> {
    match ReadObject(line, JsonlShape())
    case None => None
    case Some(vs) =>
      if |vs| == 6 && vs[0].JsonInt? && vs[1].JsonString? && vs[2].JsonString? && vs[3].JsonString?
         && vs[4].JsonInt? && vs[5].JsonString?
      then Some(SummaryRow(vs[0].n, vs[1].text, vs[2].text, vs[3].text, vs[4].n, vs[5].text))
      else None
  }

  lemma JsonlShapeOf(row: SummaryRow)
    ensures ShapeOf(JsonlMembers(row)) == JsonlShape()
  {
  }

  lemma JsonlIntsInRange(row: SummaryRow)
    requires IsInt32(row.grid) && IsInt32(row.n)
    ensures IntsInRange(JsonlMembers(row))
  {
  }

  /** A summary object reads back as its row, for every row with 32-bit
      grid and count: the decoded strings are the row's strings exactly. */
  lemma JsonlLineRoundTrip(row: SummaryRow)
    requires IsInt32(row.grid) && IsInt32(row.n)
    ensures ParseJsonlLine(JsonlLine(row)) == Some(row)
  {
    JsonlShapeOf(row);
    JsonlIntsInRange(row);
    ReadObjectOf(JsonlMembers(row));
  }

  /** The summary objects of the rows, in input order. */
  function JsonlLines(rows: seq<SummaryRow>): (r: seq<string>)
    ensures |r| == |rows| && forall i :: 0 <= i < |rows| ==> r[i] == JsonlLine(rows[i])
  {
    seq(|rows|, i requires 0 <= i < |rows| => JsonlLine(rows[i]))
  }

  /** `WriteSummaryJsonl(runDir, rows)`: a blank run directory or a null row
      list is rejected; otherwise one object per row. */
  function SummaryJsonl(runDir: string, rows: Option<seq<SummaryRow>>): (r: Result<Report, string>)
    ensures r.Ok? <==> !IsBlank(runDir) && rows.Some?
    ensures r.Ok? ==> |r.value.lines| == |rows.value|
  {
    if IsBlank(runDir) then Err("runDir is null/empty.")
    else if rows.None? then Err("rows")
    else Ok(Report(PathCombine(runDir, "aggregate_summary.jsonl"), JsonlLines(rows.value)))
  }

  /** Escaping leaves no line break: line feed and carriage return are
      control characters. */
  lemma EscapedOneLine(s: string)
    ensures OneLine(JsonEscape(s))
  {
    var e := JsonEscape(s);
    assert forall i :: 0 <= i < |e| ==> !IsControl(e[i]);
  }

  /** A value is written on one line, whatever its string holds. */
  lemma ValueOneLine(v: JsonValue)
    ensures OneLine(RenderValue(v))
  {
    match v
    case JsonInt(n) => FIntOneLine(n);
    case JsonString(t) => EscapedOneLine(t);
  }

  /** Members with single-line keys are written on one line, whatever
      their string values hold. */
  lemma {:induction false} RenderMembersOneLine(members: seq<(string, JsonValue)>, first: bool)
    requires forall i :: 0 <= i < |members| ==> OneLine(members[i].0)
    ensures OneLine(RenderMembers(members, first))
    decreases |members|
  {
    if |members| > 0 {
      var tail := members[1..];
      assert forall i :: 0 <= i < |tail| ==> tail[i] == members[i + 1];
      RenderMembersOneLine(tail, false);
      assert OneLine(members[0].0);
      ValueOneLine(members[0].1);
    }
  }

  lemma JsonlKeysOneLine(row: SummaryRow)
    ensures forall i :: 0 <= i < |JsonlMembers(row)| ==> OneLine(JsonlMembers(row)[i].0)
  {
  }

  /** Every summary object is one line. */
  lemma JsonlLineOneLine(row: SummaryRow)
    ensures OneLine(JsonlLine(row))
  {
    var members := JsonlMembers(row);
    JsonlKeysOneLine(row);
    RenderMembersOneLine(members, true);
  }

  /** The written JSON Lines file, read back line by line, gives the rows
      in order, whatever line breaks their strings hold. */
  lemma SummaryJsonlRoundTrip(runDir: string, rows: seq<SummaryRow>)
    requires !IsBlank(runDir)
    requires forall i :: 0 <= i < |rows| ==> IsInt32(rows[i].grid) && IsInt32(rows[i].n)
    ensures ParseEach(Stored(SummaryJsonl(runDir, Some(rows)).value.lines), ParseJsonlLine) == Some(rows)
  {
    var lines := SummaryJsonl(runDir, Some(rows)).value.lines;
    forall i | 0 <= i < |rows| ensures ParseJsonlLine(lines[i]) == Some(rows[i]) && OneLine(lines[i]) {
      JsonlLineRoundTrip(rows[i]);
      JsonlLineOneLine(rows[i]);
    }
    ParseEachOf(lines, ParseJsonlLine, rows);
    StoredOneLines(lines);
  }
}

=== FILE: sorting.dfy ===
/** `OrderBy(p => p, StringComparer.OrdinalIgnoreCase)` over a listing:
    a stable insertion sort by a name, compared ignoring case. */
module Sorting {
  import opened Text

  /** The names, taken in order, never decrease. */
  predicate SortedBy<T>(s: seq<T>, key: T -> string) {
    forall i, j :: 0 <= i < j < |s| ==> LeqIgnoreCase(key(s[i]), key(s[j]))
  }

  /** `x` placed after every element whose name is not above its own. */
  function Insert<T>(x: T, s: seq<T>, key: T -> string): (r: seq<T>)
    ensures multiset(r) == multiset(s) + multiset{x}
    decreases |s|
  {
    if |s| == 0 then [x]
    else if LeqIgnoreCase(key(s[0]), key(x)) then
      assert s == [s[0]] + s[1..];
      [s[0]] + Insert(x, s[1..], key)
    else [x] + s
  }

  /** The listing in ascending order of names. */
  function SortBy<T>(s: seq<T>, key: T -> string): (r: seq<T>)
    ensures multiset(r) == multiset(s)
    decreases |s|
  {
    if |s| == 0 then []
    else
      assert s == s[..|s| - 1] + [s[|s| - 1]];
      Insert(s[|s| - 1], SortBy(s[..|s| - 1], key), key)
  }

  /** Inserting into a sorted listing keeps it sorted. */
  lemma {:induction false} InsertSorted<T>(x: T, s: seq<T>, key: T -> string)
    requires SortedBy(s, key)
    ensures SortedBy(Insert(x, s, key), key)
    decreases |s|
  {
    if |s| > 0 {
      var r := Insert(x, s, key);
      if LeqIgnoreCase(key(s[0]), key(x)) {
        var tail := s[1..];
        InsertSorted(x, tail, key);
        var rest := Insert(x, tail, key);
        forall j | 0 <= j < |rest| ensures LeqIgnoreCase(key(s[0]), key(rest[j])) {
          assert rest[j] in multiset(rest);
          if rest[j] != x {
            assert rest[j] in multiset(tail);
            var k :| 0 <= k < |tail| && tail[k] == rest[j];
            assert tail[k] == s[k + 1];
          }
        }
        assert r == [s[0]] + rest;
      } else {
        LeqIgnoreCaseTotal(key(s[0]), key(x));
        forall j | 0 <= j < |s| ensures LeqIgnoreCase(key(x), key(s[j])) {
          if j > 0 {
            LeqIgnoreCaseTransitive(key(x), key(s[0]), key(s[j]));
          }
        }
      }
    }
  }

  /** The sorted listing is in ascending order of names. */
  lemma {:induction false} SortBySorted<T>(s: seq<T>, key: T -> string)
    ensures SortedBy(SortBy(s, key), key)
    decreases |s|
  {
    if |s| > 0 {
      SortBySorted(s[..|s| - 1], key);
      InsertSorted(s[|s| - 1], SortBy(s[..|s| - 1], key), key);
    }
  }

  /** Sorting keeps the number of elements. */
  lemma SortByLength<T>(s: seq<T>, key: T -> string)
    ensures |SortBy(s, key)| == |s|
  {
    assert |multiset(SortBy(s, key))| == |multiset(s)|;
  }

  /** Every element of the sorted listing is an element of the listing. */
  lemma SortByFrom<T>(s: seq<T>, key: T -> string, i: nat)
    requires i < |SortBy(s, key)|
    ensures exists j :: 0 <= j < |s| && s[j] == SortBy(s, key)[i]
  {
    var r := SortBy(s, key);
    assert r[i] in multiset(r);
    assert r[i] in multiset(s);
  }
}

=== FILE: stats.dfy ===
/** Welford's streaming statistics: an accumulator of count, sum, mean and
    the sum of squared deviations (`m2`), the merge of two accumulators, and
    the derived summary (mean, sample variance, standard deviation,
    standard error, 95% half-width). Arithmetic is over exact reals, so the
    algebraic invariants of the algorithm can be stated exactly; the square
    root is a parameter. */
module Stats {
  import opened NumberFormat

  /** The mutable state of `Stats.Accumulator`. */
  datatype Accumulator = Accumulator(n: nat, sum: real, mean: real, m2: real)

  /** A freshly constructed accumulator. */
  const Empty := Accumulator(0, 0.0, 0.0, 0.0)

  /** Sum of a sequence (folded from the right end). */
  function Sum(xs: seq<real>): real {
    if |xs| == 0 then 0.0 else Sum(xs[..|xs| - 1]) + xs[|xs| - 1]
  }

  /** Sum of squares. */
  function SumSq(xs: seq<real>): real {
    if |xs| == 0 then 0.0 else SumSq(xs[..|xs| - 1]) + xs[|xs| - 1] * xs[|xs| - 1]
  }

  /** Arithmetic mean, 0 for no samples. */
  function MeanOf(xs: seq<real>): real {
    if |xs| == 0 then 0.0 else Sum(xs) / (|xs| as real)
  }

  /** Sum of squared deviations from `c`. */
  function SqDev(xs: seq<real>, c: real): real {
    if |xs| == 0 then 0.0 else SqDev(xs[..|xs| - 1], c) + (xs[|xs| - 1] - c) * (xs[|xs| - 1] - c)
  }

  /** The finite samples of `vs`, in order: what `Add` keeps by default. */
  function Finites(vs: seq<Double>): (r: seq<real>)
    ensures |r| <= |vs|
  {
    if |vs| == 0 then []
    else if vs[|vs| - 1].Finite? then Finites(vs[..|vs| - 1]) + [vs[|vs| - 1].value]
    else Finites(vs[..|vs| - 1])
  }

  /** `acc` is the exact Welford state of `n` samples whose sum is `s` and
      whose sum of squares is `q`: `n·mean = s` (mean 0 when empty) and
      `m2 = q − s·mean`. */
  predicate Exact(acc: Accumulator, n: nat, s: real, q: real) {
    acc.n == n && acc.sum == s && acc.mean * (n as real) == s && (n == 0 ==> acc.mean == 0.0)
    && acc.m2 == q - s * acc.mean
  }

  /** `acc` is exactly the Welford state of the samples `xs`. */
  predicate Represents(acc: Accumulator, xs: seq<real>) {
    Exact(acc, |xs|, Sum(xs), SumSq(xs))
  }

  /** `Add(value)` with the default `skipNonFinite = true`: a non-finite
      value is ignored, a finite one is counted, summed and folded into the
      running mean and `m2` by Welford's update. */
  function Add(acc: Accumulator, v: Double): (r: Accumulator)
    ensures !v.Finite? ==> r == acc
    ensures v.Finite? ==> r.n == acc.n + 1 && r.sum == acc.sum + v.value
    ensures v.Finite? ==> r.mean * (r.n as real) == acc.mean * (acc.n as real) + v.value
  {
    if !v.Finite? then acc
    else
      var x := v.value;
      var n := acc.n + 1;
      var delta := x - acc.mean;
      var mean := acc.mean + delta / (n as real);
      var delta2 := x - mean;
      Accumulator(n, acc.sum + x, mean, acc.m2 + delta * delta2)
  }

  /** `AddRange(values)`: `Add` of each value in order. */
  function AddAll(acc: Accumulator, vs: seq<Double>): (r: Accumulator)
    ensures r.n == acc.n + |Finites(vs)| && r.sum == acc.sum + Sum(Finites(vs))
  {
    if |vs| == 0 then acc
    else
      var init := vs[..|vs| - 1];
      assert vs[|vs| - 1].Finite? ==> (Finites(init) + [vs[|vs| - 1].value])[..|Finites(init)|] == Finites(init);
      Add(AddAll(acc, init), vs[|vs| - 1])
  }

  /** The empty sample set is represented by a fresh accumulator. */
  lemma EmptyRepresents()
    ensures Represents(Empty, [])
  {
  }

  /** Two accumulators representing the same samples are equal. */
  lemma RepresentsUnique(a: Accumulator, b: Accumulator, xs: seq<real>)
    requires Represents(a, xs) && Represents(b, xs)
    ensures a == b
  {
  }

  /** The two fields Welford's update computes for a finite `x`. */
  lemma AddFields(acc: Accumulator, x: real)
    ensures Add(acc, Finite(x)).mean == acc.mean + (x - acc.mean) / ((acc.n + 1) as real)
    ensures Add(acc, Finite(x)).m2 == acc.m2 + (x - acc.mean) * (x - Add(acc, Finite(x)).mean)
  {
  }

  /** Welford's update on exact summaries: from `n` samples with sum `s`,
      sum of squares `q`, mean `m` and `m2`, adding `x` gives mean `m'` and
      `m2'` that are exact for the `n + 1` samples. */
  lemma WelfordAlgebra(n: real, s: real, q: real, m: real, m2: real, x: real, m': real, m2': real)
    requires n >= 0.0 && m * n == s && m2 == q - s * m
    requires m' == m + (x - m) / (n + 1.0)
    requires m2' == m2 + (x - m) * (x - m')
    ensures m' * (n + 1.0) == s + x
    ensures m2' == (q + x * x) - (s + x) * m'
  {
    assert m' * (n + 1.0) == m * (n + 1.0) + (x - m);
    assert m * m' * n + m * m' - m * x == m * (m' * (n + 1.0) - x);
  }

  /** `Add` of a finite value keeps an exact accumulator exact. */
  lemma AddExact(acc: Accumulator, n: nat, s: real, q: real, x: real)
    requires Exact(acc, n, s, q)
    ensures Exact(Add(acc, Finite(x)), n + 1, s + x, q + x * x)
  {
    var r := Add(acc, Finite(x));
    AddFields(acc, x);
    WelfordAlgebra(acc.n as real, s, q, acc.mean, acc.m2, x, r.mean, r.m2);
  }

  /** One Welford step keeps the accumulator exact. */
  lemma AddStep(acc: Accumulator, xs: seq<real>, x: real)
    requires Represents(acc, xs)
    ensures Represents(Add(acc, Finite(x)), xs + [x])
  {
    var ys := xs + [x];
    assert ys[..|ys| - 1] == xs;
    AddExact(acc, |xs|, Sum(xs), SumSq(xs), x);
  }

  /** After feeding `vs` to a fresh accumulator it holds exactly the
      count, sum, mean and `m2` of the finite values of `vs`. */
  lemma {:induction false} AddAllRepresents(vs: seq<Double>)
    ensures Represents(AddAll(Empty, vs), Finites(vs))
  {
    if |vs| > 0 {
      var init := vs[..|vs| - 1];
      AddAllRepresents(init);
      if vs[|vs| - 1].Finite? {
        AddStep(AddAll(Empty, init), Finites(init), vs[|vs| - 1].value);
      }
    }
  }

  /** Expanding the squared deviations: Σ(x−c)² = Σx² − 2cΣx + n·c². */
  lemma {:induction false} SqDevExpand(xs: seq<real>, c: real)
    ensures SqDev(xs, c) == SumSq(xs) - 2.0 * c * Sum(xs) + (|xs| as real) * c * c
  {
    if |xs| > 0 {
      SqDevExpand(xs[..|xs| - 1], c);
    }
  }

  /** The `m2` of an exact accumulator is the sum of squared deviations
      from its mean. */
  lemma M2IsSqDev(acc: Accumulator, xs: seq<real>)
    requires Represents(acc, xs)
    ensures acc.m2 == SqDev(xs, acc.mean)
    ensures acc.m2 >= 0.0
  {
    if |xs| > 0 {
      SqDevExpand(xs, acc.mean);
      M2Centered(acc, xs, |xs|, Sum(xs), SumSq(xs), SqDev(xs, acc.mean));
    }
    SqDevNonNegative(xs, acc.mean);
  }

  lemma M2Centered(acc: Accumulator, xs: seq<real>, n: nat, s: real, q: real, d: real)
    requires n == |xs| && s == Sum(xs) && q == SumSq(xs) && d == SqDev(xs, acc.mean)
    requires Exact(acc, n, s, q) && n > 0
    requires d == q - 2.0 * acc.mean * s + (n as real) * acc.mean * acc.mean
    ensures acc.m2 == SqDev(xs, acc.mean)
  {
    CenteredSquares(n as real, s, q, acc.mean, d);
  }

  /** Σ(x−mean)² = Σx² − Σx·mean when mean = Σx/n. */
  lemma CenteredSquares(n: real, s: real, q: real, c: real, d: real)
    requires n > 0.0 && c == s / n && d == q - 2.0 * c * s + n * c * c
    ensures d == q - s * c
  {
    assert s == n * c;
  }

  lemma {:induction false} SqDevNonNegative(xs: seq<real>, c: real)
    ensures SqDev(xs, c) >= 0.0
  {
    if |xs| > 0 {
      var d := xs[|xs| - 1] - c;
      assert d * d >= 0.0;
      SqDevNonNegative(xs[..|xs| - 1], c);
    }
  }

  /** `Merge(other)`: nothing to do when `other` is empty, a copy when this
      accumulator is empty, otherwise Chan's pairwise combination. */
  function Merge(a: Accumulator, b: Accumulator): (r: Accumulator)
    ensures b.n == 0 ==> r == a
    ensures a.n == 0 && b.n > 0 ==> r == b
    ensures r.n == a.n + b.n && (a.n > 0 && b.n > 0 ==> r.sum == a.sum + b.sum)
  {
    if b.n == 0 then a
    else if a.n == 0 then b
    else
      var delta := b.mean - a.mean;
      var n := a.n + b.n;
      Accumulator(n, a.sum + b.sum,
                  a.mean + delta * (b.n as real) / (n as real),
                  a.m2 + b.m2 + delta * delta * (a.n as real) * (b.n as real) / (n as real))
  }

  lemma {:induction false} SumAppend(xs: seq<real>, ys: seq<real>)
    ensures Sum(xs + ys) == Sum(xs) + Sum(ys)
    ensures SumSq(xs + ys) == SumSq(xs) + SumSq(ys)
  {
    if |ys| == 0 {
      assert xs + ys == xs;
    } else {
      assert (xs + ys)[..|xs + ys| - 1] == xs + ys[..|ys| - 1];
      SumAppend(xs, ys[..|ys| - 1]);
    }
  }

  /** The identity behind Chan's update:
      n·(nA·mA² + nB·mB²) − (nA·mA + nB·mB)² = nA·nB·(mA − mB)². */
  lemma MergeIdentity(na: real, nb: real, ma: real, mb: real)
    ensures (na + nb) * (na * ma * ma + nb * mb * mb) - (na * ma + nb * mb) * (na * ma + nb * mb)
            == na * nb * (mb - ma) * (mb - ma)
  {
  }

  /** The two fields `Merge` computes for two non-empty accumulators. */
  lemma MergeFields(a: Accumulator, b: Accumulator)
    requires a.n > 0 && b.n > 0
    ensures Merge(a, b).n == a.n + b.n && Merge(a, b).sum == a.sum + b.sum
    ensures Merge(a, b).mean == a.mean + (b.mean - a.mean) * (b.n as real) / ((a.n + b.n) as real)
    ensures Merge(a, b).m2 == a.m2 + b.m2 + (b.mean - a.mean) * (b.mean - a.mean) * (a.n as real) * (b.n as real) / ((a.n + b.n) as real)
  {
  }

  /** Chan's update on two non-empty exact summaries (counts `na`, `nb`,
      sums `sa`, `sb`, sums of squares `qa`, `qb`, means `ma`, `mb`) gives
      a mean and `m2` that are exact for the pooled samples. */
  lemma MergeAlgebra(na: real, nb: real, n: real, sa: real, sb: real, qa: real, qb: real,
                     ma: real, mb: real, m2a: real, m2b: real, mean: real, m2: real)
    requires na > 0.0 && nb > 0.0 && n == na + nb
    requires ma * na == sa && mb * nb == sb
    requires m2a == qa - sa * ma && m2b == qb - sb * mb
    requires mean == ma + (mb - ma) * nb / n
    requires m2 == m2a + m2b + (mb - ma) * (mb - ma) * na * nb / n
    ensures mean * n == sa + sb
    ensures m2 == (qa + qb) - (sa + sb) * mean
  {
    var s := na * ma + nb * mb;
    assert mean * n == s;
    var k := (mb - ma) * (mb - ma) * na * nb;
    MergeIdentity(na, nb, ma, mb);
    assert k == n * (na * ma * ma + nb * mb * mb) - s * s;
    assert k / n == (na * ma * ma + nb * mb * mb) - s * mean;
  }

  /** Merging two exact accumulators gives the exact accumulator of the
      concatenated samples. */
  lemma MergeRepresents(a: Accumulator, xs: seq<real>, b: Accumulator, ys: seq<real>)
    requires Represents(a, xs) && Represents(b, ys)
    ensures Represents(Merge(a, b), xs + ys)
  {
    var zs := xs + ys;
    if |ys| == 0 {
      assert zs == xs;
    } else if |xs| == 0 {
      assert zs == ys;
    } else {
      SumAppend(xs, ys);
      MergeExact(a, b, Sum(xs), Sum(ys), SumSq(xs), SumSq(ys));
    }
  }

  /** `Merge` on two non-empty exact summaries is the exact summary of the
      pooled samples. */
  lemma MergeExact(a: Accumulator, b: Accumulator, sa: real, sb: real, qa: real, qb: real)
    requires a.n > 0 && b.n > 0 && Exact(a, a.n, sa, qa) && Exact(b, b.n, sb, qb)
    ensures Exact(Merge(a, b), a.n + b.n, sa + sb, qa + qb)
  {
    MergeFields(a, b);
    ChanExact(a, b, sa, sb, qa, qb, Merge(a, b));
  }

  /** An accumulator `r` built from `a` and `b` by Chan's formulas is exact
      for the pooled samples. */
  lemma ChanExact(a: Accumulator, b: Accumulator, sa: real, sb: real, qa: real, qb: real, r: Accumulator)
    requires a.n > 0 && b.n > 0 && Exact(a, a.n, sa, qa) && Exact(b, b.n, sb, qb)
    requires r.n == a.n + b.n && r.sum == sa + sb
    requires r.mean == a.mean + (b.mean - a.mean) * (b.n as real) / ((a.n + b.n) as real)
    requires r.m2 == a.m2 + b.m2 + (b.mean - a.mean) * (b.mean - a.mean) * (a.n as real) * (b.n as real) / ((a.n + b.n) as real)
    ensures Exact(r, a.n + b.n, sa + sb, qa + qb)
  {
    MergeAlgebra(a.n as real, b.n as real, (a.n + b.n) as real, sa, sb, qa, qb,
                 a.mean, b.mean, a.m2, b.m2, r.mean, r.m2);
  }

  /** `Merge` has "the same semantics as adding all of its samples": on
      exact accumulators it equals feeding `b`'s samples to `a` one by one. */
  lemma MergeIsSequentialAdd(a: Accumulator, xs: seq<real>, vs: seq<Double>)
    requires Represents(a, xs)
    ensures Merge(a, AddAll(Empty, vs)) == AddAll(a, vs)
  {
    AddAllRepresents(vs);
    MergeRepresents(a, xs, AddAll(Empty, vs), Finites(vs));
    AddAllFrom(a, xs, vs);
    RepresentsUnique(Merge(a, AddAll(Empty, vs)), AddAll(a, vs), xs + Finites(vs));
  }

  /** Feeding `vs` to an exact accumulator of `xs` gives the exact
      accumulator of `xs` followed by the finite values of `vs`. */
  lemma {:induction false} AddAllFrom(a: Accumulator, xs: seq<real>, vs: seq<Double>)
    requires Represents(a, xs)
    ensures Represents(AddAll(a, vs), xs + Finites(vs))
  {
    if |vs| == 0 {
      assert xs + Finites(vs) == xs;
    } else {
      var init := vs[..|vs| - 1];
      AddAllFrom(a, xs, init);
      if vs[|vs| - 1].Finite? {
        AddStep(AddAll(a, init), xs + Finites(init), vs[|vs| - 1].value);
        assert xs + Finites(init) + [vs[|vs| - 1].value] == xs + Finites(vs);
      }
    }
  }

  /** A square-root function: positive on positive arguments and zero at 0
      (`Math.Sqrt` on the values the statistics feed it). */
  type Sqrt = f: real -> real | f(0.0) == 0.0 && forall x :: 0.0 < x ==> 0.0 < f(x)
    witness (x: real) => x

  /** `StatsResult`: the immutable summary. */
  datatype StatsResult = StatsResult(n: int, sum: real, mean: real, sampleVariance: real,
                                     sampleStdev: real, stderr: real, ci95: real)

  /** The `StatsResult` constructor: everything beyond the mean is zero
      unless there are at least two samples; the half-width is 1.96
      standard errors. */
  function MakeResult(sqrt: Sqrt, n: int, sum: real, mean: real, sampleVar: real): (r: StatsResult)
    ensures r.n == n && r.sum == sum && r.mean == mean
    ensures n <= 1 ==> r.sampleVariance == 0.0 && r.sampleStdev == 0.0 && r.stderr == 0.0
    ensures n > 1 ==> r.sampleVariance == sampleVar
    ensures sampleVar >= 0.0 ==> r.sampleStdev >= 0.0 && r.stderr >= 0.0 && r.ci95 >= 0.0
    ensures r.ci95 == 1.96 * r.stderr
  {
    var variance := if n > 1 then sampleVar else 0.0;
    var stdev := if n > 1 then sqrt(variance) else 0.0;
    var stderr := if n > 1 then stdev / sqrt(n as real) else 0.0;
    StatsResult(n, sum, mean, variance, stdev, stderr, 1.96 * stderr)
  }

  /** The accumulator's `Mean` accessor: 0 until a sample arrives. */
  function MeanValue(acc: Accumulator): real {
    if acc.n > 0 then acc.mean else 0.0
  }

  /** The accumulator's `SampleVariance` accessor: `m2/(n−1)`, 0 below two samples. */
  function SampleVariance(acc: Accumulator): real {
    if acc.n > 1 then acc.m2 / ((acc.n - 1) as real) else 0.0
  }

  /** `ToResult()`. */
  function ToResult(sqrt: Sqrt, acc: Accumulator): (r: StatsResult)
    ensures r.n == acc.n && r.sum == acc.sum
    ensures r.mean == if acc.n > 0 then acc.mean else 0.0
    ensures acc.n > 1 ==> r.sampleVariance == acc.m2 / ((acc.n - 1) as real)
    ensures acc.n <= 1 ==> r.sampleVariance == 0.0 && r.stderr == 0.0
  {
    MakeResult(sqrt, acc.n, acc.sum, MeanValue(acc), SampleVariance(acc))
  }

  /** The mean an exact accumulator holds is the mean of its samples. */
  lemma MeanExact(acc: Accumulator, xs: seq<real>)
    requires Represents(acc, xs)
    ensures MeanValue(acc) == MeanOf(xs)
  {
    if |xs| > 0 {
      Quotient(acc.mean, |xs| as real, Sum(xs));
    }
  }

  /** `m · n = s` with `n > 0` means `m = s / n`. */
  lemma Quotient(m: real, n: real, s: real)
    requires n > 0.0 && m * n == s
    ensures m == s / n
  {
  }

  /** The variance an exact accumulator reports is the unbiased sample
      variance Σ(x−mean)²/(n−1) of its samples (0 below two samples), and
      is never negative. */
  lemma VarianceExact(acc: Accumulator, xs: seq<real>)
    requires Represents(acc, xs)
    ensures |xs| > 1 ==> SampleVariance(acc) == SqDev(xs, MeanOf(xs)) / ((|xs| - 1) as real)
    ensures SampleVariance(acc) >= 0.0
  {
    M2IsSqDev(acc, xs);
    MeanExact(acc, xs);
    if |xs| > 1 {
      NonNegativeQuotient(acc.m2, (acc.n - 1) as real);
    }
  }

  lemma NonNegativeQuotient(a: real, b: real)
    requires a >= 0.0 && b > 0.0
    ensures a / b >= 0.0
  {
  }

  /** The summary of an exact accumulator is the textbook one: mean of the
      samples, unbiased variance Σ(x−mean)²/(n−1), never negative. */
  lemma ToResultExact(sqrt: Sqrt, acc: Accumulator, xs: seq<real>)
    requires Represents(acc, xs)
    ensures ToResult(sqrt, acc).n == |xs| && ToResult(sqrt, acc).sum == Sum(xs)
    ensures ToResult(sqrt, acc).mean == MeanOf(xs)
    ensures |xs| > 1 ==> ToResult(sqrt, acc).sampleVariance == SqDev(xs, MeanOf(xs)) / ((|xs| - 1) as real)
    ensures ToResult(sqrt, acc).sampleVariance >= 0.0 && ToResult(sqrt, acc).ci95 >= 0.0
  {
    MeanExact(acc, xs);
    VarianceExact(acc, xs);
  }

  /** `Compute(values)`: a fresh accumulator fed the values in list order,
      finalised. The result summarises exactly the finite values. */
  method Compute(sqrt: Sqrt, values: seq<Double>) returns (r: StatsResult)
    ensures r == ToResult(sqrt, AddAll(Empty, values))
    ensures r.n == |Finites(values)| && r.sum == Sum(Finites(values))
    ensures r.mean == MeanOf(Finites(values))
    ensures r.n > 1 ==> r.sampleVariance == SqDev(Finites(values), MeanOf(Finites(values))) / ((r.n - 1) as real)
    ensures r.sampleVariance >= 0.0 && r.ci95 >= 0.0
  {
    var acc := Empty;
    var i := 0;
    while i < |values|
      invariant 0 <= i <= |values|
      invariant acc == AddAll(Empty, values[..i])
    {
      assert values[..i + 1][..i] == values[..i];
      acc := Add(acc, values[i]);
      i := i + 1;
    }
    assert values[..i] == values;
    AddAllRepresents(values);
    ToResultExact(sqrt, acc, Finites(values));
    r := ToResult(sqrt, acc);
  }
}

=== FILE: text.dfy ===
/** Character classes and string helpers with the semantics of the .NET text
    APIs the modelled code calls: `char.IsWhiteSpace`, `string.Trim`,
    `string.IsNullOrWhiteSpace`, ordinal-ignore-case comparison, `IndexOf`,
    `Split` and `Path.Combine`. Case folding is modelled on ASCII letters. */
module Text {
  import opened Wrappers

  /** What reading a text file line by line gives: no such file, a read
      that throws, or all of its lines. */
  datatype TextFile = Absent | Unreadable | Readable(lines: seq<string>)

  /** A line as a line reader returns it: no carriage return, no line feed. */
  predicate OneLine(s: string) {
    '\n' !in s && '\r' !in s
  }

  /** A file as read line by line: when it could be read, no line holds a
      line break. */
  predicate AsRead(file: TextFile) {
    file.Readable? ==> forall i :: 0 <= i < |file.lines| ==> OneLine(file.lines[i])
  }

  /** The lines a reader gets back from one written line `s` followed by
      the `CR LF` the writer appends: `s` is cut at every `CR LF`, lone
      `CR` and lone `LF`. */
  function LineParts(s: string): (r: seq<string>)
    ensures |r| >= 1
    decreases |s|
  {
    if |s| == 0 then [""]
    else if s[0] == '\n' then [""] + LineParts(s[1..])
    else if s[0] == '\r' then
      if |s| > 1 && s[1] == '\n' then [""] + LineParts(s[2..]) else [""] + LineParts(s[1..])
    else
      var rest := LineParts(s[1..]);
      [[s[0]] + rest[0]] + rest[1..]
  }

  /** `File.WriteAllLines` followed by `File.ReadAllLines`: the lines a
      later read of the written file returns. */
  function Stored(lines: seq<string>): (r: seq<string>)
    ensures |r| >= |lines|
  {
    if |lines| == 0 then [] else LineParts(lines[0]) + Stored(lines[1..])
  }

  /** A line without a line break reads back as itself. */
  lemma {:induction false} LinePartsOfOneLine(s: string)
    requires OneLine(s)
    ensures LineParts(s) == [s]
    decreases |s|
  {
    if |s| > 0 {
      assert s[0] in s;
      assert forall c :: c in s[1..] ==> c in s;
      LinePartsOfOneLine(s[1..]);
      assert [s[0]] + s[1..] == s;
    }
  }

  /** A line with a line break reads back as two or more lines. */
  lemma {:induction false} LinePartsOfBreak(s: string)
    requires !OneLine(s)
    ensures |LineParts(s)| >= 2
    decreases |s|
  {
    if s[0] != '\n' && s[0] != '\r' {
      assert forall c :: c in s ==> c == s[0] || c in s[1..];
      LinePartsOfBreak(s[1..]);
    }
  }

  /** Lines without line breaks are read back exactly as written. */
  lemma {:induction false} StoredOneLines(lines: seq<string>)
    requires forall i :: 0 <= i < |lines| ==> OneLine(lines[i])
    ensures Stored(lines) == lines
    decreases |lines|
  {
    if |lines| > 0 {
      LinePartsOfOneLine(lines[0]);
      StoredOneLines(lines[1..]);
      assert lines == [lines[0]] + lines[1..];
    }
  }

  /** A written line holding a line break comes back as more lines than
      were written. */
  lemma {:induction false} StoredSplits(lines: seq<string>, k: nat)
    requires k < |lines| && !OneLine(lines[k])
    ensures |Stored(lines)| > |lines|
    decreases |lines|
  {
    if k == 0 {
      LinePartsOfBreak(lines[0]);
    } else {
      StoredSplits(lines[1..], k - 1);
    }
  }

  /** `char.IsWhiteSpace`; also the set trimmed by `string.Trim()` and the
      regular-expression class `\s` (tab to carriage return, space, NEL and
      the Unicode space, line and paragraph separators). */
  predicate IsWhiteSpace(c: char) {
    c == ' ' || ('\t' <= c <= '\r') || c == '\U{0085}' || c == '\U{00A0}'
    || c == '\U{1680}' || ('\U{2000}' <= c <= '\U{200A}') || c == '\U{2028}'
    || c == '\U{2029}' || c == '\U{202F}' || c == '\U{205F}' || c == '\U{3000}'
  }

  /** `string.IsNullOrWhiteSpace` for a non-null string. */
  predicate IsBlank(s: string) {
    forall i :: 0 <= i < |s| ==> IsWhiteSpace(s[i])
  }

  /** `string.TrimStart()`. */
  function TrimStart(s: string): (r: string)
    ensures |r| <= |s| && r == s[|s| - |r|..]
    ensures forall i :: 0 <= i < |s| - |r| ==> IsWhiteSpace(s[i])
    ensures |r| > 0 ==> !IsWhiteSpace(r[0])
    decreases |s|
  {
    if |s| > 0 && IsWhiteSpace(s[0]) then TrimStart(s[1..]) else s
  }

  /** `string.TrimEnd()`. */
  function TrimEnd(s: string): (r: string)
    ensures |r| <= |s| && r == s[..|r|]
    ensures forall i :: |r| <= i < |s| ==> IsWhiteSpace(s[i])
    ensures |r| > 0 ==> !IsWhiteSpace(r[|r| - 1])
    decreases |s|
  {
    if |s| > 0 && IsWhiteSpace(s[|s| - 1]) then TrimEnd(s[..|s| - 1]) else s
  }

  /** `string.Trim()`. */
  function Trim(s: string): (r: string)
    ensures |r| <= |s|
    ensures |r| > 0 ==> !IsWhiteSpace(r[0]) && !IsWhiteSpace(r[|r| - 1])
    ensures |r| == 0 <==> IsBlank(s)
  {
    TrimEnd(TrimStart(s))
  }

  lemma TrimOfTrimmed(s: string)
    requires |s| > 0 ==> !IsWhiteSpace(s[0]) && !IsWhiteSpace(s[|s| - 1])
    ensures Trim(s) == s
  {
  }

  lemma TrimIdempotent(s: string)
    ensures Trim(Trim(s)) == Trim(s)
  {
    TrimOfTrimmed(Trim(s));
  }

  /** Leading white space never survives `TrimStart`. */
  lemma TrimStartSkipsBlank(w: string, s: string)
    requires IsBlank(w)
    ensures TrimStart(w + s) == TrimStart(s)
    decreases |w|
  {
    if |w| > 0 {
      assert (w + s)[0] == w[0];
      assert (w + s)[1..] == w[1..] + s;
      TrimStartSkipsBlank(w[1..], s);
    } else {
      assert w + s == s;
    }
  }

  /** Trailing white space never survives `TrimEnd`. */
  lemma TrimEndSkipsBlank(s: string, w: string)
    requires IsBlank(w)
    ensures TrimEnd(s + w) == TrimEnd(s)
    decreases |w|
  {
    if |w| > 0 {
      assert (s + w)[|s + w| - 1] == w[|w| - 1];
      assert (s + w)[..|s + w| - 1] == s + w[..|w| - 1];
      TrimEndSkipsBlank(s, w[..|w| - 1]);
    } else {
      assert s + w == s;
    }
  }

  /** `TrimStart` stops at the first non-white character. */
  lemma TrimStartStops(a: string, b: string)
    requires |a| > 0 && !IsWhiteSpace(a[0])
    ensures TrimStart(a + b) == a + b
  {
    assert (a + b)[0] == a[0];
  }

  /** `TrimEnd` stops at the last non-white character. */
  lemma TrimEndStops(a: string, b: string)
    requires |b| > 0 && !IsWhiteSpace(b[|b| - 1])
    ensures TrimEnd(a + b) == a + b
  {
    assert (a + b)[|a + b| - 1] == b[|b| - 1];
  }

  /** `TrimEnd` only touches the part after a non-white prefix. */
  lemma TrimEndAfter(a: string, b: string)
    requires |a| > 0 && !IsWhiteSpace(a[|a| - 1])
    ensures TrimEnd(a + b) == a + TrimEnd(b)
    decreases |b|
  {
    if |b| > 0 && IsWhiteSpace(b[|b| - 1]) {
      assert (a + b)[..|a + b| - 1] == a + b[..|b| - 1];
      TrimEndAfter(a, b[..|b| - 1]);
    } else if |b| > 0 {
      TrimEndStops(a, b);
    } else {
      assert a + b == a;
    }
  }

  /** A string with white space only before and after a core that starts
      and ends with a non-white character trims to that core. */
  lemma TrimOfPadded(w1: string, core: string, w2: string)
    requires IsBlank(w1) && IsBlank(w2)
    requires |core| > 0 && !IsWhiteSpace(core[0]) && !IsWhiteSpace(core[|core| - 1])
    ensures TrimEnd(w1 + core + w2) == w1 + core
    ensures TrimStart(w1 + core) == core
  {
    TrimEndSkipsBlank(w1 + core, w2);
    TrimEndStops(w1, core);
    TrimStartSkipsBlank(w1, core);
    TrimStartStops(core, "");
    assert core + "" == core;
  }

  lemma SplitAt(s: string, n: nat)
    requires n <= |s|
    ensures s == s[..n] + s[n..]
  {
  }

  lemma PaddedParts(v: string, ts: string, core: string)
    requires |ts| <= |v| && ts == v[|v| - |ts|..]
    requires forall i :: 0 <= i < |v| - |ts| ==> IsWhiteSpace(v[i])
    requires |core| <= |ts| && core == ts[..|core|]
    requires forall i :: |core| <= i < |ts| ==> IsWhiteSpace(ts[i])
    ensures v == v[..|v| - |ts|] + core + ts[|core|..]
    ensures IsBlank(v[..|v| - |ts|]) && IsBlank(ts[|core|..])
  {
    SplitAt(v, |v| - |ts|);
    SplitAt(ts, |core|);
    var w2 := ts[|core|..];
    assert IsBlank(w2) by {
      forall i | 0 <= i < |w2| ensures IsWhiteSpace(w2[i]) { assert w2[i] == ts[|core| + i]; }
    }
  }

  /** Trimming the end first does not change what `Trim` gives. */
  lemma TrimAfterTrimEnd(v: string)
    ensures Trim(TrimEnd(v)) == Trim(v)
  {
    var ts := TrimStart(v);
    var core := TrimEnd(ts);
    if |core| == 0 {
      assert IsBlank(v);
    } else {
      PaddedParts(v, ts, core);
      TrimOfPadded(v[..|v| - |ts|], core, ts[|core|..]);
      TrimOfTrimmed(core);
    }
  }

  /** A character the input lacks is not in its trimmed form. */
  lemma TrimKeepsOut(s: string, c: char)
    requires c !in s
    ensures c !in Trim(s)
  {
    var ts := TrimStart(s);
    assert forall i :: 0 <= i < |ts| ==> ts[i] == s[|s| - |ts| + i];
    var r := TrimEnd(ts);
    assert forall i :: 0 <= i < |r| ==> r[i] == ts[i];
  }

  /** ASCII case folding: `A`..`Z` map to `a`..`z`, everything else is kept. */
  function Lower(c: char): char {
    if 'A' <= c <= 'Z' then (c as int + 32) as char else c
  }

  /** `StringComparison.OrdinalIgnoreCase` equality (ASCII folding). */
  predicate EqualsIgnoreCase(a: string, b: string) {
    |a| == |b| && forall i :: 0 <= i < |a| ==> Lower(a[i]) == Lower(b[i])
  }

  lemma EqualsIgnoreCaseSymmetric(a: string, b: string)
    ensures EqualsIgnoreCase(a, b) == EqualsIgnoreCase(b, a)
  {
  }

  lemma EqualsIgnoreCaseTransitive(a: string, b: string, c: string)
    requires EqualsIgnoreCase(a, b) && EqualsIgnoreCase(b, c)
    ensures EqualsIgnoreCase(a, c)
  {
  }

  /** ASCII upper-casing: the ordinal-ignore-case order compares
      characters after mapping `a`..`z` to `A`..`Z`. */
  function Upper(c: char): char {
    if 'a' <= c <= 'z' then (c as int - 32) as char else c
  }

  /** `StringComparer.OrdinalIgnoreCase.Compare(a, b) <= 0`: the first
      differing upper-cased character decides, and a prefix comes first. */
  predicate LeqIgnoreCase(a: string, b: string)
    decreases |a|
  {
    |a| == 0
    || (|b| > 0 && (Upper(a[0]) < Upper(b[0])
                    || (Upper(a[0]) == Upper(b[0]) && LeqIgnoreCase(a[1..], b[1..]))))
  }

  /** Any two names are ordered one way or the other. */
  lemma {:induction false} LeqIgnoreCaseTotal(a: string, b: string)
    ensures LeqIgnoreCase(a, b) || LeqIgnoreCase(b, a)
    decreases |a|
  {
    if |a| > 0 && |b| > 0 && Upper(a[0]) == Upper(b[0]) {
      LeqIgnoreCaseTotal(a[1..], b[1..]);
    }
  }

  lemma {:induction false} LeqIgnoreCaseTransitive(a: string, b: string, c: string)
    requires LeqIgnoreCase(a, b) && LeqIgnoreCase(b, c)
    ensures LeqIgnoreCase(a, c)
    decreases |a|
  {
    if |a| > 0 && Upper(a[0]) == Upper(b[0]) && Upper(b[0]) == Upper(c[0]) {
      LeqIgnoreCaseTransitive(a[1..], b[1..], c[1..]);
    }
  }

  /** `s.StartsWith(p, StringComparison.OrdinalIgnoreCase)`. */
  predicate StartsWithIgnoreCase(s: string, p: string) {
    |p| <= |s| && EqualsIgnoreCase(s[..|p|], p)
  }

  /** `p` occurs, ignoring case, at position `i` of `s`. */
  predicate MatchesAt(s: string, p: string, i: nat) {
    i + |p| <= |s| && EqualsIgnoreCase(s[i..i + |p|], p)
  }

  /** `s.IndexOf(p, StringComparison.OrdinalIgnoreCase)`, searching from `k`. */
  function IndexOfIgnoreCaseFrom(s: string, p: string, k: nat): (r: Option<nat>)
    requires k <= |s|
    ensures r.Some? ==> k <= r.value && MatchesAt(s, p, r.value)
    ensures r.Some? ==> forall j :: k <= j < r.value ==> !MatchesAt(s, p, j)
    ensures r.None? ==> forall j :: k <= j <= |s| ==> !MatchesAt(s, p, j)
    decreases |s| - k
  {
    if MatchesAt(s, p, k) then Some(k)
    else if k == |s| then None
    else IndexOfIgnoreCaseFrom(s, p, k + 1)
  }

  /** `s.IndexOf(p, StringComparison.OrdinalIgnoreCase)`; `None` for -1. */
  function IndexOfIgnoreCase(s: string, p: string): (r: Option<nat>)
    ensures r.Some? ==> MatchesAt(s, p, r.value)
    ensures r.Some? ==> forall j :: 0 <= j < r.value ==> !MatchesAt(s, p, j)
    ensures r.None? ==> forall j :: 0 <= j <= |s| ==> !MatchesAt(s, p, j)
  {
    IndexOfIgnoreCaseFrom(s, p, 0)
  }

  /** `s.IndexOf(c)`; `None` for -1. */
  function IndexOfChar(s: string, c: char): (r: Option<nat>)
    ensures r.Some? ==> r.value < |s| && s[r.value] == c && c !in s[..r.value]
    ensures r.None? ==> c !in s
  {
    if |s| == 0 then None
    else if s[0] == c then Some(0)
    else
      match IndexOfChar(s[1..], c)
      case None => None
      case Some(i) =>
        assert s[..i + 1] == [s[0]] + s[1..][..i];
        Some(i + 1)
  }

  lemma IndexOfCharAfter(a: string, c: char, b: string)
    requires c !in a
    ensures IndexOfChar(a + [c] + b, c) == Some(|a|)
  {
    var s := a + [c] + b;
    assert s[|a|] == c;
    assert s[..|a|] == a;
  }

  /** `s.Split(sep)` (empty entries kept). */
  function Split(s: string, sep: char): (r: seq<string>)
    ensures |r| > 0
    decreases |s|
  {
    match IndexOfChar(s, sep)
    case None => [s]
    case Some(i) => [s[..i]] + Split(s[i + 1..], sep)
  }

  /** `string.Join(sep, fields)`. */
  function Join(fields: seq<string>, sep: char): string
    requires |fields| > 0
  {
    if |fields| == 1 then fields[0] else fields[0] + [sep] + Join(fields[1..], sep)
  }

  /** Splitting undoes joining when no field holds the separator. */
  lemma {:induction false} SplitJoin(fields: seq<string>, sep: char)
    requires |fields| > 0
    requires forall i :: 0 <= i < |fields| ==> sep !in fields[i]
    ensures Split(Join(fields, sep), sep) == fields
    decreases |fields|
  {
    if |fields| > 1 {
      SplitJoin(fields[1..], sep);
      SplitCons(fields[0], sep, Join(fields[1..], sep));
      assert fields == [fields[0]] + fields[1..];
    }
  }

  /** A field before the first separator splits off on its own. */
  lemma SplitCons(a: string, sep: char, rest: string)
    requires sep !in a
    ensures Split(a + [sep] + rest, sep) == [a] + Split(rest, sep)
  {
    var s := a + [sep] + rest;
    IndexOfCharAfter(a, sep, rest);
    assert s[..|a|] == a;
    assert s[|a| + 1..] == rest;
  }

  /** A directory separator on Windows. */
  predicate IsSeparator(c: char) {
    c == '\\' || c == '/'
  }

  /** `Path.IsPathRooted` on Windows: a leading separator, or a drive
      letter followed by `:`. */
  predicate IsPathRooted(p: string) {
    (|p| >= 1 && IsSeparator(p[0]))
    || (|p| >= 2 && p[1] == ':' && ('a' <= Lower(p[0]) <= 'z'))
  }

  /** `Path.Combine(a, b)` on Windows (.NET Core): an empty `b` gives `a`;
      an empty `a` or a rooted `b` gives `b`; otherwise a separator is
      inserted unless `a` already ends with one. */
  function PathCombine(a: string, b: string): (r: string)
    ensures |r| >= |b| && r[|r| - |b|..] == b
    ensures !IsPathRooted(b) ==> |r| >= |a| && r[..|a|] == a
    ensures |a| > 0 && |b| > 0 && !IsPathRooted(b) ==>
      |a| <= |r| - |b| <= |a| + 1 && IsSeparator(r[|r| - |b| - 1])
    ensures |b| == 0 ==> r == a
    ensures |b| > 0 && (IsPathRooted(b) || |a| == 0) ==> r == b
  {
    if |b| == 0 then a
    else if |a| == 0 || IsPathRooted(b) then b
    else if IsSeparator(a[|a| - 1]) then a + b
    else a + "\\" + b
  }
}

=== FILE: wrappers.dfy ===
/** Optional values and success/failure results, standing in for the
    nullable references (`string?`, `int?`, `double?`) and the thrown
    `ArgumentException`s of the modelled code. */
module Wrappers {

  /** A value that may be absent (C# `null` / `Nullable<T>` without a value). */
  datatype Option<+T> = None | Some(value: T) {

    /** The value, or `default` when absent (C# `x ?? default`). */
    function GetOr(default: T): T {
      match this
      case Some(v) => v
      case None => default
    }
  }

  /** Either a value or the error that the source would have thrown. */
  datatype Result<+T, +E> = Ok(value: T) | Err(error: E)
}
